=== FILE: README.md ===
# Recipe service: a verified model

This project models the core of a Spring/JPA recipe service. Recipes have
a name, a category, servings, times, a sorted set of instructions (ordered
by step) and a sorted set of ingredients (ordered by description). The
service creates, updates, finds, searches and deletes recipes and patches
their child sets. The project proves properties of that model in Dafny.

Layout, one module per source unit:

- `abstract_entity.dfy`, `ingredient.dfy`, `instruction.dfy`, `recipe.dfy`:
  the entities. Id equality and the class-only hash sit in the base class;
  the subclass equality adds a same-class check. The children's natural
  orders disagree with their equality. `Recipe` is a class: `prePersist`
  and the update mapper change its fields in place.
- `ingredient_dto.dfy`, `instruction_dto.dfy`, `recipe_dtos.dfy`,
  `category.dfy`: the wire payloads. A field left out of a sparse update
  is `None`.
- `name_converter.dfy`: the `capitalize(lowerCase(s))` rule. The attribute
  converter applies it to child descriptions and `prePersist` applies it to
  recipe names.
- `tree_set.dfy`, `streams.dfy`, `text.dfy`: the library behaviour the core
  relies on:
  - `TreeSet.add`/`addAll`/`removeIf` over a comparator;
  - `Collectors.toMap`, which throws on a repeated key;
  - `String.compareTo`, `String.hashCode` (over Basic Multilingual Plane
    characters) and 32-bit wrap-around;
  - SQL `UPPER`/`LOWER`/`LIKE`.
- `recipe_mapper.dfy`, `instruction_mapper.dfy`, `ingredient_mapper.dfy`:
  the mappers.
- `recipe_repository.dfy`, `ingredient_repository.dfy`: the
  case-insensitive name queries and the recipe-scoped ingredient queries.
- `spec_builder.dfy`: the search filter builder and what each clause
  demands of a recipe.
- `recipe_service.dfy`: the recipe service as a class.
  - The table is `store: map<Uuid, Recipe>` plus an id counter.
  - `Contents()` is the table as values. A saved recipe is kept in the
    form the next transaction loads it (`Reloaded`): child descriptions as
    the converter wrote them, each child set sorted afresh. Responses hand
    back the in-memory state, before that round trip (for an update, also
    before `preUpdate` normalizes the name at commit).
  - At commit the validator checks the recipe's field constraints
    (`FieldConstraints`), then the unique constraints are checked on the
    rows written (`FitsStorage`).
  - Every operation either fails with the source's exception and leaves
    the table unchanged (the transaction rolls back), or saves the
    changed recipe.
  - Every operation keeps the table invariant `StoreInvariant`: ids match
    their keys and are below the counter, names are normalized and unique
    ignoring case, and children satisfy their tables' unique constraints.
- `ingredient_service.dfy`: the ingredient service over the ingredient
  table.
- `exception_translator.dfy`, `errors.dfy`: exceptions as values, their
  messages, and the HTTP status each handler answers with.

Ids are natural numbers handed out by a counter. Only their equality
matters.

## Model

| member | source | states |
|---|---|---|
| AbstractEntity.Equals | src/main/java/com/km/recipe/domain/AbstractEntity.java:28-36 | the same object is equal; null and non-entities are not; between distinct entities, equal exactly when the receiver's id is non-null and the other's id is the same |
| AbstractEntity.HashDependsOnClassOnly | src/main/java/com/km/recipe/domain/AbstractEntity.java:38-41 | two objects of one runtime class hash alike whatever their ids |
| AbstractEntity.SubclassEquals | src/main/java/com/km/recipe/domain/Ingredient.java:18 | the Lombok equality holds exactly when the inherited equality holds and the classes match |
| AbstractEntity.SameClassEquals | src/main/java/com/km/recipe/domain/Ingredient.java:18 | two ingredients, or two instructions (Instruction.java:20), are equal exactly when they are one object or share a non-null id |
| AbstractEntity.SubclassHashCode | src/main/java/com/km/recipe/domain/Ingredient.java:18 | the Lombok hash is a 32-bit int |
| AbstractEntity.EqualsReflexive | src/main/java/com/km/recipe/domain/AbstractEntity.java:29-31 | every entity equals itself under both equalities |
| AbstractEntity.UnsavedNeverEqual | src/main/java/com/km/recipe/domain/AbstractEntity.java:35 | two distinct unsaved entities are never equal |
| AbstractEntity.EqualsSymmetric | src/main/java/com/km/recipe/domain/AbstractEntity.java:28-36 | between entities, both equalities are symmetric |
| AbstractEntity.EqualsTransitive | src/main/java/com/km/recipe/domain/AbstractEntity.java:28-36 | equality between entities is transitive |
| AbstractEntity.SubclassHashConsistent | src/main/java/com/km/recipe/domain/Instruction.java:20 | under the Lombok equality, equal entities have equal hash codes |
| AbstractEntity.BaseEqualsIgnoresClass | src/main/java/com/km/recipe/domain/AbstractEntity.java:32-41 | the inherited equals alone makes an ingredient and an instruction with one id equal, though their hashes differ; the Lombok equality does not |
| IngredientEntity.CompareTo | src/main/java/com/km/recipe/domain/Ingredient.java:28-31 | zero exactly for equal descriptions; negative exactly when the reverse comparison is positive |
| IngredientEntity.CompareToIsTotalOrder | src/main/java/com/km/recipe/domain/Ingredient.java:28-31 | the ingredient order is reflexive, antisymmetric and transitive, as a TreeSet needs |
| IngredientEntity.CompareToInconsistentWithEquals | src/main/java/com/km/recipe/domain/Ingredient.java:18-31 | one description with two ids compares as 0 but is not equal; one id with two descriptions is equal but compares non-zero |
| IngredientEntity.SortedDescriptionsDistinct | src/main/java/com/km/recipe/domain/Recipe.java:59-63 | a sorted ingredient set never repeats a description |
| IngredientEntity.AddSameDescriptionDropped | src/main/java/com/km/recipe/domain/Recipe.java:63 | adding an ingredient whose description is present leaves the set exactly as it was |
| IngredientEntity.Stored | src/main/java/com/km/recipe/domain/Ingredient.java:24-26 | the stored row keeps id and recipe id, and its description is normalized |
| IngredientEntity.SortedSetIsStorageUnique | src/main/java/com/km/recipe/domain/Ingredient.java:11-13 | a sorted set meets the (recipe_id, description) constraint as held in memory |
| IngredientEntity.CollidingRowsViolateStorage | src/main/java/com/km/recipe/domain/Ingredient.java:11-13 | two rows of one recipe whose descriptions convert alike break the constraint once written |
| IngredientEntity.UpperVariantSortsFirst | src/main/java/com/km/recipe/domain/Ingredient.java:28-31 | "5 TOMATOES" sorts before "5 tomatoes" |
| IngredientEntity.CaseVariantsNormalizeAlike | src/main/java/com/km/recipe/domain/Ingredient.java:24-26 | "5 TOMATOES" and "5 tomatoes" are stored as one text |
| IngredientEntity.CaseVariantsBothKept | src/main/java/com/km/recipe/domain/Ingredient.java:28-31 | the sorted set keeps both case variants, the upper one first |
| IngredientEntity.CaseVariantsCollideInStorage | src/main/java/com/km/recipe/domain/Ingredient.java:11-13 | the two kept case variants violate the unique constraint once written |
| InstructionEntity.CompareTo | src/main/java/com/km/recipe/domain/Instruction.java:37-40 | the sign of the result is the order of the steps |
| InstructionEntity.CompareToIsTotalOrder | src/main/java/com/km/recipe/domain/Instruction.java:37-40 | the step order is a total order, as a TreeSet needs |
| InstructionEntity.CompareToInconsistentWithEquals | src/main/java/com/km/recipe/domain/Instruction.java:20-40 | one id with two steps is equal but compares non-zero; one step with two ids compares as 0 but is not equal |
| InstructionEntity.SortedStepsAscend | src/main/java/com/km/recipe/domain/Recipe.java:53-57 | a sorted instruction set iterates in strictly ascending step order |
| InstructionEntity.AddSameStepDropped | src/main/java/com/km/recipe/domain/Recipe.java:57 | adding an instruction whose step is present leaves the set exactly as it was |
| InstructionEntity.Stored | src/main/java/com/km/recipe/domain/Instruction.java:26-31 | the stored row normalizes the description and keeps id, recipe id, step and detail |
| InstructionEntity.SortedSetMayRepeatDescriptions | src/main/java/com/km/recipe/domain/Instruction.java:12-15 | the set admits two steps with one description, which break the description constraint |
| InstructionEntity.SortedStepsUnique | src/main/java/com/km/recipe/domain/Instruction.java:12-13 | distinct positions of a sorted set hold distinct steps |
| IngredientDto.CompareTo | src/main/java/com/km/recipe/dto/IngredientDTO.java:21-24 | negative exactly when the reverse comparison of the descriptions is positive |
| IngredientDto.HashCode | src/main/java/com/km/recipe/dto/IngredientDTO.java:34-37 | the hash is a 32-bit int |
| IngredientDto.CompareToConsistentWithEquals | src/main/java/com/km/recipe/dto/IngredientDTO.java:21-32 | compareTo is 0 exactly when equals holds |
| IngredientDto.HashConsistentWithEquals | src/main/java/com/km/recipe/dto/IngredientDTO.java:26-37 | equal DTOs have equal hashes |
| IngredientDto.IdIgnored | src/main/java/com/km/recipe/dto/IngredientDTO.java:16-32 | changing the id changes neither equality nor order |
| IngredientDto.CompareToIsTotalOrder | src/main/java/com/km/recipe/dto/IngredientDTO.java:21-24 | the DTO order is a total order |
| InstructionDto.CompareTo | src/main/java/com/km/recipe/dto/InstructionDTO.java:31-34 | negative exactly when the reverse comparison of the descriptions is positive |
| InstructionDto.HashCode | src/main/java/com/km/recipe/dto/InstructionDTO.java:44-47 | a 32-bit int; 31 for a null description |
| InstructionDto.CompareToConsistentWithEquals | src/main/java/com/km/recipe/dto/InstructionDTO.java:31-42 | compareTo is 0 exactly when equals holds |
| InstructionDto.HashConsistentWithEquals | src/main/java/com/km/recipe/dto/InstructionDTO.java:36-47 | equal DTOs have equal hashes |
| InstructionDto.OnlyDescriptionMatters | src/main/java/com/km/recipe/dto/InstructionDTO.java:19-42 | id, step and detail take no part in equality or order |
| InstructionDto.DtoOrderDiffersFromEntityOrder | src/main/java/com/km/recipe/dto/InstructionDTO.java:31-34 | two items sort one way as DTOs (by description) and the other way as entities (by step) |
| NameConverter.Normalize | src/main/java/com/km/recipe/domain/NameConverter.java:11-13 | same length; the first character is upper-cased after lower-casing; every later one is lower-cased |
| NameConverter.ConvertToDatabaseColumn | src/main/java/com/km/recipe/domain/NameConverter.java:10-13 | null stays null; any other value keeps its length, is normalized and equals the input ignoring case |
| NameConverter.ConvertToEntityAttribute | src/main/java/com/km/recipe/domain/NameConverter.java:15-18 | the column value comes back unchanged |
| NameConverter.NormalizeIsNormalized | src/main/java/com/km/recipe/domain/NameConverter.java:11-13 | the result never has a lower-case first letter or a later upper-case letter |
| NameConverter.NormalizedIsFixpoint | src/main/java/com/km/recipe/domain/NameConverter.java:11-13 | a normalized string is returned unchanged |
| NameConverter.NormalizeIdempotent | src/main/java/com/km/recipe/domain/NameConverter.java:11-13 | converting twice is converting once |
| NameConverter.NormalizeKeepsUpperCase | src/main/java/com/km/recipe/domain/repository/RecipeRepository.java:16-24 | converting a name never changes it as UPPER sees it, so the name queries find stored names |
| NameConverter.UpperOfLower | src/main/java/com/km/recipe/domain/NameConverter.java:12 | upper-casing forgets a prior lower-casing |
| NameConverter.NormalizeKeepsLowerCase | src/main/java/com/km/recipe/util/RecipeSpecificationBuilder.java:85-99 | converting never changes a string as LOWER sees it |
| NameConverter.NormalizeIgnoresCase | src/main/java/com/km/recipe/domain/NameConverter.java:12 | strings equal after lower-casing convert to the same text |
| NameConverter.NormalizeTomatoes | src/main/java/com/km/recipe/domain/NameConverter.java:12 | "5 Tomatoes" is written as "5 tomatoes" |
| NameConverter.NormalizeKeepsTomatoes | src/main/java/com/km/recipe/domain/NameConverter.java:11-13 | "5 tomatoes" is written unchanged |
| NameConverter.NormalizeBeefStew | src/main/java/com/km/recipe/domain/NameConverter.java:11-13 | "Beef Stew" is written as "Beef stew"; null as null |
| NameConverter.ReadAfterWrite | src/main/java/com/km/recipe/domain/NameConverter.java:10-18 | reading back gives the normalized text, which equals the original exactly when that was normalized |
| RecipeEntity.HashCode | src/main/java/com/km/recipe/domain/Recipe.java:18-26 | the name-only hash is a 32-bit int |
| RecipeEntity.EqualityIsByName | src/main/java/com/km/recipe/domain/Recipe.java:18-26 | recipes are equal exactly when their names are, whatever the id; equal recipes hash alike |
| RecipeEntity.SavedEqualsUnsaved | src/main/java/com/km/recipe/domain/Recipe.java:18 | a saved and an unsaved recipe with one name are equal |
| RecipeEntity.Recipe.Build | src/main/java/com/km/recipe/domain/Recipe.java:53-63 | a built recipe has no id, the given fields and empty, sorted child sets |
| RecipeEntity.Recipe.PrePersist | src/main/java/com/km/recipe/domain/Recipe.java:65-69 | only the name changes; it becomes normalized, keeps its length and equals the old name ignoring case |
| RecipeEntity.PrePersistBeefStew | src/main/java/com/km/recipe/domain/Recipe.java:65-69 | a recipe built as "Beef Stew" holds the name "Beef stew" once prePersist has run |
| Category.ValueOf | src/main/java/com/km/recipe/util/RecipeSpecificationBuilder.java:103 | the constant of that name when one exists, and only then |
| RecipeMapper.ToCategoryType | src/main/java/com/km/recipe/mappers/RecipeMapper.java:31-44 | null exactly for null; otherwise the domain constant of the same name |
| RecipeMapper.ToCategoryTypeInjective | src/main/java/com/km/recipe/mappers/RecipeMapper.java:36-43 | distinct categories map to distinct domain categories |
| RecipeMapper.ToCategoryTypeIsValueOfName | src/main/java/com/km/recipe/util/RecipeSpecificationBuilder.java:102-104 | the switch agrees with CategoryType.valueOf(dto.name()) |
| RecipeMapper.ApplyUpdate | src/main/java/com/km/recipe/mappers/RecipeMapper.java:46-47 | each scalar field takes the payload value when non-null and keeps its own otherwise; id and children never change |
| RecipeMapper.ApplyUpdateIdempotent | src/main/java/com/km/recipe/mappers/RecipeMapper.java:46-47 | applying one payload twice is applying it once |
| RecipeMapper.EmptyUpdateChangesNothing | src/main/java/com/km/recipe/mappers/RecipeMapper.java:46 | an all-null payload changes nothing |
| RecipeMapper.OmittedCategoryKept | src/main/java/com/km/recipe/mappers/RecipeMapper.java:46-47 | leaving out the category keeps the stored one |
| RecipeMapper.UpdateRecipe | src/main/java/com/km/recipe/mappers/RecipeMapper.java:46-47 | mutates the target recipe to ApplyUpdate of its old state and returns that same object |
| RecipeMapper.NewInstructions | src/main/java/com/km/recipe/service/impl/RecipeServiceImpl.java:165-167 | one entity per item, in order, with the item's step and a fresh id |
| RecipeMapper.NewIngredients | src/main/java/com/km/recipe/service/impl/RecipeServiceImpl.java:131-133 | one entity per item, in order, with the item's description and a fresh id |
| RecipeMapper.Created | src/main/java/com/km/recipe/service/impl/RecipeServiceImpl.java:48 | the new recipe has the given id, name, category, servings and times; each child set is addAll of new entities for the payload items, in order, under the ids after the recipe's own; both sets sorted |
| RecipeMapper.CreatedHoldsIngredients | src/main/java/com/km/recipe/service/impl/RecipeServiceImpl.java:48 | every payload ingredient's description is in the created recipe, and every created ingredient's description comes from the payload |
| RecipeMapper.FilledIngredients | src/main/java/com/km/recipe/service/impl/RecipeServiceImpl.java:48 | an ingredient set filled from items holds exactly the items' descriptions |
| RecipeMapper.MissingDescriptionMattersOnlyWhenKept | src/main/java/com/km/recipe/domain/Instruction.java:26-28 | an item without a description is refused only when the sorted set keeps it: second of two with one step it is dropped, first it is kept |
| RecipeMapper.CarriedIdMattersOnlyWhenKept | src/main/java/com/km/recipe/domain/Recipe.java:59-63 | an item's own id fails the persist only when the sorted set keeps it: second of two with one description it is dropped, first it is kept |
| RecipeMapper.CreatedHoldsInstructions | src/main/java/com/km/recipe/service/impl/RecipeServiceImpl.java:48 | every payload instruction's step is in the created recipe, and every created instruction's step comes from the payload |
| RecipeMapper.FilledInstructions | src/main/java/com/km/recipe/service/impl/RecipeServiceImpl.java:48 | an instruction set filled from items holds exactly the items' steps |
| RecipeMapper.AddedIngredientsPresent | src/main/java/com/km/recipe/service/impl/RecipeServiceImpl.java:131-135 | after addAll the set is sorted, keeps its elements and has every new description |
| RecipeMapper.AddedInstructionsPresent | src/main/java/com/km/recipe/service/impl/RecipeServiceImpl.java:165-169 | after addAll the set is sorted, keeps its elements and has every new step |
| InstructionMapper.ToEntity | src/main/java/com/km/recipe/mappers/InstructionMapper.java:17 | the entity carries the item's id, step, texts and no recipe id |
| InstructionMapper.Patch | src/main/java/com/km/recipe/mappers/InstructionMapper.java:25-41 | null changes nothing; a field changes only when the payload gives it (texts non-empty), and then takes that value; ids never change |
| InstructionMapper.PatchIdempotent | src/main/java/com/km/recipe/mappers/InstructionMapper.java:25-41 | patching twice with one payload is patching once |
| InstructionMapper.PatchKeepsEquality | src/main/java/com/km/recipe/mappers/InstructionMapper.java:25-41 | a patched instruction keeps its identity and so its equality |
| InstructionMapper.InstructionRef.constructor | src/main/java/com/km/recipe/service/impl/RecipeServiceImpl.java:147-150 | the cell holds the instruction the forEach hands to the mapper |
| InstructionMapper.Update | src/main/java/com/km/recipe/mappers/InstructionMapper.java:25-41 | the guarded setters leave the target equal to Patch of its old value |
| RecipeRepository.FindByName | src/main/java/com/km/recipe/domain/repository/RecipeRepository.java:16-17 | no match exactly when existsByName is false; a found row matches ignoring case; with unique names it never meets two rows |
| RecipeRepository.ExistsByNameIgnoresCase | src/main/java/com/km/recipe/domain/repository/RecipeRepository.java:19-20 | names equal ignoring case give the same answer |
| RecipeRepository.WithDifferentIdImpliesExists | src/main/java/com/km/recipe/domain/repository/RecipeRepository.java:19-24 | a clash with another recipe is a clash |
| RecipeRepository.ExistsWithoutOthersIsSelf | src/main/java/com/km/recipe/domain/repository/RecipeRepository.java:19-24 | a match that no other recipe explains is the recipe itself |
| RecipeRepository.OwnNameNeverClashes | src/main/java/com/km/recipe/domain/repository/RecipeRepository.java:22-24 | with unique names, a case variant of a recipe's own name never clashes on update |
| RecipeRepository.NullNameNeverMatches | src/main/java/com/km/recipe/domain/repository/RecipeRepository.java:19-24 | a null name matches nothing |
| IngredientRepository.FindAllByRecipeId | src/main/java/com/km/recipe/domain/repository/IngredientRepository.java:16 | exactly the rows of that recipe |
| IngredientRepository.FindAllByRecipeIdAndIdsIn | src/main/java/com/km/recipe/domain/repository/IngredientRepository.java:18-21 | exactly the rows of that recipe whose id is listed |
| IngredientRepository.IdsInNarrowsRecipeQuery | src/main/java/com/km/recipe/domain/repository/IngredientRepository.java:16-21 | the id-filtered query returns part of the recipe query |
| IngredientRepository.NoIdsFindNothing | src/main/java/com/km/recipe/domain/repository/IngredientRepository.java:18-21 | an empty id collection finds nothing |
| IngredientRepository.UnattachedRowsNeverFound | src/main/java/com/km/recipe/domain/repository/IngredientRepository.java:16 | a row without a recipe id is never found under a recipe |
| Streams.ToMap | src/main/java/com/km/recipe/service/impl/RecipeServiceImpl.java:108-109 | succeeds exactly when keys are distinct; then every item sits under its key and every key comes from an item |
| TreeSet.Add | src/main/java/com/km/recipe/domain/Recipe.java:57 | keeps every element, adds at most the new one |
| TreeSet.AddAll | src/main/java/com/km/recipe/service/impl/RecipeServiceImpl.java:135 | keeps every element, adds only given ones, at most one per item |
| TreeSet.RemoveIf | src/main/java/com/km/recipe/service/impl/RecipeServiceImpl.java:93 | exactly the elements the predicate rejects remain |
| TreeSet.AddSorted | src/main/java/com/km/recipe/domain/Recipe.java:57 | adding keeps the set sorted |
| TreeSet.AddKeepsPresentKey | src/main/java/com/km/recipe/domain/Recipe.java:63 | adding a present key changes nothing |
| TreeSet.AddInsertsNewKey | src/main/java/com/km/recipe/domain/Recipe.java:63 | adding a new key inserts exactly that element, as a multiset |
| TreeSet.AddHasKey | src/main/java/com/km/recipe/domain/Recipe.java:57 | after adding, the added key is present |
| TreeSet.AddKeepsKeys | src/main/java/com/km/recipe/domain/Recipe.java:57 | keys present before an add stay present |
| TreeSet.AddAllSorted | src/main/java/com/km/recipe/service/impl/RecipeServiceImpl.java:169 | addAll keeps the set sorted |
| TreeSet.AddAllKeepsKeys | src/main/java/com/km/recipe/service/impl/RecipeServiceImpl.java:169 | addAll keeps every present key |
| TreeSet.AddAllOutcome | src/main/java/com/km/recipe/service/impl/RecipeServiceImpl.java:135 | every added key is present afterwards, and the first item of each new key is itself kept |
| TreeSet.AddAllDistinctKeepsAll | src/main/java/com/km/recipe/domain/Recipe.java:57-63 | filling an empty set from elements with pairwise different keys keeps exactly those elements |
| TreeSet.AddGreatest | src/main/java/com/km/recipe/domain/Recipe.java:57 | adding an element above every present one appends it |
| TreeSet.AddAllAscending | src/main/java/com/km/recipe/domain/Recipe.java:57-63 | adding an ascending run above a set appends it, so a sorted set refilled from itself is unchanged |
| TreeSet.ZeroIsSymmetric | src/main/java/com/km/recipe/domain/Ingredient.java:28-31 | under a total order, comparing as 0 is symmetric |
| TreeSet.RemoveIfSorted | src/main/java/com/km/recipe/service/impl/RecipeServiceImpl.java:100 | removing keeps the set sorted |
| TreeSet.RemoveIfKeepsOrder | src/main/java/com/km/recipe/service/impl/RecipeServiceImpl.java:93 | removeIf keeps relative order: it distributes over concatenation |
| TreeSet.RemoveIfNothingMatches | src/main/java/com/km/recipe/service/impl/RecipeServiceImpl.java:100 | when nothing matches, nothing changes |
| TreeSet.RemoveIfEverythingMatches | src/main/java/com/km/recipe/service/impl/RecipeServiceImpl.java:93 | when every element matches, nothing remains |
| TreeSet.RemoveIfKeepsDistinctKeys | src/main/java/com/km/recipe/domain/Ingredient.java:11-13 | removing never makes two remaining elements share a key |
| Text.LowerCase | src/main/java/com/km/recipe/domain/NameConverter.java:12 | same length, each character lower-cased |
| Text.UpperCase | src/main/java/com/km/recipe/domain/repository/RecipeRepository.java:16 | same length, each character upper-cased |
| Text.Capitalize | src/main/java/com/km/recipe/domain/NameConverter.java:12 | same length; only the first character is upper-cased |
| Text.ToLower | src/main/java/com/km/recipe/domain/NameConverter.java:12 | the result is never upper case; an upper-case letter becomes lower case; anything else is kept |
| Text.ToUpper | src/main/java/com/km/recipe/domain/repository/RecipeRepository.java:16 | the result is never lower case; a lower-case letter becomes upper case; anything else is kept |
| Text.CompareAntisymmetric | src/main/java/com/km/recipe/domain/Ingredient.java:30 | String.compareTo is antisymmetric |
| Text.CompareZeroIffEqual | src/main/java/com/km/recipe/domain/Ingredient.java:30 | String.compareTo is 0 exactly for equal strings |
| Text.CompareTransitive | src/main/java/com/km/recipe/domain/Ingredient.java:30 | String.compareTo's "less than" is transitive |
| Text.CompareInt | src/main/java/com/km/recipe/domain/Instruction.java:39 | Integer.compareTo's sign is the order of the operands |
| Text.Wrap32 | src/main/java/com/km/recipe/dto/IngredientDTO.java:36 | a 32-bit int congruent to the input modulo 2^32 |
| Text.StringHash | src/main/java/com/km/recipe/dto/IngredientDTO.java:36 | String.hashCode is a 32-bit int |
| Text.NatToText | src/main/java/com/km/recipe/service/impl/RecipeServiceImpl.java:86 | a non-empty string of decimal digits |
| Text.ContainsNoLonger | src/main/java/com/km/recipe/util/RecipeSpecificationBuilder.java:87-92 | a LIKE '%v%' match is no shorter than v |
| Text.ContainsSuffix | src/main/java/com/km/recipe/util/RecipeSpecificationBuilder.java:87-92 | a string matches '%v%' for each of its suffixes v |
| ServiceErrors.MessagesCarryArguments | src/main/java/com/km/recipe/exceptions/RecipeViolationException.java:5-7 | the not-found and violation messages carry the id and the name verbatim after their fixed prefixes |
| ExceptionTranslator.Handle | src/main/java/com/km/recipe/exceptions/ExceptionTranslator.java:21-44 | 404, 409, 422, 400 and 500 each for exactly one kind of exception; the body is the exception's message |
| ExceptionTranslator.StatusIdentifiesKind | src/main/java/com/km/recipe/exceptions/ExceptionTranslator.java:21-44 | equal statuses mean the same kind of exception |
| ExceptionTranslator.HandleMethodArgumentNotValid | src/main/java/com/km/recipe/exceptions/ExceptionTranslator.java:46-63 | 400, "Invalid request sent", every field error line in order, then every global error line |
| RecipeSpecificationBuilder.IngredientsExcludes | src/main/java/com/km/recipe/util/RecipeSpecificationBuilder.java:61-67 | the AND of the per-value negated row tests is exactly the clause's meaning |
| RecipeSpecificationBuilder.IngredientsIncludes | src/main/java/com/km/recipe/util/RecipeSpecificationBuilder.java:69-75 | the AND of the per-value row tests is exactly the clause's meaning |
| RecipeSpecificationBuilder.InstructionsIncludes | src/main/java/com/km/recipe/util/RecipeSpecificationBuilder.java:77-83 | the AND of the per-value instruction tests is exactly the clause's meaning |
| RecipeSpecificationBuilder.Builder.constructor | src/main/java/com/km/recipe/util/RecipeSpecificationBuilder.java:12 | a new builder holds no clause |
| RecipeSpecificationBuilder.Builder.WithRecipeId | src/main/java/com/km/recipe/util/RecipeSpecificationBuilder.java:14-17 | a non-null id appends the id clause; null appends nothing |
| RecipeSpecificationBuilder.Builder.WithServings | src/main/java/com/km/recipe/util/RecipeSpecificationBuilder.java:19-24 | a positive count appends the servings clause; null or non-positive appends nothing |
| RecipeSpecificationBuilder.Builder.WithExcludedIngredients | src/main/java/com/km/recipe/util/RecipeSpecificationBuilder.java:26-31 | a non-empty list appends the exclusion clause |
| RecipeSpecificationBuilder.Builder.WithIncludedIngredients | src/main/java/com/km/recipe/util/RecipeSpecificationBuilder.java:33-38 | a non-empty list appends the inclusion clause |
| RecipeSpecificationBuilder.Builder.WithInstructions | src/main/java/com/km/recipe/util/RecipeSpecificationBuilder.java:40-45 | a non-empty list appends the instruction clause |
| RecipeSpecificationBuilder.Builder.WithCategory | src/main/java/com/km/recipe/util/RecipeSpecificationBuilder.java:47-51 | a non-null category appends the category clause |
| RecipeSpecificationBuilder.EmptyFilterMatchesAll | src/main/java/com/km/recipe/util/RecipeSpecificationBuilder.java:12 | with no clause every recipe matches |
| RecipeSpecificationBuilder.MatchesConcat | src/main/java/com/km/recipe/util/RecipeSpecificationBuilder.java:15-49 | appending clauses ANDs them with the existing ones |
| RecipeSpecificationBuilder.IdClauseSelectsRecipe | src/main/java/com/km/recipe/util/RecipeSpecificationBuilder.java:53-55 | the id clause admits exactly the recipe with that id |
| RecipeSpecificationBuilder.CategoryClauseMatchesMappedCategory | src/main/java/com/km/recipe/util/RecipeSpecificationBuilder.java:102-104 | the category clause admits exactly the recipes whose category the mapper gives for it |
| RecipeSpecificationBuilder.LowerCaseIgnoresConversion | src/main/java/com/km/recipe/util/RecipeSpecificationBuilder.java:87-88 | LOWER of a converted description equals LOWER of the raw one |
| RecipeSpecificationBuilder.RowTestIgnoresConversion | src/main/java/com/km/recipe/util/RecipeSpecificationBuilder.java:85-93 | the row test answers alike on the stored and the raw description |
| RecipeSpecificationBuilder.LowerCaseIgnoresUpperCase | src/main/java/com/km/recipe/util/RecipeSpecificationBuilder.java:87 | lowerCase forgets a prior upper-casing |
| RecipeSpecificationBuilder.ClausesIgnoreCase | src/main/java/com/km/recipe/util/RecipeSpecificationBuilder.java:85-100 | the substring clauses ignore the case of the substring |
| RecipeSpecificationBuilder.ExcludeSingleIngredient | src/main/java/com/km/recipe/util/RecipeSpecificationBuilder.java:61-67 | with one ingredient, exclusion passes exactly when that ingredient contains none of the substrings |
| RecipeSpecificationBuilder.ExcludeMultipleIngredientsLeaks | src/main/java/com/km/recipe/util/RecipeSpecificationBuilder.java:85-91 | excluding "salt" keeps a recipe of "Salt" and "Oil", which inclusion of "salt" also admits |
| RecipeSpecificationBuilder.NoIngredientsNoMatch | src/main/java/com/km/recipe/util/RecipeSpecificationBuilder.java:86 | a recipe without ingredients fails every ingredient clause, exclusion included |
| RecipeServiceImpl.Saved | src/main/java/com/km/recipe/domain/Recipe.java:65-69 | the saved name is normalized and equals the given one ignoring case; nothing else changes |
| RecipeServiceImpl.ReloadKeepsIngredients | src/main/java/com/km/recipe/domain/Recipe.java:59-63 | refilling a set from rows with pairwise different descriptions keeps exactly those rows |
| RecipeServiceImpl.ReloadKeepsInstructions | src/main/java/com/km/recipe/domain/Recipe.java:53-57 | refilling a set from rows with pairwise different steps keeps exactly those rows |
| RecipeServiceImpl.ReloadedIngredients | src/main/java/com/km/recipe/domain/Ingredient.java:11-31 | storable ingredients reload as exactly their written rows: sorted, normalized, keys still distinct |
| RecipeServiceImpl.StoredInstructionKeysDistinct | src/main/java/com/km/recipe/domain/Instruction.java:12-28 | two instructions with different stored descriptions still differ once written |
| RecipeServiceImpl.StoredInstructionsDistinct | src/main/java/com/km/recipe/domain/Instruction.java:12-35 | written instruction rows keep distinct descriptions and distinct steps |
| RecipeServiceImpl.SortedRowsKeepDistinctKeys | src/main/java/com/km/recipe/domain/Instruction.java:12-15 | any sorted selection of such rows meets both instruction constraints |
| RecipeServiceImpl.ReloadedInstructions | src/main/java/com/km/recipe/domain/Instruction.java:12-40 | storable instructions reload as exactly their written rows: sorted, normalized, both keys distinct |
| RecipeServiceImpl.ReloadedChildren | src/main/java/com/km/recipe/domain/Recipe.java:53-63 | a storable recipe reloads in loaded form, still storable, with only its children changed, each to its written rows |
| RecipeServiceImpl.ReloadedIsFixpoint | src/main/java/com/km/recipe/domain/Recipe.java:53-63 | a recipe already in loaded form reloads as itself |
| RecipeServiceImpl.ReloadedEntry | src/main/java/com/km/recipe/domain/Recipe.java:23-63 | a well-formed storable recipe within the field constraints reloads as a table entry |
| RecipeServiceImpl.ChildIdsBelowGrows | src/main/java/com/km/recipe/service/impl/RecipeServiceImpl.java:131-136 | child ids below a bound stay below any larger one |
| RecipeServiceImpl.UpdateWithoutNameKeepsName | src/main/java/com/km/recipe/domain/Recipe.java:65-69 | an update without a name leaves a stored name as it is |
| RecipeServiceImpl.CreatedChildIds | src/main/java/com/km/recipe/service/impl/RecipeServiceImpl.java:47-49 | a created recipe's children get ids after the recipe's own, below the next free id |
| RecipeServiceImpl.ReplaceKeepsInvariant | src/main/java/com/km/recipe/service/impl/RecipeServiceImpl.java:64-65 | replacing a row with a well-formed one whose name clashes with no other keeps the invariant |
| RecipeServiceImpl.InsertKeepsInvariant | src/main/java/com/km/recipe/service/impl/RecipeServiceImpl.java:49 | a well-formed new row under a fresh id, clashing with no name, keeps the invariant |
| RecipeServiceImpl.CreatedIsWellFormed | src/main/java/com/km/recipe/service/impl/RecipeServiceImpl.java:42-49 | a created recipe carries the next id, child ids below the moved counter and a normalized name that clashes with no row when the payload's does not |
| RecipeServiceImpl.InsertReloadedKeepsInvariant | src/main/java/com/km/recipe/service/impl/RecipeServiceImpl.java:49 | a well-formed new recipe within the field constraints joins the table, as it reloads, under a fresh id and keeps the invariant |
| RecipeServiceImpl.UpdatedKeepsInvariant | src/main/java/com/km/recipe/service/impl/RecipeServiceImpl.java:57-66 | an update that passes the name check keeps the invariant |
| RecipeServiceImpl.RemoveKeepsInvariant | src/main/java/com/km/recipe/service/impl/RecipeServiceImpl.java:87 | dropping a row keeps the invariant |
| RecipeServiceImpl.ReplaceReloadedKeepsInvariant | src/main/java/com/km/recipe/service/impl/RecipeServiceImpl.java:118 | replacing a recipe by its reloaded new children, same id and name, within the constraints, keeps the invariant |
| RecipeServiceImpl.AddedIngredientsWellFormed | src/main/java/com/km/recipe/service/impl/RecipeServiceImpl.java:131-136 | adding ingredients under fresh ids keeps child ids below the moved counter and the field constraints |
| RecipeServiceImpl.AddedInstructionsWellFormed | src/main/java/com/km/recipe/service/impl/RecipeServiceImpl.java:165-170 | adding instructions under fresh ids keeps child ids below the moved counter and the field constraints |
| RecipeServiceImpl.PatchedIngredientsWellFormed | src/main/java/com/km/recipe/service/impl/RecipeServiceImpl.java:111-116 | patching ingredients keeps child ids and the field constraints |
| RecipeServiceImpl.PatchedInstructionsWellFormed | src/main/java/com/km/recipe/service/impl/RecipeServiceImpl.java:147-150 | patching instructions keeps child ids and the field constraints |
| RecipeServiceImpl.FindByNameIsUnique | src/main/java/com/km/recipe/domain/repository/RecipeRepository.java:16-17 | in a table that keeps the invariant, findByName never meets two rows |
| RecipeServiceImpl.RemoveIfKeepsLoaded | src/main/java/com/km/recipe/service/impl/RecipeServiceImpl.java:93-100 | removing children keeps a loaded, storable recipe loaded and storable |
| RecipeServiceImpl.RemovedChildrenKeepInvariant | src/main/java/com/km/recipe/service/impl/RecipeServiceImpl.java:91-102 | removing children from one recipe keeps the invariant whenever what is left meets the field constraints |
| RecipeServiceImpl.DeletingEveryInstructionRefused | src/main/java/com/km/recipe/domain/Recipe.java:53-57 | listing every instruction for deletion leaves a recipe the validator refuses |
| RecipeServiceImpl.DeletingEveryIngredientRefused | src/main/java/com/km/recipe/domain/Recipe.java:59-63 | listing every ingredient for deletion leaves a recipe the validator refuses |
| RecipeServiceImpl.CaseVariantIngredientsDoNotFit | src/main/java/com/km/recipe/service/impl/RecipeServiceImpl.java:135-136 | a recipe holding "5 TOMATOES" and "5 tomatoes" cannot be saved |
| RecipeServiceImpl.CaseVariantOfStoredIngredientRefused | src/main/java/com/km/recipe/service/impl/RecipeServiceImpl.java:123-136 | with "5 tomatoes" stored, adding "5 Tomatoes" yields a recipe the unique constraint refuses |
| RecipeServiceImpl.ClashingIngredients | src/main/java/com/km/recipe/domain/Ingredient.java:11-13 | two different ingredients with one stored description break the constraint |
| RecipeServiceImpl.PatchIngredients | src/main/java/com/km/recipe/service/impl/RecipeServiceImpl.java:111-116 | positions, ids and recipe ids are kept (which rows take which description: UpdatedIngredientsTakePayload) |
| RecipeServiceImpl.PatchInstructions | src/main/java/com/km/recipe/service/impl/RecipeServiceImpl.java:147-150 | positions, ids and recipe ids are kept (which rows take which payload: UpdatedInstructionsTakePayload) |
| RecipeServiceImpl.ApplyIngredientPatches | src/main/java/com/km/recipe/service/impl/RecipeServiceImpl.java:111-116 | the loop leaves the ingredients as PatchIngredients gives them |
| RecipeServiceImpl.ApplyInstructionPatches | src/main/java/com/km/recipe/service/impl/RecipeServiceImpl.java:147-150 | the loop of mapper updates leaves the instructions as PatchInstructions gives them |
| RecipeServiceImpl.PatchIngredientsIdempotent | src/main/java/com/km/recipe/service/impl/RecipeServiceImpl.java:111-116 | patching twice with one payload is patching once |
| RecipeServiceImpl.PatchInstructionsIdempotent | src/main/java/com/km/recipe/service/impl/RecipeServiceImpl.java:147-150 | patching twice with one payload is patching once |
| RecipeServiceImpl.PatchIngredientsIgnoresUnknownIds | src/main/java/com/km/recipe/service/impl/RecipeServiceImpl.java:112-115 | payload items whose id matches no ingredient change nothing |
| RecipeServiceImpl.PatchIngredientsMayUnsort | src/main/java/com/km/recipe/service/impl/RecipeServiceImpl.java:111-116 | the in-place patch can leave the sorted set out of order |
| RecipeServiceImpl.UpdatedIngredientsTakePayload | src/main/java/com/km/recipe/service/impl/RecipeServiceImpl.java:108-116 | an ingredient whose id a payload item carries takes that item's description; any other stays as it was |
| RecipeServiceImpl.UpdatedInstructionsTakePayload | src/main/java/com/km/recipe/service/impl/RecipeServiceImpl.java:144-150 | an instruction whose id a payload item carries is run through the mapper with that item; any other stays as it was |
| RecipeServiceImpl.NewEntity | src/main/java/com/km/recipe/service/impl/RecipeServiceImpl.java:48-49 | a fresh entity holding the created recipe with its name normalized |
| RecipeServiceImpl.InsertedRow | src/main/java/com/km/recipe/service/impl/RecipeServiceImpl.java:49 | adding a fresh entity under a new key adds its row and keeps entities distinct |
| RecipeServiceImpl.RemovedRow | src/main/java/com/km/recipe/service/impl/RecipeServiceImpl.java:87 | dropping a key drops its row and keeps entities distinct |
| RecipeServiceImpl.RecipeService.constructor | src/main/java/com/km/recipe/service/impl/RecipeServiceImpl.java:30-39 | an empty table that keeps the invariant |
| RecipeServiceImpl.RecipeService.Insert | src/main/java/com/km/recipe/service/impl/RecipeServiceImpl.java:49 | the row joins the table under its id, the counter moves, the invariant holds |
| RecipeServiceImpl.RecipeService.Create | src/main/java/com/km/recipe/service/impl/RecipeServiceImpl.java:41-54 | a name present ignoring case is a RecipeViolation; an instruction item without a step makes building the sorted set throw; a kept child that came with an id makes the cascading persist throw; a built recipe breaking a field constraint is refused by the validator; a kept instruction without a description, or children storing one key, are refused by the database; each failure leaves the table unchanged; otherwise the recipe as built is returned, stored as it reloads under the next id, and the counter moves past its children |
| RecipeServiceImpl.RecipeService.Persist | src/main/java/com/km/recipe/service/impl/RecipeServiceImpl.java:48-49 | the built recipe, name normalized, joins the table under the next id as it reloads; the counter moves; the invariant holds |
| RecipeServiceImpl.RecipeService.Update | src/main/java/com/km/recipe/service/impl/RecipeServiceImpl.java:56-67 | a clash with another recipe's name comes first (RecipeViolation), then a missing id (RecipeNotFound); otherwise the non-null fields are copied and the response carries the name as sent, while the table keeps it normalized by preUpdate at commit; the validator refuses a result outside the field constraints; failures change nothing |
| RecipeServiceImpl.RecipeService.UpdateInPlace | src/main/java/com/km/recipe/service/impl/RecipeServiceImpl.java:64-65 | only the stored entity changes; the returned state is the mapper's result, and the table holds it with the name normalized |
| RecipeServiceImpl.RecipeService.FindById | src/main/java/com/km/recipe/service/impl/RecipeServiceImpl.java:69-74 | the stored recipe, or RecipeNotFound exactly when the id is absent |
| RecipeServiceImpl.RecipeService.FindAll | src/main/java/com/km/recipe/service/impl/RecipeServiceImpl.java:76-81 | exactly the stored recipes the filter accepts, as stored |
| RecipeServiceImpl.RecipeService.Delete | src/main/java/com/km/recipe/service/impl/RecipeServiceImpl.java:83-88 | a missing id is an InvalidRequest naming it, table unchanged; otherwise exactly that row goes |
| RecipeServiceImpl.RecipeService.Drop | src/main/java/com/km/recipe/service/impl/RecipeServiceImpl.java:87 | exactly that row leaves the table; the invariant holds |
| RecipeServiceImpl.RecipeService.DeleteInstructions | src/main/java/com/km/recipe/service/impl/RecipeServiceImpl.java:90-95 | RecipeNotFound with the table unchanged; otherwise exactly the listed instructions leave that recipe, unless none would remain, which the validator refuses with the table unchanged |
| RecipeServiceImpl.RecipeService.DeleteIngredients | src/main/java/com/km/recipe/service/impl/RecipeServiceImpl.java:97-102 | RecipeNotFound with the table unchanged; otherwise exactly the listed ingredients leave that recipe, unless none would remain, which the validator refuses with the table unchanged |
| RecipeServiceImpl.RecipeService.UpdateIngredients | src/main/java/com/km/recipe/service/impl/RecipeServiceImpl.java:104-120 | RecipeNotFound; a repeated payload id is a duplicate-key failure; otherwise the patched recipe is returned and stored as it reloads, or refused by the unique constraints; every failure leaves the table unchanged |
| RecipeServiceImpl.RecipeService.PatchIngredientsOf | src/main/java/com/km/recipe/service/impl/RecipeServiceImpl.java:111-119 | the patched recipe returned and stored as it reloads, or the unique constraints' refusal with nothing changed |
| RecipeServiceImpl.RecipeService.UpdateInstructions | src/main/java/com/km/recipe/service/impl/RecipeServiceImpl.java:140-154 | RecipeNotFound; a repeated payload id is a duplicate-key failure; otherwise the recipe with every instruction run through the mapper is returned and stored as it reloads, or refused by the unique constraints |
| RecipeServiceImpl.RecipeService.PatchInstructionsOf | src/main/java/com/km/recipe/service/impl/RecipeServiceImpl.java:147-153 | the patched recipe returned and stored as it reloads, or the unique constraints' refusal with nothing changed |
| RecipeServiceImpl.RecipeService.AddIngredients | src/main/java/com/km/recipe/service/impl/RecipeServiceImpl.java:122-138 | RecipeNotFound, then InvalidCreationRequest for any item with an id, then the unique constraints' refusal, or addAll's result under fresh ids returned sorted and stored as it reloads; failures change nothing |
| RecipeServiceImpl.RecipeService.AppendIngredients | src/main/java/com/km/recipe/service/impl/RecipeServiceImpl.java:131-137 | once the checks pass: addAll's result returned and stored as it reloads with the counter moved, or the refusal with nothing changed |
| RecipeServiceImpl.RecipeService.AddInstructions | src/main/java/com/km/recipe/service/impl/RecipeServiceImpl.java:156-172 | RecipeNotFound, then InvalidCreationRequest for any item with an id, then a thrown exception for any item without a step, then the database's refusal of a kept instruction without a description or of a unique-key clash, or addAll's result under fresh ids returned sorted and stored as it reloads; failures change nothing |
| RecipeServiceImpl.RecipeService.AppendInstructions | src/main/java/com/km/recipe/service/impl/RecipeServiceImpl.java:165-171 | once the id checks pass: an item without a step throws; otherwise addAll's result returned and stored as it reloads with the counter moved, or the database's refusal (a kept instruction without a description, a unique-key clash) with nothing changed |
| RecipeServiceImpl.RecipeService.Save | src/main/java/com/km/recipe/service/impl/RecipeServiceImpl.java:136 | the recipe takes the new state, the counter moves, the invariant holds |
| RecipeServiceImpl.RecipeService.SaveChildren | src/main/java/com/km/recipe/service/impl/RecipeServiceImpl.java:118 | a recipe with new children is returned and stored as it reloads when the unique constraints allow it; otherwise the refusal with nothing changed |
| RecipeServiceImpl.RecipeService.Commit | src/main/java/com/km/recipe/service/impl/RecipeServiceImpl.java:94 | the entity takes the new state field by field; only that row changes |
| RecipeServiceImpl.RecipeService.Assign | src/main/java/com/km/recipe/service/impl/RecipeServiceImpl.java:94 | the entity takes the new state field by field; the other rows are untouched |
| IngredientServiceImpl.PayloadIds | src/main/java/com/km/recipe/service/impl/IngredientServiceImpl.java:43-46 | exactly the non-null ids of the payload |
| IngredientServiceImpl.NewRows | src/main/java/com/km/recipe/service/impl/IngredientServiceImpl.java:33-38 | one row per item, with a fresh id, no recipe id and the converted description |
| IngredientServiceImpl.PatchRows | src/main/java/com/km/recipe/service/impl/IngredientServiceImpl.java:54-58 | ids and recipe ids stay; rows not found are untouched; found rows take the payload item's converted description |
| IngredientServiceImpl.PatchKeepsOtherRecipes | src/main/java/com/km/recipe/service/impl/IngredientServiceImpl.java:48-58 | an update leaves every other recipe's rows as they were |
| IngredientServiceImpl.PatchIdempotent | src/main/java/com/km/recipe/service/impl/IngredientServiceImpl.java:54-58 | applying one update twice is applying it once |
| IngredientServiceImpl.FoundRowsTakePayload | src/main/java/com/km/recipe/service/impl/IngredientServiceImpl.java:43-58 | with distinct payload ids, every found row takes its item's converted description |
| IngredientServiceImpl.NullIdsFindNothing | src/main/java/com/km/recipe/service/impl/IngredientServiceImpl.java:43-52 | a payload without ids finds nothing |
| IngredientServiceImpl.NewRowsNotInAnyRecipe | src/main/java/com/km/recipe/service/impl/IngredientServiceImpl.java:33-38 | added rows are found under no recipe |
| IngredientServiceImpl.UnattachedFindNothing | src/main/java/com/km/recipe/domain/Ingredient.java:21-22 | rows without recipe ids hold nothing for any recipe |
| IngredientServiceImpl.DeleteRemovesFoundRows | src/main/java/com/km/recipe/service/impl/IngredientServiceImpl.java:62-65 | a row stays exactly when the lookup does not find it; afterwards the lookup finds nothing |
| IngredientServiceImpl.DeleteKeepsOtherRecipes | src/main/java/com/km/recipe/service/impl/IngredientServiceImpl.java:62-65 | deleting leaves other recipes' rows as they were |
| IngredientServiceImpl.NoIdsDeleteNothing | src/main/java/com/km/recipe/service/impl/IngredientServiceImpl.java:62-65 | an empty id collection deletes nothing |
| IngredientServiceImpl.AppendKeepsInvariant | src/main/java/com/km/recipe/service/impl/IngredientServiceImpl.java:38 | adding rows under fresh ids keeps ids distinct and below the counter |
| IngredientServiceImpl.PatchKeepsInvariant | src/main/java/com/km/recipe/service/impl/IngredientServiceImpl.java:58 | an update keeps the table invariant |
| IngredientServiceImpl.RemoveKeepsInvariant | src/main/java/com/km/recipe/service/impl/IngredientServiceImpl.java:64 | removing rows keeps the table invariant |
| IngredientServiceImpl.IngredientService.constructor | src/main/java/com/km/recipe/service/impl/IngredientServiceImpl.java:17-23 | an empty table that keeps the invariant |
| IngredientServiceImpl.IngredientService.AddIngredients | src/main/java/com/km/recipe/service/impl/IngredientServiceImpl.java:25-39 | any item with an id is an InvalidCreationRequest with the table unchanged; otherwise the new rows are appended and the counter moves |
| IngredientServiceImpl.IngredientService.UpdateIngredients | src/main/java/com/km/recipe/service/impl/IngredientServiceImpl.java:41-59 | nothing found is an InvalidRequest; repeated payload ids a duplicate-key failure; otherwise the found rows are patched; failures change nothing |
| IngredientServiceImpl.IngredientService.DeleteIngredients | src/main/java/com/km/recipe/service/impl/IngredientServiceImpl.java:61-65 | exactly the recipe's listed rows go; the invariant holds |

## Left out

- Persistence as such: transactions, flushing, lazy loading and the
  database itself. The table is a map kept by the service. A failed
  operation leaves it unchanged, which is what the transaction rollback
  gives.
- Ids: UUIDs are modelled as natural numbers from a counter. Messages
  render them in decimal (`Text.NatToText`), not in UUID text.
- Hash-set iteration order: `Collectors.toSet()` before `addAll` has no
  defined order; the model adds the payload items in payload order.
- Re-sorting: the in-place patches keep positions. A `TreeSet` whose keys
  are changed in place is not re-sorted, and the model does not reorder it
  either.
- Flushing: the validator and the unique constraints are checked once, on
  the final state of a save, at commit. Create's `catch` around `save` does
  not see that failure, since the flush happens after `create` returns; so
  a refusal there is an `Unexpected` exception, as everywhere else. Each
  refusal carries a fixed message; the exact Hibernate and driver messages
  are not modelled.
- The validator's refusal is reported before any unique-constraint refusal;
  the model does not say which of the two a real flush would meet first.
- Only the Jakarta constraints on `Recipe` are enforced. `Instruction`
  declares its `@Min(1)` on `step` from the `javax.validation` package,
  which the Jakarta validator ignores, so steps are not checked.
- Child ids on create: a kept child item that carries an id makes the
  cascading persist fail (the entity is taken as detached), and `Create`
  returns `Unexpected` with the table unchanged. Every other child gets a
  fresh id from the counter, which stands for the id the database assigns.
  The model tells which items the sorted sets kept by those fresh ids. The
  exception's wrapping and the entity name in its message are not modelled.
- The recipe name's own unique column is covered by the case-insensitive
  name check. The invariant keeps names unique ignoring case.
- `@PreUpdate` is taken to run on every update that is saved, even one that
  changes no field.
- Request validation of the payloads is not modelled. The lists' own
  `@NotEmpty` does not reach the items, so an instruction item may lack a
  step or a description. A missing step makes `Instruction.compareTo`
  throw a NullPointerException when the sorted set takes the item in; the
  model returns `Unexpected` with a fixed message. A missing description
  is left empty on the in-memory entity, and the save refuses it whenever
  the set keeps that entity.
- Ingredient items always carry a description here. In the source a null
  description makes `Ingredient.compareTo` throw in the same way.
- Pagination and sorting of `findAll`: the model returns every match.
- SQL `LIKE` wildcards inside a search value (`%`, `_`) are treated as
  ordinary characters.
- A row joined twice by the search's inner joins does not duplicate a
  result here; the model returns a map.
- Case mapping covers ASCII letters only; no Unicode case folding.
- InstructionDto.CompareTo: it requires both descriptions, and `Equals`
  the receiver's. The source throws a NullPointerException on a null
  description there instead. No modelled operation sorts or compares
  instruction payloads, since the request lists are plain lists.
- CompareAntisymmetric: like `Text.Compare`, which it is about, it treats
  strings as sequences of Unicode scalar values, while Java compares UTF-16
  code units. The two orders agree only within the Basic Multilingual
  Plane. Above U+FFFF they differ: "😀" sorts after "\uFFFF" here, but
  before it in Java, whose first code unit for it is 0xD83D.
- StringHash: it folds `31 * h + c` over Unicode scalar values, not UTF-16
  code units, so it equals Java's `String.hashCode` only for strings within
  the Basic Multilingual Plane.
- `toDto` and the response mapping: the services return the in-memory
  entity state that `toDto` would map; only the mapping to the DTO itself
  is left out.
- `AbstractAuditableEntity` timestamps are not modelled.
- The `CategoryType` enum, `CreateRecipeDTO` and `AbstractSpecBuilder` are not
  part of this model. Their shapes are reconstructed from their uses.
- IngredientServiceImpl: the `recipe_id` NOT NULL column is not enforced. Rows
  added there carry no recipe id, as the code builds them. The ingredient
  table's (recipe_id, description) constraint is not checked there either.
- `Unexpected` stands for every exception other than the four the service
  declares, including IllegalStateException from the map collector and
  DataIntegrityViolationException outside create.

=== FILE: abstract_entity.dfy ===
/**
 * AbstractEntity: the generated id every entity carries, the identity-or-id
 * equality the entities inherit, and the class-only hash code. Ingredient and
 * Instruction add Lombok's `@EqualsAndHashCode(callSuper = true)` on top,
 * which checks the runtime class before delegating here.
 */
module AbstractEntity {
  import opened Wrappers
  import opened Text

  /** An entity id (a generated UUID); only equality between ids matters. */
  type Uuid = nat

  /** The runtime class of an object, as `instanceof` and `getClass()` see it. */
  datatype ClassName = IngredientClass | InstructionClass | RecipeClass | OtherClass(name: string)

  predicate IsEntityClass(c: ClassName) {
    !c.OtherClass?
  }

  /**
   * A reference to an object: `addr` is its identity, `cls` its runtime class
   * and `id` its id field (None for unsaved entities and non-entities).
   * Two references denote the same object exactly when they are equal values.
   */
  datatype ObjectRef = ObjectRef(addr: nat, cls: ClassName, id: Option<Uuid>)

  /** AbstractEntity.equals: `self` is the receiver, `o == None` stands for null. */
  function Equals(self: ObjectRef, o: Option<ObjectRef>): (r: bool)
    requires IsEntityClass(self.cls)
    ensures o == Some(self) ==> r
    ensures o.None? ==> !r
    ensures o.Some? && !IsEntityClass(o.value.cls) ==> !r
    ensures r && o != Some(self) ==> self.id.Some? && o.value.id == self.id
    ensures o.Some? && IsEntityClass(o.value.cls) && self.id.Some? && o.value.id == self.id ==> r
  {
    if o == Some(self) then true
    else if o.None? || !IsEntityClass(o.value.cls) then false
    else self.id.Some? && self.id == o.value.id
  }

  /** AbstractEntity.hashCode: the hash of the runtime class, whatever the id. */
  function HashCode(self: ObjectRef, classHash: ClassName -> int): int
  {
    classHash(self.cls)
  }

  /** The hash code depends on the runtime class only, so equal entities of one class hash alike. */
  lemma HashDependsOnClassOnly(a: ObjectRef, b: ObjectRef, classHash: ClassName -> int)
    requires a.cls == b.cls
    ensures HashCode(a, classHash) == HashCode(b, classHash)
  {
  }

  /**
   * Lombok's equals under `@EqualsAndHashCode(callSuper = true,
   * onlyExplicitlyIncluded = true)`: the same object, or an object of the same
   * class for which the inherited equals holds (no fields are included).
   */
  function SubclassEquals(self: ObjectRef, o: Option<ObjectRef>): (r: bool)
    requires IsEntityClass(self.cls)
    ensures r ==> Equals(self, o)
    ensures r <==> Equals(self, o) && o.value.cls == self.cls
  {
    o.Some? && (o.value == self || (o.value.cls == self.cls && Equals(self, o)))
  }

  /**
   * Ingredient.equals and Instruction.equals between two objects of one
   * entity class, `a` the receiver: the same object, or one sharing a
   * non-null id. One address holds one object.
   */
  function SameClassEquals(a: ObjectRef, b: ObjectRef): (r: bool)
    requires IsEntityClass(a.cls) && b.cls == a.cls
    requires a.addr == b.addr ==> a == b
    ensures r <==> a.addr == b.addr || (a.id.Some? && a.id == b.id)
  {
    SubclassEquals(a, Some(b))
  }

  /** Lombok's hashCode for the same annotation: 59 * 1 + super.hashCode(), in 32-bit arithmetic. */
  function SubclassHashCode(self: ObjectRef, classHash: ClassName -> int): (r: int)
    ensures -0x8000_0000 <= r < 0x8000_0000
  {
    Wrap32(59 + HashCode(self, classHash))
  }

  /** Equality is reflexive. */
  lemma EqualsReflexive(a: ObjectRef)
    requires IsEntityClass(a.cls)
    ensures Equals(a, Some(a)) && SubclassEquals(a, Some(a))
  {
  }

  /** Two distinct unsaved entities are never equal. */
  lemma UnsavedNeverEqual(a: ObjectRef, b: ObjectRef)
    requires IsEntityClass(a.cls) && a.id.None? && a != b
    ensures !Equals(a, Some(b)) && !SubclassEquals(a, Some(b))
  {
  }

  /** Between entities, equality does not depend on which side is the receiver. */
  lemma EqualsSymmetric(a: ObjectRef, b: ObjectRef)
    requires IsEntityClass(a.cls) && IsEntityClass(b.cls)
    ensures Equals(a, Some(b)) <==> Equals(b, Some(a))
    ensures SubclassEquals(a, Some(b)) <==> SubclassEquals(b, Some(a))
  {
  }

  /** Equality between entities is transitive. */
  lemma EqualsTransitive(a: ObjectRef, b: ObjectRef, c: ObjectRef)
    requires IsEntityClass(a.cls) && IsEntityClass(b.cls)
    requires Equals(a, Some(b)) && Equals(b, Some(c))
    ensures Equals(a, Some(c))
  {
  }

  /** Under the Lombok equality, equal entities have equal hash codes. */
  lemma SubclassHashConsistent(a: ObjectRef, b: ObjectRef, classHash: ClassName -> int)
    requires IsEntityClass(a.cls) && SubclassEquals(a, Some(b))
    ensures SubclassHashCode(a, classHash) == SubclassHashCode(b, classHash)
  {
  }

  /**
   * The inherited equals alone has no class check: an ingredient and an
   * instruction sharing an id are equal, yet their hash codes differ whenever
   * the two classes hash differently.
   */
  lemma BaseEqualsIgnoresClass(id: Uuid, classHash: ClassName -> int)
    requires classHash(IngredientClass) != classHash(InstructionClass)
    ensures var a := ObjectRef(0, IngredientClass, Some(id));
            var b := ObjectRef(1, InstructionClass, Some(id));
            Equals(a, Some(b)) && HashCode(a, classHash) != HashCode(b, classHash)
            && !SubclassEquals(a, Some(b))
  {
  }
}

=== FILE: category.dfy ===
/**
 * The recipe categories: CategoryDTO on the wire and CategoryType in the
 * domain. Both enums have the same five constants, named alike.
 */
module Category {
  import opened Wrappers

  /** CategoryDTO. */
  datatype CategoryDTO = Vegetarian | Comfort | Beef | Chicken | Other

  /** CategoryType, the domain enum stored in the recipe's `category` column. */
  datatype CategoryType = VegetarianType | ComfortType | BeefType | ChickenType | OtherType

  /** Enum.name() of a CategoryDTO constant. */
  function DtoName(c: CategoryDTO): string {
    match c
    case Vegetarian => "VEGETARIAN"
    case Comfort => "COMFORT"
    case Beef => "BEEF"
    case Chicken => "CHICKEN"
    case Other => "OTHER"
  }

  /** Enum.name() of a CategoryType constant. */
  function TypeName(c: CategoryType): string {
    match c
    case VegetarianType => "VEGETARIAN"
    case ComfortType => "COMFORT"
    case BeefType => "BEEF"
    case ChickenType => "CHICKEN"
    case OtherType => "OTHER"
  }

  /** CategoryType.valueOf: the constant with that name, None where valueOf throws. */
  function ValueOf(name: string): (r: Option<CategoryType>)
    ensures r.Some? ==> TypeName(r.value) == name
    ensures forall c :: TypeName(c) == name ==> r == Some(c)
  {
    if name == "VEGETARIAN" then Some(VegetarianType)
    else if name == "COMFORT" then Some(ComfortType)
    else if name == "BEEF" then Some(BeefType)
    else if name == "CHICKEN" then Some(ChickenType)
    else if name == "OTHER" then Some(OtherType)
    else None
  }
}

=== FILE: errors.dfy ===
/**
 * The exceptions the service raises, as values, and the outcome of a service
 * call: a result or the exception it throws.
 */
module ServiceErrors {
  import opened Text
  import opened AbstractEntity

  datatype ServiceError =
    | RecipeNotFound(recipeId: Uuid)           // RecipeNotFoundException
    | RecipeViolation(name: string)            // RecipeViolationException
    | InvalidRequest(message: string)          // InvalidRequestException
    | InvalidCreationRequest(message: string)  // InvalidCreationRequestException
    | Unexpected(message: string)              // any other exception, e.g. IllegalStateException

  datatype Result<T> = Ok(value: T) | Err(error: ServiceError)

  /** The exception message; ids are rendered in decimal. */
  function Message(e: ServiceError): string {
    match e
    case RecipeNotFound(id) => "Recipe with id: " + NatToText(id) + ", not found"
    case RecipeViolation(name) => "Recipe with name: " + name + ", already exists"
    case InvalidRequest(m) => m
    case InvalidCreationRequest(m) => m
    case Unexpected(m) => m
  }

  /** The message Collectors.toMap's IllegalStateException starts with. */
  const DuplicateKeyMessage := "Duplicate key"

  /** The message of the exception a failed insert or update statement raises (a unique constraint). */
  const IntegrityViolationMessage := "could not execute statement"

  /** The exception Instruction.compareTo throws on an instruction without a step; the JVM's detail text is not kept. */
  const NullPointerMessage := "java.lang.NullPointerException"

  /** The message persist raises on a child that already carries an id; the entity name after it is not kept. */
  const DetachedEntityMessage := "detached entity passed to persist"

  /** The message the validator's ConstraintViolationException starts with when a recipe breaks a declared field constraint. */
  const ConstraintViolationMessage := "Validation failed for classes [com.km.recipe.domain.Recipe]"

  /** The two message formats carry their argument: the name appears exactly as submitted. */
  lemma MessagesCarryArguments(id: Uuid, name: string)
    ensures var m := Message(RecipeNotFound(id));
            m[..16] == "Recipe with id: " && m[16..16 + |NatToText(id)|] == NatToText(id)
    ensures var m := Message(RecipeViolation(name));
            m[..18] == "Recipe with name: " && m[18..18 + |name|] == name
  {
  }
}

=== FILE: exception_translator.dfy ===
/**
 * ExceptionTranslator: the controller advice that turns an exception into an
 * HTTP status and an error body. Spring picks the most specific handler, so
 * the catch-all 500 handler only sees exceptions no other handler names.
 */
module ExceptionTranslator {
  import opened ServiceErrors

  /** ErrorResponseDTO: a message and a list of error lines (empty unless given). */
  datatype ErrorResponse = ErrorResponse(message: string, errors: seq<string>)

  datatype Response = Response(body: ErrorResponse, status: int)

  const NotFound := 404
  const Conflict := 409
  const UnprocessableEntity := 422
  const BadRequest := 400
  const InternalServerError := 500

  /** The status of the handler that catches `e`. */
  function Status(e: ServiceError): int {
    match e
    case RecipeNotFound(_) => NotFound
    case RecipeViolation(_) => Conflict
    case InvalidRequest(_) => UnprocessableEntity
    case InvalidCreationRequest(_) => BadRequest
    case Unexpected(_) => InternalServerError
  }

  /** The response for a service exception: its status and its message, with no error lines. */
  function Handle(e: ServiceError): (r: Response)
    ensures r.body.message == Message(e) && r.body.errors == []
    ensures r.status == 404 <==> e.RecipeNotFound?
    ensures r.status == 409 <==> e.RecipeViolation?
    ensures r.status == 422 <==> e.InvalidRequest?
    ensures r.status == 400 <==> e.InvalidCreationRequest?
    ensures r.status == 500 <==> e.Unexpected?
  {
    Response(ErrorResponse(Message(e), []), Status(e))
  }

  /** The status tells the kind of exception apart: distinct kinds never share a status. */
  lemma StatusIdentifiesKind(e1: ServiceError, e2: ServiceError)
    requires Handle(e1).status == Handle(e2).status
    ensures e1.RecipeNotFound? == e2.RecipeNotFound?
    ensures e1.RecipeViolation? == e2.RecipeViolation?
    ensures e1.InvalidRequest? == e2.InvalidRequest?
    ensures e1.InvalidCreationRequest? == e2.InvalidCreationRequest?
  {
  }

  /** A rejected field of the request body: its name and the constraint's message. */
  datatype FieldError = FieldError(field: string, defaultMessage: string)

  /** A rejected object-level constraint: the object's name and the message. */
  datatype ObjectError = ObjectError(objectName: string, defaultMessage: string)

  function FieldLine(e: FieldError): string {
    e.field + ": " + e.defaultMessage
  }

  function GlobalLine(e: ObjectError): string {
    e.objectName + ": " + e.defaultMessage
  }

  /**
   * handleMethodArgumentNotValid: 400 with "Invalid request sent"; the error
   * lines are every field error in order, then every global error in order.
   */
  method HandleMethodArgumentNotValid(fieldErrors: seq<FieldError>, globalErrors: seq<ObjectError>)
    returns (r: Response)
    ensures r.status == BadRequest && r.body.message == "Invalid request sent"
    ensures |r.body.errors| == |fieldErrors| + |globalErrors|
    ensures forall i :: 0 <= i < |fieldErrors| ==> r.body.errors[i] == FieldLine(fieldErrors[i])
    ensures forall j :: 0 <= j < |globalErrors| ==>
              r.body.errors[|fieldErrors| + j] == GlobalLine(globalErrors[j])
  {
    var errors: seq<string> := [];
    var i := 0;
    while i < |fieldErrors|
      invariant 0 <= i <= |fieldErrors|
      invariant |errors| == i
      invariant forall k :: 0 <= k < i ==> errors[k] == FieldLine(fieldErrors[k])
    {
      errors := errors + [FieldLine(fieldErrors[i])];
      i := i + 1;
    }
    var j := 0;
    while j < |globalErrors|
      invariant 0 <= j <= |globalErrors|
      invariant |errors| == |fieldErrors| + j
      invariant forall k :: 0 <= k < |fieldErrors| ==> errors[k] == FieldLine(fieldErrors[k])
      invariant forall k :: 0 <= k < j ==> errors[|fieldErrors| + k] == GlobalLine(globalErrors[k])
    {
      errors := errors + [GlobalLine(globalErrors[j])];
      j := j + 1;
    }
    r := Response(ErrorResponse("Invalid request sent", errors), BadRequest);
  }
}

=== FILE: ingredient.dfy ===
/**
 * Ingredient: a child row of a recipe. Its natural order (the order of the
 * recipe's sorted ingredient set) is String order on the description, while
 * its equality is the inherited id equality, so the two disagree.
 */
module IngredientEntity {
  import opened Wrappers
  import opened Text
  import opened AbstractEntity
  import TreeSet
  import NameConverter

  /** An ingredient entity; `recipeId` is the read-only join column. */
  datatype Ingredient = Ingredient(id: Option<Uuid>, recipeId: Option<Uuid>, description: string)

  /** Ingredient.compareTo: String.compareTo on the descriptions. */
  function CompareTo(a: Ingredient, b: Ingredient): (r: int)
    ensures r == 0 <==> a.description == b.description
    ensures r < 0 <==> Compare(b.description, a.description) > 0
  {
    CompareZeroIffEqual(a.description, b.description);
    CompareAntisymmetric(a.description, b.description);
    Compare(a.description, b.description)
  }

  /** The comparator meets the contract a TreeSet relies on. */
  lemma CompareToIsTotalOrder()
    ensures TreeSet.TotalOrder(CompareTo)
  {
    forall a: Ingredient, b: Ingredient, c: Ingredient ensures TreeSet.Chain(CompareTo, a, b, c) {
      if CompareTo(a, b) < 0 && CompareTo(b, c) < 0 {
        CompareTransitive(a.description, b.description, c.description);
      }
    }
  }

  /** The reference to ingredient `i` stored at address `addr`. */
  function Ref(i: Ingredient, addr: nat): ObjectRef {
    ObjectRef(addr, IngredientClass, i.id)
  }

  /**
   * compareTo is not consistent with equals: two saved ingredients with the
   * same description compare as 0 but are not equal, and one id with two
   * descriptions is equal but does not compare as 0.
   */
  lemma CompareToInconsistentWithEquals()
    ensures var a := Ingredient(Some(1), Some(0), "Salt");
            var b := Ingredient(Some(2), Some(0), "Salt");
            CompareTo(a, b) == 0 && !SameClassEquals(Ref(a, 0), Ref(b, 1))
    ensures var a := Ingredient(Some(1), Some(0), "Salt");
            var c := Ingredient(Some(1), Some(0), "Pepper");
            SameClassEquals(Ref(a, 0), Ref(c, 1)) && CompareTo(a, c) != 0
  {
  }

  /** In a sorted ingredient set no two ingredients share a description. */
  lemma {:induction false} SortedDescriptionsDistinct(s: seq<Ingredient>)
    requires TreeSet.Sorted(CompareTo, s)
    ensures forall i, j :: 0 <= i < |s| && 0 <= j < |s| && i != j ==> s[i].description != s[j].description
  {
    forall i, j | 0 <= i < |s| && 0 <= j < |s| && i != j ensures s[i].description != s[j].description {
      if i < j {
        assert CompareTo(s[i], s[j]) < 0;
      } else {
        assert CompareTo(s[j], s[i]) < 0;
      }
    }
  }

  /**
   * TreeSet.add drops an ingredient whose description is already present,
   * whatever its id: the set is left exactly as it was.
   */
  lemma AddSameDescriptionDropped(s: seq<Ingredient>, x: Ingredient, k: nat)
    requires TreeSet.Sorted(CompareTo, s)
    requires k < |s| && s[k].description == x.description
    ensures TreeSet.Add(CompareTo, s, x) == s
  {
    CompareToIsTotalOrder();
    assert CompareTo(s[k], x) == 0;
    TreeSet.AddKeepsPresentKey(CompareTo, s, x);
  }

  /** The row as written to storage: the description goes through the NameConverter. */
  function Stored(i: Ingredient): (r: Ingredient)
    ensures r.id == i.id && r.recipeId == i.recipeId
    ensures NameConverter.IsNormalized(r.description)
  {
    NameConverter.NormalizeIsNormalized(i.description);
    i.(description := NameConverter.Normalize(i.description))
  }

  /** The storage constraint uq_ingredient_recipe_id_description: (recipe_id, description) is unique. */
  predicate StorageUnique(rows: seq<Ingredient>) {
    forall i, j :: 0 <= i < |rows| && 0 <= j < |rows| && i != j && rows[i].recipeId == rows[j].recipeId
      ==> rows[i].description != rows[j].description
  }

  /** A sorted set of one recipe's ingredients meets the storage constraint as held in memory. */
  lemma SortedSetIsStorageUnique(s: seq<Ingredient>)
    requires TreeSet.Sorted(CompareTo, s)
    ensures StorageUnique(s)
  {
    SortedDescriptionsDistinct(s);
  }

  /** Two rows of one recipe whose descriptions convert alike break the storage constraint once written. */
  lemma CollidingRowsViolateStorage(a: Ingredient, b: Ingredient)
    requires a.recipeId == b.recipeId
    requires NameConverter.Normalize(a.description) == NameConverter.Normalize(b.description)
    ensures !StorageUnique([Stored(a), Stored(b)])
  {
    var rows := [Stored(a), Stored(b)];
    assert rows[0].description == rows[1].description;
  }

  /** "5 TOMATOES" sorts before "5 tomatoes": upper-case letters come first in String order. */
  lemma UpperVariantSortsFirst()
    ensures Compare("5 TOMATOES", "5 tomatoes") < 0
  {
    var a, b := "5 TOMATOES", "5 tomatoes";
    assert a[0] == b[0] && a[1] == b[1] && a[2] != b[2];
    assert Compare(a, b) == Compare(a[1..], b[1..]);
    assert Compare(a[1..], b[1..]) == Compare(a[2..], b[2..]);
    assert a[2..][0] == 'T' && b[2..][0] == 't';
  }

  /** "5 TOMATOES" and "5 tomatoes" are both written as the same text. */
  lemma CaseVariantsNormalizeAlike()
    ensures NameConverter.Normalize("5 TOMATOES") == NameConverter.Normalize("5 tomatoes")
  {
    var a, b := "5 TOMATOES", "5 tomatoes";
    var na, nb := NameConverter.Normalize(a), NameConverter.Normalize(b);
    forall i | 0 <= i < |a| ensures na[i] == nb[i] {
      if i > 0 {
        assert na[i] == ToLower(a[i]) && nb[i] == ToLower(b[i]);
      }
    }
  }

  /**
   * Deduplication compares the raw in-memory descriptions: "5 TOMATOES" is a
   * new key next to "5 tomatoes", so a sorted set keeps both.
   */
  lemma CaseVariantsBothKept()
    ensures var stored := Ingredient(Some(1), Some(0), "5 tomatoes");
            var added := Ingredient(Some(2), Some(0), "5 TOMATOES");
            TreeSet.Add(CompareTo, [stored], added) == [added, stored]
  {
    var stored := Ingredient(Some(1), Some(0), "5 tomatoes");
    var added := Ingredient(Some(2), Some(0), "5 TOMATOES");
    UpperVariantSortsFirst();
    assert CompareTo(added, stored) < 0;
    assert TreeSet.Add(CompareTo, [stored], added) == [added] + [stored];
  }

  /** Storage compares the converted descriptions: the two rows kept above collide once written. */
  lemma CaseVariantsCollideInStorage()
    ensures !StorageUnique([Stored(Ingredient(Some(2), Some(0), "5 TOMATOES")),
                            Stored(Ingredient(Some(1), Some(0), "5 tomatoes"))])
  {
    CaseVariantsNormalizeAlike();
    CollidingRowsViolateStorage(Ingredient(Some(2), Some(0), "5 TOMATOES"), Ingredient(Some(1), Some(0), "5 tomatoes"));
  }
}

=== FILE: ingredient_dto.dfy ===
/**
 * IngredientDTO: the wire form of an ingredient. Unlike the entity, its
 * equality, hash code and order all look at the description alone, so they
 * agree with one another.
 */
module IngredientDto {
  import opened Wrappers
  import opened Text
  import opened AbstractEntity
  import TreeSet

  datatype IngredientDTO = IngredientDTO(id: Option<Uuid>, description: string)

  /** IngredientDTO::getId, the key the update paths collect the payload by. */
  function Key(d: IngredientDTO): Option<Uuid> {
    d.id
  }

  /** IngredientDTO.compareTo: String order on the descriptions. */
  function CompareTo(a: IngredientDTO, b: IngredientDTO): (r: int)
    ensures r < 0 <==> Compare(b.description, a.description) > 0
  {
    CompareAntisymmetric(a.description, b.description);
    Compare(a.description, b.description)
  }

  /** IngredientDTO.equals: the descriptions are equal; the id plays no part. */
  predicate Equals(a: IngredientDTO, b: IngredientDTO) {
    a.description == b.description
  }

  /** IngredientDTO.hashCode: Objects.hash(description) = 31 + description.hashCode(), in 32-bit arithmetic. */
  function HashCode(a: IngredientDTO): (r: int)
    ensures -0x8000_0000 <= r < 0x8000_0000
  {
    Wrap32(31 + StringHash(a.description))
  }

  /** compareTo returns 0 exactly when the DTOs are equal. */
  lemma CompareToConsistentWithEquals(a: IngredientDTO, b: IngredientDTO)
    ensures CompareTo(a, b) == 0 <==> Equals(a, b)
  {
    CompareZeroIffEqual(a.description, b.description);
  }

  /** Equal DTOs have equal hash codes, whatever their ids. */
  lemma HashConsistentWithEquals(a: IngredientDTO, b: IngredientDTO)
    requires Equals(a, b)
    ensures HashCode(a) == HashCode(b)
  {
  }

  /** Changing the id changes neither equality nor order. */
  lemma IdIgnored(a: IngredientDTO, b: IngredientDTO, id: Option<Uuid>)
    ensures Equals(a.(id := id), b) == Equals(a, b)
    ensures CompareTo(a.(id := id), b) == CompareTo(a, b)
  {
  }

  /** The comparator meets the contract a sorted collection relies on. */
  lemma CompareToIsTotalOrder()
    ensures TreeSet.TotalOrder(CompareTo)
  {
    forall a: IngredientDTO ensures CompareTo(a, a) == 0 {
      CompareZeroIffEqual(a.description, a.description);
    }
    forall a: IngredientDTO, b: IngredientDTO, c: IngredientDTO ensures TreeSet.Chain(CompareTo, a, b, c) {
      if CompareTo(a, b) < 0 && CompareTo(b, c) < 0 {
        CompareTransitive(a.description, b.description, c.description);
      }
    }
  }
}

=== FILE: ingredient_mapper.dfy ===
/** IngredientMapper.toEntity: a field copy; the recipe id is left unset. */
module IngredientMapper {
  import opened Wrappers
  import opened IngredientEntity
  import opened IngredientDto

  function ToEntity(dto: IngredientDTO): Ingredient {
    Ingredient(dto.id, None, dto.description)
  }
}

=== FILE: ingredient_repository.dfy ===
/**
 * IngredientRepository: the recipe-scoped queries over the ingredient table,
 * a sequence of rows. The `IN (:ids)` test matches nothing for an empty
 * collection of ids.
 */
module IngredientRepository {
  import opened Wrappers
  import opened AbstractEntity
  import opened IngredientEntity

  /** findAllByRecipeId: the rows whose recipe id is `recipeId`, in table order. */
  function FindAllByRecipeId(rows: seq<Ingredient>, recipeId: Uuid): (r: seq<Ingredient>)
    ensures forall x :: x in r ==> x in rows && x.recipeId == Some(recipeId)
    ensures forall x :: x in rows && x.recipeId == Some(recipeId) ==> x in r
    ensures |r| <= |rows|
  {
    if rows == [] then []
    else
      var rest := FindAllByRecipeId(rows[1..], recipeId);
      if rows[0].recipeId == Some(recipeId) then [rows[0]] + rest else rest
  }

  /** The row belongs to `recipeId` and its id is one of `ids`. */
  predicate InRecipeWithId(x: Ingredient, recipeId: Uuid, ids: set<Uuid>) {
    x.recipeId == Some(recipeId) && x.id.Some? && x.id.value in ids
  }

  /** findAllByRecipeIdAndIdsIn: the rows of `recipeId` whose id is in `ids`, in table order. */
  function FindAllByRecipeIdAndIdsIn(rows: seq<Ingredient>, recipeId: Uuid, ids: set<Uuid>): (r: seq<Ingredient>)
    ensures forall x :: x in r ==> x in rows && InRecipeWithId(x, recipeId, ids)
    ensures forall x :: x in rows && InRecipeWithId(x, recipeId, ids) ==> x in r
    ensures |r| <= |rows|
  {
    if rows == [] then []
    else
      var rest := FindAllByRecipeIdAndIdsIn(rows[1..], recipeId, ids);
      if InRecipeWithId(rows[0], recipeId, ids) then [rows[0]] + rest else rest
  }

  /** The id-filtered query returns a part of the recipe-scoped one. */
  lemma IdsInNarrowsRecipeQuery(rows: seq<Ingredient>, recipeId: Uuid, ids: set<Uuid>)
    ensures forall x :: x in FindAllByRecipeIdAndIdsIn(rows, recipeId, ids) ==> x in FindAllByRecipeId(rows, recipeId)
  {
  }

  /** An empty id collection finds nothing. */
  lemma {:induction false} NoIdsFindNothing(rows: seq<Ingredient>, recipeId: Uuid)
    ensures FindAllByRecipeIdAndIdsIn(rows, recipeId, {}) == []
  {
    if rows != [] {
      NoIdsFindNothing(rows[1..], recipeId);
    }
  }

  /** Rows without a recipe id are never found under any recipe. */
  lemma UnattachedRowsNeverFound(rows: seq<Ingredient>, x: Ingredient, recipeId: Uuid)
    requires x.recipeId.None?
    ensures x !in FindAllByRecipeId(rows, recipeId)
  {
  }
}

=== FILE: ingredient_service.dfy ===
/**
 * IngredientServiceImpl: the ingredient table worked on directly, outside the
 * recipe aggregate. The table is a sequence of rows; rows inserted here take
 * their ids from a counter. The recipe id column is neither inserted nor
 * updated through the ingredient entity, so rows added here carry none and
 * an update never moves a row to another recipe.
 */
module IngredientServiceImpl {
  import opened Wrappers
  import opened AbstractEntity
  import opened IngredientEntity
  import opened IngredientDto
  import opened ServiceErrors
  import opened IngredientRepository
  import Streams
  import TreeSet
  import NameConverter
  import IngredientMapper
  import RecipeMapper

  /** The primary key of a row. */
  function RowId(x: Ingredient): Option<Uuid> {
    x.id
  }

  /** Every row has an id below the counter, and no two rows share one. */
  predicate TableInvariant(rows: seq<Ingredient>, nextId: nat) {
    && Streams.DistinctKeys(rows, RowId)
    && forall k :: 0 <= k < |rows| ==> rows[k].id.Some? && rows[k].id.value < nextId
  }

  /** The ids the payload carries, nulls dropped (the set updateIngredients looks up). */
  function PayloadIds(dtos: seq<IngredientDTO>): (r: set<Uuid>)
    ensures forall u :: u in r <==> exists k :: 0 <= k < |dtos| && dtos[k].id == Some(u)
  {
    set k | 0 <= k < |dtos| && dtos[k].id.Some? :: dtos[k].id.value
  }

  /**
   * The rows addIngredients saves: one per payload item, built from its
   * description alone, so no recipe id; the k-th takes the id first + k.
   */
  function NewRows(dtos: seq<IngredientDTO>, first: nat): (r: seq<Ingredient>)
    ensures |r| == |dtos|
    ensures forall k :: 0 <= k < |r| ==>
              && r[k].id == Some(first + k) && r[k].recipeId.None?
              && r[k].description == NameConverter.Normalize(dtos[k].description)
  {
    seq(|dtos|, k requires 0 <= k < |dtos| => Stored(Ingredient(Some(first + k), None, dtos[k].description)))
  }

  /**
   * One row after updateIngredients' saveAll: a row of `recipeId` whose id is
   * listed is merged with the entity built from the payload item of that id;
   * the recipe id is not updatable and stays.
   */
  function PatchRow(recipeId: Uuid, ids: set<Uuid>, m: map<Option<Uuid>, IngredientDTO>, x: Ingredient): Ingredient {
    if InRecipeWithId(x, recipeId, ids) && x.id in m then
      Stored(IngredientMapper.ToEntity(m[x.id])).(id := x.id, recipeId := x.recipeId)
    else
      x
  }

  /** The table after updateIngredients' saveAll. */
  function PatchRows(rows: seq<Ingredient>, recipeId: Uuid, ids: set<Uuid>, m: map<Option<Uuid>, IngredientDTO>): (r: seq<Ingredient>)
    ensures |r| == |rows|
    ensures forall k :: 0 <= k < |r| ==> r[k].id == rows[k].id && r[k].recipeId == rows[k].recipeId
    ensures forall k :: 0 <= k < |r| && !InRecipeWithId(rows[k], recipeId, ids) ==> r[k] == rows[k]
    ensures forall k :: 0 <= k < |r| && InRecipeWithId(rows[k], recipeId, ids) && rows[k].id in m ==>
              r[k].description == NameConverter.Normalize(m[rows[k].id].description)
  {
    seq(|rows|, k requires 0 <= k < |rows| => PatchRow(recipeId, ids, m, rows[k]))
  }

  /** The predicate of deleteIngredients: the row is one of `recipeId`'s and its id is listed. */
  function InRecipeWith(recipeId: Uuid, ids: set<Uuid>): Ingredient -> bool {
    (x: Ingredient) => InRecipeWithId(x, recipeId, ids)
  }

  /** The rows of another recipe are the same, in the same order, after an update. */
  lemma {:induction false} PatchKeepsOtherRecipes(rows: seq<Ingredient>, recipeId: Uuid, ids: set<Uuid>,
                                                  m: map<Option<Uuid>, IngredientDTO>, other: Uuid)
    requires other != recipeId
    ensures FindAllByRecipeId(PatchRows(rows, recipeId, ids, m), other) == FindAllByRecipeId(rows, other)
  {
    if rows != [] {
      var p := PatchRows(rows, recipeId, ids, m);
      assert p[1..] == PatchRows(rows[1..], recipeId, ids, m);
      PatchKeepsOtherRecipes(rows[1..], recipeId, ids, m, other);
      assert p[0].recipeId == Some(other) ==> p[0] == rows[0];
    }
  }

  /** Applying the same update twice leaves the table as applying it once. */
  lemma PatchIdempotent(rows: seq<Ingredient>, recipeId: Uuid, ids: set<Uuid>, m: map<Option<Uuid>, IngredientDTO>)
    ensures PatchRows(PatchRows(rows, recipeId, ids, m), recipeId, ids, m) == PatchRows(rows, recipeId, ids, m)
  {
    var once := PatchRows(rows, recipeId, ids, m);
    var twice := PatchRows(once, recipeId, ids, m);
    forall k | 0 <= k < |rows| ensures twice[k] == once[k] {
      if InRecipeWithId(rows[k], recipeId, ids) && rows[k].id in m {
        NameConverter.NormalizeIdempotent(m[rows[k].id].description);
      }
    }
  }

  /**
   * With a well-formed payload every row the lookup finds is rewritten: its
   * description becomes the converted description of the payload item that
   * names its id.
   */
  lemma FoundRowsTakePayload(rows: seq<Ingredient>, recipeId: Uuid, dtos: seq<IngredientDTO>)
    requires Streams.DistinctKeys(dtos, Key)
    ensures var m := Streams.ToMap(dtos, Key).value;
            var r := PatchRows(rows, recipeId, PayloadIds(dtos), m);
            forall k, j :: 0 <= k < |rows| && 0 <= j < |dtos| && rows[k].recipeId == Some(recipeId) && rows[k].id.Some? && rows[k].id == dtos[j].id
              ==> r[k].description == NameConverter.Normalize(dtos[j].description)
  {
    var m := Streams.ToMap(dtos, Key).value;
    forall k, j | 0 <= k < |rows| && 0 <= j < |dtos| && rows[k].recipeId == Some(recipeId) && rows[k].id.Some? && rows[k].id == dtos[j].id
      ensures PatchRows(rows, recipeId, PayloadIds(dtos), m)[k].description == NameConverter.Normalize(dtos[j].description)
    {
      assert Key(dtos[j]) in m && m[Key(dtos[j])] == dtos[j];
      assert rows[k].id.value in PayloadIds(dtos);
    }
  }

  /** A payload whose items all lack ids finds nothing, so the update is an invalid request. */
  lemma NullIdsFindNothing(rows: seq<Ingredient>, recipeId: Uuid, dtos: seq<IngredientDTO>)
    requires RecipeMapper.NewIngredientItems(dtos)
    ensures FindAllByRecipeIdAndIdsIn(rows, recipeId, PayloadIds(dtos)) == []
  {
    assert PayloadIds(dtos) == {};
    NoIdsFindNothing(rows, recipeId);
  }

  /** Rows added here belong to no recipe: every recipe's rows are what they were. */
  lemma {:induction false} NewRowsNotInAnyRecipe(rows: seq<Ingredient>, dtos: seq<IngredientDTO>, first: nat, recipeId: Uuid)
    ensures FindAllByRecipeId(rows + NewRows(dtos, first), recipeId) == FindAllByRecipeId(rows, recipeId)
  {
    if rows == [] {
      assert rows + NewRows(dtos, first) == NewRows(dtos, first);
      UnattachedFindNothing(NewRows(dtos, first), recipeId);
    } else {
      assert (rows + NewRows(dtos, first))[1..] == rows[1..] + NewRows(dtos, first);
      NewRowsNotInAnyRecipe(rows[1..], dtos, first, recipeId);
    }
  }

  /** A table of rows without recipe ids holds nothing for any recipe. */
  lemma {:induction false} UnattachedFindNothing(rows: seq<Ingredient>, recipeId: Uuid)
    requires forall k :: 0 <= k < |rows| ==> rows[k].recipeId.None?
    ensures FindAllByRecipeId(rows, recipeId) == []
  {
    if rows != [] {
      UnattachedFindNothing(rows[1..], recipeId);
    }
  }

  /**
   * deleteIngredients removes exactly the rows the lookup finds: a row stays
   * if and only if it is not one of `recipeId`'s listed rows.
   */
  lemma DeleteRemovesFoundRows(rows: seq<Ingredient>, recipeId: Uuid, ids: set<Uuid>)
    ensures forall x :: x in rows ==>
              (x in TreeSet.RemoveIf(rows, InRecipeWith(recipeId, ids)) <==> x !in FindAllByRecipeIdAndIdsIn(rows, recipeId, ids))
    ensures FindAllByRecipeIdAndIdsIn(TreeSet.RemoveIf(rows, InRecipeWith(recipeId, ids)), recipeId, ids) == []
  {
    var found := FindAllByRecipeIdAndIdsIn(TreeSet.RemoveIf(rows, InRecipeWith(recipeId, ids)), recipeId, ids);
    assert forall x :: x !in found;
  }

  /** Deleting rows of one recipe leaves every other recipe's rows as they were. */
  lemma {:induction false} DeleteKeepsOtherRecipes(rows: seq<Ingredient>, recipeId: Uuid, ids: set<Uuid>, other: Uuid)
    requires other != recipeId
    ensures FindAllByRecipeId(TreeSet.RemoveIf(rows, InRecipeWith(recipeId, ids)), other) == FindAllByRecipeId(rows, other)
  {
    if rows != [] {
      DeleteKeepsOtherRecipes(rows[1..], recipeId, ids, other);
    }
  }

  /** An empty id collection deletes nothing. */
  lemma {:induction false} NoIdsDeleteNothing(rows: seq<Ingredient>, recipeId: Uuid)
    ensures TreeSet.RemoveIf(rows, InRecipeWith(recipeId, {})) == rows
  {
    if rows != [] {
      NoIdsDeleteNothing(rows[1..], recipeId);
      assert rows == [rows[0]] + rows[1..];
    }
  }

  /** Adding rows under fresh ids keeps the table's keys distinct and below the counter. */
  lemma AppendKeepsInvariant(rows: seq<Ingredient>, nextId: nat, dtos: seq<IngredientDTO>)
    requires TableInvariant(rows, nextId)
    ensures TableInvariant(rows + NewRows(dtos, nextId), nextId + |dtos|)
  {
    var t := rows + NewRows(dtos, nextId);
    forall i, j | 0 <= i < j < |t| ensures RowId(t[i]) != RowId(t[j]) {
      if j < |rows| {
        assert RowId(rows[i]) != RowId(rows[j]);
      }
    }
  }

  /** An update keeps every id where it was, so the invariant holds after it. */
  lemma PatchKeepsInvariant(rows: seq<Ingredient>, nextId: nat, recipeId: Uuid, ids: set<Uuid>, m: map<Option<Uuid>, IngredientDTO>)
    requires TableInvariant(rows, nextId)
    ensures TableInvariant(PatchRows(rows, recipeId, ids, m), nextId)
  {
    var t := PatchRows(rows, recipeId, ids, m);
    forall i, j | 0 <= i < j < |t| ensures RowId(t[i]) != RowId(t[j]) {
      assert RowId(rows[i]) != RowId(rows[j]);
    }
  }

  /** Removing rows keeps the invariant. */
  lemma RemoveKeepsInvariant(rows: seq<Ingredient>, nextId: nat, p: Ingredient -> bool)
    requires TableInvariant(rows, nextId)
    ensures TableInvariant(TreeSet.RemoveIf(rows, p), nextId)
  {
    TreeSet.RemoveIfKeepsDistinctKeys(rows, p, RowId);
    var t := TreeSet.RemoveIf(rows, p);
    forall k | 0 <= k < |t| ensures t[k].id.Some? && t[k].id.value < nextId {
      assert t[k] in rows;
    }
  }

  /** The service over the ingredient table. */
  class IngredientService {
    var table: seq<Ingredient>
    var nextId: nat

    ghost predicate Valid()
      reads this
    {
      TableInvariant(table, nextId)
    }

    /** An empty table; ids start at `firstId`. */
    constructor (firstId: nat)
      ensures Valid() && table == [] && nextId == firstId
    {
      table := [];
      nextId := firstId;
    }

    /**
     * addIngredients: an item carrying an id rejects the whole batch;
     * otherwise one row per item is saved. The recipe id argument is not used.
     */
    method AddIngredients(recipeId: Uuid, dtos: seq<IngredientDTO>) returns (r: Result<()>)
      requires Valid()
      modifies this
      ensures Valid()
      ensures !RecipeMapper.NewIngredientItems(dtos) ==>
                && r == Err(InvalidCreationRequest("Cannot pass Ids when adding ingredients"))
                && table == old(table) && nextId == old(nextId)
      ensures RecipeMapper.NewIngredientItems(dtos) ==>
                && r == Ok(())
                && table == old(table) + NewRows(dtos, old(nextId))
                && nextId == old(nextId) + |dtos|
    {
      if exists k :: 0 <= k < |dtos| && dtos[k].id.Some? {
        return Err(InvalidCreationRequest("Cannot pass Ids when adding ingredients"));
      }
      AppendKeepsInvariant(table, nextId, dtos);
      table := table + NewRows(dtos, nextId);
      nextId := nextId + |dtos|;
      r := Ok(());
    }

    /**
     * updateIngredients: the rows of `recipeId` whose ids the payload lists
     * are looked up; none found is an invalid request; repeated payload ids
     * make the map collector throw; otherwise each found row is rewritten
     * from the payload item of its id.
     */
    method UpdateIngredients(recipeId: Uuid, dtos: seq<IngredientDTO>) returns (r: Result<()>)
      requires Valid()
      modifies this
      ensures Valid() && nextId == old(nextId)
      ensures FindAllByRecipeIdAndIdsIn(old(table), recipeId, PayloadIds(dtos)) == [] ==>
                r == Err(InvalidRequest("Invalid ingredients update request")) && table == old(table)
      ensures FindAllByRecipeIdAndIdsIn(old(table), recipeId, PayloadIds(dtos)) != [] && !Streams.DistinctKeys(dtos, Key) ==>
                r == Err(Unexpected(DuplicateKeyMessage)) && table == old(table)
      ensures FindAllByRecipeIdAndIdsIn(old(table), recipeId, PayloadIds(dtos)) != [] && Streams.DistinctKeys(dtos, Key) ==>
                && r == Ok(())
                && table == PatchRows(old(table), recipeId, PayloadIds(dtos), Streams.ToMap(dtos, Key).value)
    {
      var ids := PayloadIds(dtos);
      var existing := FindAllByRecipeIdAndIdsIn(table, recipeId, ids);
      if existing == [] {
        return Err(InvalidRequest("Invalid ingredients update request"));
      }
      var collect := Streams.ToMap(dtos, Key);
      if collect.None? {
        return Err(Unexpected(DuplicateKeyMessage));
      }
      PatchKeepsInvariant(table, nextId, recipeId, ids, collect.value);
      table := PatchRows(table, recipeId, ids, collect.value);
      r := Ok(());
    }

    /** deleteIngredients: the rows of `recipeId` whose ids are listed are deleted; unknown ids are ignored. */
    method DeleteIngredients(recipeId: Uuid, ids: set<Uuid>)
      requires Valid()
      modifies this
      ensures Valid() && nextId == old(nextId)
      ensures table == TreeSet.RemoveIf(old(table), InRecipeWith(recipeId, ids))
    {
      RemoveKeepsInvariant(table, nextId, InRecipeWith(recipeId, ids));
      table := TreeSet.RemoveIf(table, InRecipeWith(recipeId, ids));
    }
  }
}

=== FILE: instruction.dfy ===
/**
 * Instruction: a numbered step of a recipe. Its natural order is Integer
 * order on the step; its equality is the inherited id equality.
 */
module InstructionEntity {
  import opened Wrappers
  import opened Text
  import opened AbstractEntity
  import TreeSet
  import NameConverter

  /**
   * An instruction entity; `recipeId` is the read-only join column and
   * `detailedDescription` the optional long text.
   */
  datatype Instruction = Instruction(
    id: Option<Uuid>,
    recipeId: Option<Uuid>,
    description: string,
    detailedDescription: Option<string>,
    step: int)

  /** Instruction.compareTo: Integer.compareTo on the steps. */
  function CompareTo(a: Instruction, b: Instruction): (r: int)
    ensures r == 0 <==> a.step == b.step
    ensures r < 0 <==> a.step < b.step
    ensures r > 0 <==> a.step > b.step
  {
    CompareInt(a.step, b.step)
  }

  /** The comparator meets the contract a TreeSet relies on. */
  lemma CompareToIsTotalOrder()
    ensures TreeSet.TotalOrder(CompareTo)
  {
    forall a: Instruction, b: Instruction, c: Instruction ensures TreeSet.Chain(CompareTo, a, b, c) {
    }
  }

  /** The reference to instruction `i` stored at address `addr`. */
  function Ref(i: Instruction, addr: nat): ObjectRef {
    ObjectRef(addr, InstructionClass, i.id)
  }

  /**
   * Two instructions sharing an id are equal even when their steps differ,
   * and two instructions with one step compare as 0 even when they are not equal.
   */
  lemma CompareToInconsistentWithEquals()
    ensures var a := Instruction(Some(1), Some(0), "Boil water", None, 1);
            var b := Instruction(Some(1), Some(0), "Boil water", None, 2);
            SameClassEquals(Ref(a, 0), Ref(b, 1)) && CompareTo(a, b) != 0
    ensures var a := Instruction(Some(1), Some(0), "Boil water", None, 1);
            var c := Instruction(Some(2), Some(0), "Add salt", None, 1);
            !SameClassEquals(Ref(a, 0), Ref(c, 1)) && CompareTo(a, c) == 0
  {
  }

  /** A sorted instruction set iterates in strictly ascending step order. */
  lemma {:induction false} SortedStepsAscend(s: seq<Instruction>)
    requires TreeSet.Sorted(CompareTo, s)
    ensures forall i, j :: 0 <= i < j < |s| ==> s[i].step < s[j].step
  {
    forall i, j | 0 <= i < j < |s| ensures s[i].step < s[j].step {
      assert CompareTo(s[i], s[j]) < 0;
    }
  }

  /**
   * TreeSet.add keeps at most one instruction per step: an instruction whose
   * step is already present is dropped, whatever its description or id.
   */
  lemma AddSameStepDropped(s: seq<Instruction>, x: Instruction, k: nat)
    requires TreeSet.Sorted(CompareTo, s)
    requires k < |s| && s[k].step == x.step
    ensures TreeSet.Add(CompareTo, s, x) == s
  {
    CompareToIsTotalOrder();
    assert CompareTo(s[k], x) == 0;
    TreeSet.AddKeepsPresentKey(CompareTo, s, x);
  }

  /** The row as written to storage: the description goes through the NameConverter, the detail does not. */
  function Stored(i: Instruction): (r: Instruction)
    ensures r.id == i.id && r.recipeId == i.recipeId && r.step == i.step
    ensures r.detailedDescription == i.detailedDescription
    ensures NameConverter.IsNormalized(r.description)
  {
    NameConverter.NormalizeIsNormalized(i.description);
    i.(description := NameConverter.Normalize(i.description))
  }

  /**
   * The storage constraints uq_instruction_recipe_id_step and
   * uq_instruction_recipe_id_description: within one recipe, steps are
   * unique and descriptions are unique.
   */
  predicate StorageUnique(rows: seq<Instruction>) {
    forall i, j :: 0 <= i < |rows| && 0 <= j < |rows| && i != j && rows[i].recipeId == rows[j].recipeId
      ==> rows[i].step != rows[j].step && rows[i].description != rows[j].description
  }

  /**
   * A sorted instruction set already has unique steps, but nothing keeps its
   * descriptions apart: two steps with one text pass the set and break the
   * second storage constraint.
   */
  lemma SortedSetMayRepeatDescriptions()
    ensures var a := Instruction(Some(1), Some(0), "Stir", None, 1);
            var b := Instruction(Some(2), Some(0), "Stir", None, 2);
            && TreeSet.Add(CompareTo, [a], b) == [a, b]
            && TreeSet.Sorted(CompareTo, [a, b])
            && !StorageUnique([a, b])
  {
    var a := Instruction(Some(1), Some(0), "Stir", None, 1);
    var b := Instruction(Some(2), Some(0), "Stir", None, 2);
    assert TreeSet.Add(CompareTo, [a], b) == [a] + TreeSet.Add(CompareTo, [], b);
    var rows := [a, b];
    assert rows[0].recipeId == rows[1].recipeId && rows[0].description == rows[1].description;
  }

  /** Within a sorted set, distinct positions hold distinct steps. */
  lemma SortedStepsUnique(s: seq<Instruction>)
    requires TreeSet.Sorted(CompareTo, s)
    ensures forall i, j :: 0 <= i < |s| && 0 <= j < |s| && i != j ==> s[i].step != s[j].step
  {
    SortedStepsAscend(s);
    forall i, j | 0 <= i < |s| && 0 <= j < |s| && i != j ensures s[i].step != s[j].step {
      if i < j {
        assert s[i].step < s[j].step;
      } else {
        assert s[j].step < s[i].step;
      }
    }
  }
}

=== FILE: instruction_dto.dfy ===
/**
 * InstructionDTO: the wire form of an instruction. Its equality, hash code
 * and order look at the description alone; the entity orders by step.
 * Every field may be absent in a patch payload.
 */
module InstructionDto {
  import opened Wrappers
  import opened Text
  import opened AbstractEntity
  import InstructionEntity

  datatype InstructionDTO = InstructionDTO(
    id: Option<Uuid>,
    description: Option<string>,
    detailedDescription: Option<string>,
    step: Option<int>)

  /** InstructionDTO.compareTo: String order on the descriptions; both must be present. */
  function CompareTo(a: InstructionDTO, b: InstructionDTO): (r: int)
    requires a.description.Some? && b.description.Some?
    ensures r < 0 <==> Compare(b.description.value, a.description.value) > 0
  {
    CompareAntisymmetric(a.description.value, b.description.value);
    Compare(a.description.value, b.description.value)
  }

  /** InstructionDTO.equals: the receiver's description equals the other's (a null one never does). */
  predicate Equals(a: InstructionDTO, b: InstructionDTO)
    requires a.description.Some?
  {
    b.description == a.description
  }

  /** InstructionDTO.hashCode: Objects.hash(description), 31 for a null description. */
  function HashCode(a: InstructionDTO): (r: int)
    ensures -0x8000_0000 <= r < 0x8000_0000
    ensures a.description.None? ==> r == 31
  {
    Wrap32(31 + if a.description.Some? then StringHash(a.description.value) else 0)
  }

  /** compareTo returns 0 exactly when the DTOs are equal. */
  lemma CompareToConsistentWithEquals(a: InstructionDTO, b: InstructionDTO)
    requires a.description.Some? && b.description.Some?
    ensures CompareTo(a, b) == 0 <==> Equals(a, b)
  {
    CompareZeroIffEqual(a.description.value, b.description.value);
  }

  /** Equal DTOs have equal hash codes. */
  lemma HashConsistentWithEquals(a: InstructionDTO, b: InstructionDTO)
    requires a.description.Some? && Equals(a, b)
    ensures HashCode(a) == HashCode(b)
  {
  }

  /** Neither the id, the step nor the detail takes part in equality or order. */
  lemma OnlyDescriptionMatters(a: InstructionDTO, b: InstructionDTO, id: Option<Uuid>, step: Option<int>, detail: Option<string>)
    requires a.description.Some? && b.description.Some?
    ensures var a' := a.(id := id, step := step, detailedDescription := detail);
            Equals(a', b) == Equals(a, b) && CompareTo(a', b) == CompareTo(a, b)
  {
  }

  /**
   * The DTO order is not the entity order: "Add salt" at step 2 sorts before
   * "Boil water" at step 1 as DTOs, after it as entities.
   */
  lemma DtoOrderDiffersFromEntityOrder()
    ensures var a := InstructionDTO(None, Some("Add salt"), None, Some(2));
            var b := InstructionDTO(None, Some("Boil water"), None, Some(1));
            CompareTo(a, b) < 0
    ensures var a := InstructionEntity.Instruction(None, None, "Add salt", None, 2);
            var b := InstructionEntity.Instruction(None, None, "Boil water", None, 1);
            InstructionEntity.CompareTo(a, b) > 0
  {
    assert Compare("Add salt", "Boil water") == 'A' as int - 'B' as int;
  }
}

=== FILE: instruction_mapper.dfy ===
/**
 * InstructionMapper: the field-by-field sparse patch of an instruction
 * entity from a payload item, and the plain DTO-to-entity copies used when
 * children are created.
 */
module InstructionMapper {
  import opened Wrappers
  import opened AbstractEntity
  import opened InstructionEntity
  import opened InstructionDto

  /** ObjectUtils.isNotEmpty on a String: non-null and of non-zero length. */
  predicate IsNotEmpty(s: Option<string>) {
    s.Some? && |s.value| > 0
  }

  /**
   * The instruction after `update(dto, instruction)`: a null payload changes
   * nothing; the step is replaced when given, each text when given and
   * non-empty; the id and the recipe id are never touched.
   */
  function Patch(dto: Option<InstructionDTO>, i: Instruction): (r: Instruction)
    ensures dto.None? ==> r == i
    ensures r.id == i.id && r.recipeId == i.recipeId
    ensures r.step != i.step ==> dto.Some? && dto.value.step == Some(r.step)
    ensures dto.Some? && dto.value.step.Some? ==> r.step == dto.value.step.value
    ensures r.description != i.description ==> dto.Some? && IsNotEmpty(dto.value.description)
    ensures dto.Some? && IsNotEmpty(dto.value.description) ==> r.description == dto.value.description.value
    ensures r.detailedDescription != i.detailedDescription ==> dto.Some? && IsNotEmpty(dto.value.detailedDescription)
    ensures dto.Some? && IsNotEmpty(dto.value.detailedDescription) ==> r.detailedDescription == dto.value.detailedDescription
  {
    match dto
    case None => i
    case Some(d) =>
      var i1 := if d.step.Some? then i.(step := d.step.value) else i;
      var i2 := if IsNotEmpty(d.description) then i1.(description := d.description.value) else i1;
      if IsNotEmpty(d.detailedDescription) then i2.(detailedDescription := d.detailedDescription) else i2
  }

  /** Applying the same patch twice is applying it once. */
  lemma PatchIdempotent(dto: Option<InstructionDTO>, i: Instruction)
    ensures Patch(dto, Patch(dto, i)) == Patch(dto, i)
  {
  }

  /** A patch keeps the instruction's identity: it stays equal to what it was. */
  lemma PatchKeepsEquality(dto: Option<InstructionDTO>, i: Instruction, addr: nat)
    ensures Ref(Patch(dto, i), addr) == Ref(i, addr)
  {
  }

  /** A mutable instruction entity, as `update` receives it. */
  class InstructionRef {
    var value: Instruction

    constructor (v: Instruction)
      ensures value == v
    {
      value := v;
    }
  }

  /** InstructionMapper.update: guarded setters, one field at a time, on the target entity. */
  method Update(dto: Option<InstructionDTO>, target: InstructionRef)
    modifies target
    ensures target.value == Patch(dto, old(target.value))
  {
    if dto.None? {
      return;
    }
    var d := dto.value;
    if d.step.Some? {
      target.value := target.value.(step := d.step.value);
    }
    if IsNotEmpty(d.description) {
      target.value := target.value.(description := d.description.value);
    }
    if IsNotEmpty(d.detailedDescription) {
      target.value := target.value.(detailedDescription := d.detailedDescription);
    }
  }

  /**
   * InstructionMapper.toEntity: a field copy; the recipe id is left unset.
   * A missing description is left empty here: the save refuses any such
   * entity it would insert, so it never reaches the table.
   */
  function ToEntity(dto: InstructionDTO): (r: Instruction)
    requires dto.step.Some?
    ensures r.id == dto.id && r.recipeId.None? && r.step == dto.step.value
    ensures r.detailedDescription == dto.detailedDescription
    ensures dto.description.Some? ==> r.description == dto.description.value
  {
    Instruction(dto.id, None, if dto.description.Some? then dto.description.value else "",
      dto.detailedDescription, dto.step.value)
  }
}

=== FILE: name_converter.dfy ===
/**
 * NameConverter: the JPA attribute converter applied to ingredient and
 * instruction descriptions, and the same capitalize(lowerCase(s)) rule that
 * Recipe.prePersist applies to recipe names.
 */
module NameConverter {
  import opened Wrappers
  import opened Text

  /** capitalize(lowerCase(s)) on a non-null string. */
  function Normalize(s: string): (r: string)
    ensures |r| == |s|
    ensures |s| > 0 ==> r[0] == ToUpper(ToLower(s[0]))
    ensures forall i :: 1 <= i < |s| ==> r[i] == ToLower(s[i])
  {
    Capitalize(LowerCase(s))
  }

  /** A normalised string: nothing after the first character is upper case, the first is not lower case. */
  predicate IsNormalized(s: string) {
    && (|s| > 0 ==> !IsLowerAscii(s[0]))
    && forall i :: 1 <= i < |s| ==> !IsUpperAscii(s[i])
  }

  /** The write conversion: null stays null, anything else is normalised. */
  function ConvertToDatabaseColumn(s: Option<string>): (r: Option<string>)
    ensures r.None? <==> s.None?
    ensures r.Some? ==> |r.value| == |s.value| && IsNormalized(r.value)
    ensures r.Some? ==> EqualsIgnoreCase(r.value, s.value)
  {
    match s
    case None => None
    case Some(v) =>
      NormalizeIsNormalized(v);
      NormalizeKeepsUpperCase(v);
      Some(Normalize(v))
  }

  /** The read conversion hands the column value back unchanged. */
  function ConvertToEntityAttribute(s: Option<string>): (r: Option<string>)
    ensures r == s
  {
    s
  }

  lemma NormalizeIsNormalized(s: string)
    ensures IsNormalized(Normalize(s))
  {
  }

  /** A normalised string is a fixed point of the conversion. */
  lemma NormalizedIsFixpoint(s: string)
    requires IsNormalized(s)
    ensures Normalize(s) == s
  {
    var r := Normalize(s);
    forall i | 0 <= i < |s| ensures r[i] == s[i] {
      if i > 0 {
        assert !IsUpperAscii(s[i]);
      } else {
        assert !IsLowerAscii(s[0]);
      }
    }
  }

  /** Converting twice is converting once. */
  lemma NormalizeIdempotent(s: string)
    ensures Normalize(Normalize(s)) == Normalize(s)
  {
    NormalizeIsNormalized(s);
    NormalizedIsFixpoint(Normalize(s));
  }

  /** Normalising never changes a name as UPPER(...) sees it. */
  lemma NormalizeKeepsUpperCase(s: string)
    ensures UpperCase(Normalize(s)) == UpperCase(s)
  {
    var r := Normalize(s);
    forall i | 0 <= i < |s| ensures UpperCase(r)[i] == UpperCase(s)[i] {
      var c := s[i];
      UpperOfLower(c);
      if i == 0 {
        assert r[0] == ToUpper(ToLower(c));
      } else {
        assert r[i] == ToLower(c);
      }
    }
  }

  /** Upper-casing forgets a prior lower- or upper-casing. */
  lemma UpperOfLower(c: char)
    ensures ToUpper(ToLower(c)) == ToUpper(c)
    ensures ToUpper(ToUpper(ToLower(c))) == ToUpper(c)
  {
  }

  /** Normalising never changes a string as LOWER(...) sees it. */
  lemma NormalizeKeepsLowerCase(s: string)
    ensures LowerCase(Normalize(s)) == LowerCase(s)
  {
    var r := Normalize(s);
    forall i | 0 <= i < |s| ensures LowerCase(r)[i] == LowerCase(s)[i] {
      var c := s[i];
      if IsLowerAscii(c) {
        assert ToLower(ToUpper(c)) == c;
      }
    }
  }

  /** Two strings that differ only in case normalise to the same text. */
  lemma NormalizeIgnoresCase(a: string, b: string)
    requires LowerCase(a) == LowerCase(b)
    ensures Normalize(a) == Normalize(b)
  {
  }

  /** "5 Tomatoes" is written as "5 tomatoes". */
  lemma NormalizeTomatoes()
    ensures Normalize("5 Tomatoes") == "5 tomatoes"
  {
    var a, b := "5 Tomatoes", "5 tomatoes";
    assert LowerCase(a) == LowerCase(b) by {
      forall i | 0 <= i < |a| ensures LowerCase(a)[i] == LowerCase(b)[i] {
        if i == 2 { assert ToLower('T') == 't'; }
      }
    }
    NormalizeIgnoresCase(a, b);
    NormalizeKeepsTomatoes();
  }

  /** "5 tomatoes" is already normalised, so it is written unchanged. */
  lemma NormalizeKeepsTomatoes()
    ensures Normalize("5 tomatoes") == "5 tomatoes"
  {
    var s := "5 tomatoes";
    assert IsNormalized(s) by {
      forall i | 1 <= i < |s| ensures !IsUpperAscii(s[i]) {}
    }
    NormalizedIsFixpoint(s);
  }

  /** "Beef Stew" is written as "Beef stew"; null is written as null. */
  lemma NormalizeBeefStew()
    ensures Normalize("Beef Stew") == "Beef stew"
    ensures ConvertToDatabaseColumn(None) == None
  {
    var s, r := "Beef Stew", Normalize("Beef Stew");
    forall i | 0 <= i < |s| ensures r[i] == "Beef stew"[i] {
      if i == 5 { assert r[i] == ToLower('S'); }
    }
  }

  /**
   * Reading back a written value gives the normalised text, while the value
   * the caller wrote is not normalised unless it already was: an in-memory
   * entity holds raw text until it is reloaded.
   */
  lemma ReadAfterWrite(s: string)
    ensures ConvertToEntityAttribute(ConvertToDatabaseColumn(Some(s))) == Some(Normalize(s))
    ensures Normalize(s) == s <==> IsNormalized(s)
  {
    NormalizeIsNormalized(s);
    if IsNormalized(s) {
      NormalizedIsFixpoint(s);
    }
  }
}

=== FILE: recipe.dfy ===
/**
 * Recipe: the aggregate root. Its two child collections are sorted sets
 * (instructions by step, ingredients by description); its equality and hash
 * code look at the name only; before every insert and update its name is
 * rewritten to capitalize(lowerCase(name)).
 */
module RecipeEntity {
  import opened Wrappers
  import opened Text
  import opened AbstractEntity
  import opened Category
  import opened IngredientEntity
  import opened InstructionEntity
  import TreeSet
  import NameConverter

  /** The fields of a recipe, as a value. */
  datatype RecipeState = RecipeState(
    id: Option<Uuid>,
    name: string,
    category: CategoryType,
    servings: int,
    preparationTime: int,
    cookingTime: int,
    instructions: seq<Instruction>,
    ingredients: seq<Ingredient>)

  /** Iteration order of the instructions: strictly ascending steps. */
  predicate InstructionsSorted(s: RecipeState) {
    TreeSet.Sorted(InstructionEntity.CompareTo, s.instructions)
  }

  /** Iteration order of the ingredients: strictly ascending descriptions. */
  predicate IngredientsSorted(s: RecipeState) {
    TreeSet.Sorted(IngredientEntity.CompareTo, s.ingredients)
  }

  /** Blank as @NotBlank sees it: nothing is left once String.trim drops every character up to U+0020. */
  predicate IsBlank(s: string) {
    forall i :: 0 <= i < |s| ==> s[i] <= ' '
  }

  /**
   * The declared field constraints: a non-blank name, at least one serving,
   * positive preparation and cooking times, and non-empty child sets. The
   * validator checks them before a recipe row is inserted or updated.
   */
  predicate FieldConstraints(s: RecipeState) {
    && !IsBlank(s.name)
    && s.servings >= 1 && s.preparationTime >= 1 && s.cookingTime >= 1
    && s.instructions != [] && s.ingredients != []
  }

  /** Recipe.equals (Lombok, name only, no call to the inherited equals). */
  predicate Equals(a: RecipeState, b: RecipeState) {
    a.name == b.name
  }

  /** Recipe.hashCode (Lombok, name only): 59 * 1 + name.hashCode(), in 32-bit arithmetic. */
  function HashCode(a: RecipeState): (r: int)
    ensures -0x8000_0000 <= r < 0x8000_0000
  {
    Wrap32(59 + StringHash(a.name))
  }

  /** Two recipes are equal exactly when their names are, whatever their ids and other fields; equal recipes hash alike. */
  lemma EqualityIsByName(a: RecipeState, b: RecipeState)
    ensures Equals(a, b) <==> a.name == b.name
    ensures Equals(a, b) ==> HashCode(a) == HashCode(b)
    ensures Equals(a.(id := b.id), b) == Equals(a, b)
  {
  }

  /** A saved and an unsaved recipe with one name are equal: the id takes no part. */
  lemma SavedEqualsUnsaved(a: RecipeState, id: Uuid)
    requires a.id.None?
    ensures Equals(a, a.(id := Some(id), servings := a.servings + 1))
  {
  }

  /** The mutable recipe entity. */
  class Recipe {
    var id: Option<Uuid>
    var name: string
    var category: CategoryType
    var servings: int
    var preparationTime: int
    var cookingTime: int
    var instructions: seq<Instruction>
    var ingredients: seq<Ingredient>

    function State(): RecipeState
      reads this
    {
      RecipeState(id, name, category, servings, preparationTime, cookingTime, instructions, ingredients)
    }

    /** The builder: scalar fields as given, no id yet, and empty child sets. */
    constructor Build(name: string, category: CategoryType, servings: int, preparationTime: int, cookingTime: int)
      ensures State() == RecipeState(None, name, category, servings, preparationTime, cookingTime, [], [])
      ensures InstructionsSorted(State()) && IngredientsSorted(State())
    {
      this.id := None;
      this.name := name;
      this.category := category;
      this.servings := servings;
      this.preparationTime := preparationTime;
      this.cookingTime := cookingTime;
      this.instructions := [];
      this.ingredients := [];
    }

    /** prePersist / preUpdate: the name becomes capitalize(lowerCase(name)); nothing else changes. */
    method PrePersist()
      modifies this
      ensures State() == old(State()).(name := NameConverter.Normalize(old(name)))
      ensures NameConverter.IsNormalized(name) && |name| == |old(name)|
      ensures EqualsIgnoreCase(name, old(name))
    {
      NameConverter.NormalizeIsNormalized(name);
      NameConverter.NormalizeKeepsUpperCase(name);
      name := NameConverter.Normalize(name);
    }
  }

  /** A recipe built as "Beef Stew" carries the name "Beef stew" once prePersist has run. */
  method PrePersistBeefStew() returns (name: string)
    ensures name == "Beef stew"
  {
    var r := new Recipe.Build("Beef Stew", BeefType, 4, 15, 120);
    r.PrePersist();
    NameConverter.NormalizeBeefStew();
    name := r.name;
  }
}

=== FILE: recipe_dtos.dfy ===
/**
 * The request payloads of the recipe service: the sparse update payload,
 * whose every field may be null, and the create payload.
 */
module RecipeDtos {
  import opened Wrappers
  import opened Category
  import opened IngredientDto
  import opened InstructionDto

  /** UpdateRecipeDTO: None stands for a field left out of the payload. */
  datatype UpdateRecipeDTO = UpdateRecipeDTO(
    name: Option<string>,
    servings: Option<int>,
    preparationTime: Option<int>,
    category: Option<CategoryDTO>,
    cookingTime: Option<int>)

  /** CreateRecipeDTO: the recipe fields and its children as lists, in payload order. */
  datatype CreateRecipeDTO = CreateRecipeDTO(
    name: string,
    servings: int,
    preparationTime: int,
    category: CategoryDTO,
    cookingTime: int,
    instructions: seq<InstructionDTO>,
    ingredients: seq<IngredientDTO>)
}

=== FILE: recipe_mapper.dfy ===
/**
 * RecipeMapper: the category switch, the sparse in-place update of a recipe
 * from an update payload (null fields are ignored), and the construction of
 * a new recipe and of new children from payload items.
 */
module RecipeMapper {
  import opened Wrappers
  import opened AbstractEntity
  import opened Category
  import opened IngredientEntity
  import opened InstructionEntity
  import opened IngredientDto
  import opened InstructionDto
  import opened RecipeDtos
  import opened RecipeEntity
  import TreeSet
  import InstructionMapper
  import IngredientMapper

  /** toCategoryType: null maps to null, each constant to the domain constant of the same name. */
  function ToCategoryType(c: Option<CategoryDTO>): (r: Option<CategoryType>)
    ensures r.None? <==> c.None?
    ensures r.Some? ==> TypeName(r.value) == DtoName(c.value)
  {
    match c
    case None => None
    case Some(Vegetarian) => Some(VegetarianType)
    case Some(Comfort) => Some(ComfortType)
    case Some(Beef) => Some(BeefType)
    case Some(Chicken) => Some(ChickenType)
    case Some(Other) => Some(OtherType)
  }

  /** Distinct categories map to distinct domain categories. */
  lemma ToCategoryTypeInjective(a: Option<CategoryDTO>, b: Option<CategoryDTO>)
    requires ToCategoryType(a) == ToCategoryType(b)
    ensures a == b
  {
  }

  /** The switch agrees with CategoryType.valueOf(dto.name()), which the category filter uses. */
  lemma ToCategoryTypeIsValueOfName(c: CategoryDTO)
    ensures ValueOf(DtoName(c)) == ToCategoryType(Some(c))
  {
  }

  /**
   * The recipe after updateRecipe: each scalar field takes the payload's
   * value when that is non-null and keeps its own otherwise; the id and the
   * children are not in the payload and never change.
   */
  function ApplyUpdate(s: RecipeState, dto: UpdateRecipeDTO): (r: RecipeState)
    ensures r.id == s.id && r.instructions == s.instructions && r.ingredients == s.ingredients
    ensures r.name == (if dto.name.Some? then dto.name.value else s.name)
    ensures r.servings == (if dto.servings.Some? then dto.servings.value else s.servings)
    ensures r.preparationTime == (if dto.preparationTime.Some? then dto.preparationTime.value else s.preparationTime)
    ensures r.cookingTime == (if dto.cookingTime.Some? then dto.cookingTime.value else s.cookingTime)
    ensures r.category == (if dto.category.Some? then ToCategoryType(dto.category).value else s.category)
  {
    s.(name := dto.name.GetOr(s.name))
     .(servings := dto.servings.GetOr(s.servings))
     .(preparationTime := dto.preparationTime.GetOr(s.preparationTime))
     .(category := ToCategoryType(dto.category).GetOr(s.category))
     .(cookingTime := dto.cookingTime.GetOr(s.cookingTime))
  }

  /** Applying one payload twice is applying it once. */
  lemma ApplyUpdateIdempotent(s: RecipeState, dto: UpdateRecipeDTO)
    ensures ApplyUpdate(ApplyUpdate(s, dto), dto) == ApplyUpdate(s, dto)
  {
  }

  /** A payload with every field null changes nothing. */
  lemma EmptyUpdateChangesNothing(s: RecipeState)
    ensures ApplyUpdate(s, UpdateRecipeDTO(None, None, None, None, None)) == s
  {
  }

  /** Omitting the category keeps the stored one, whatever else the payload sets. */
  lemma OmittedCategoryKept(s: RecipeState, dto: UpdateRecipeDTO)
    requires dto.category.None?
    ensures ApplyUpdate(s, dto).category == s.category
  {
  }

  /** updateRecipe: mutates the target recipe in place and returns that same recipe. */
  method UpdateRecipe(recipe: Recipe, dto: UpdateRecipeDTO) returns (r: Recipe)
    modifies recipe
    ensures r == recipe
    ensures recipe.State() == ApplyUpdate(old(recipe.State()), dto)
  {
    if dto.name.Some? {
      recipe.name := dto.name.value;
    }
    if dto.servings.Some? {
      recipe.servings := dto.servings.value;
    }
    if dto.preparationTime.Some? {
      recipe.preparationTime := dto.preparationTime.value;
    }
    if dto.category.Some? {
      recipe.category := ToCategoryType(dto.category).value;
    }
    if dto.cookingTime.Some? {
      recipe.cookingTime := dto.cookingTime.value;
    }
    r := recipe;
  }

  /**
   * Instruction items that all carry a step. A sorted set compares every
   * element it takes in, and Instruction.compareTo dereferences the step, so
   * one item without a step makes the set throw.
   */
  predicate StepItems(dtos: seq<InstructionDTO>) {
    forall k :: 0 <= k < |dtos| ==> dtos[k].step.Some?
  }

  /**
   * Some instruction the set kept was built from the item at position k,
   * which has no description (the k-th new entity has the id firstId + k).
   * Its insert breaks the description's NOT NULL column.
   */
  predicate KeepsMissingDescription(r: seq<Instruction>, dtos: seq<InstructionDTO>, firstId: nat) {
    exists i, k :: 0 <= i < |r| && 0 <= k < |dtos| && r[i].id == Some(firstId + k) && dtos[k].description.None?
  }

  /**
   * Some instruction the set kept was built from the item at position k,
   * which carries an id of its own. The mapper copies that id onto the
   * entity, so persisting it meets an entity that is not new.
   */
  predicate KeepsCarriedInstructionId(r: seq<Instruction>, dtos: seq<InstructionDTO>, firstId: nat) {
    exists i, k :: 0 <= i < |r| && 0 <= k < |dtos| && r[i].id == Some(firstId + k) && dtos[k].id.Some?
  }

  /** The same for ingredients: a kept ingredient comes from an item that carries an id. */
  predicate KeepsCarriedIngredientId(r: seq<Ingredient>, dtos: seq<IngredientDTO>, firstId: nat) {
    exists i, k :: 0 <= i < |r| && 0 <= k < |dtos| && r[i].id == Some(firstId + k) && dtos[k].id.Some?
  }

  /** A create payload whose built recipe keeps a child that came with an id. */
  predicate KeepsCarriedId(dto: CreateRecipeDTO, id: nat)
    requires StepItems(dto.instructions)
  {
    var r := Created(dto, id);
    KeepsCarriedInstructionId(r.instructions, dto.instructions, id + 1)
    || KeepsCarriedIngredientId(r.ingredients, dto.ingredients, id + 1 + |dto.instructions|)
  }

  /** Instruction items that carry no id. */
  predicate NewInstructionItems(dtos: seq<InstructionDTO>) {
    forall k :: 0 <= k < |dtos| ==> dtos[k].id.None?
  }

  /** Ingredient items that carry no id. */
  predicate NewIngredientItems(dtos: seq<IngredientDTO>) {
    forall k :: 0 <= k < |dtos| ==> dtos[k].id.None?
  }

  /**
   * New instruction entities built from payload items. The k-th gets the id
   * firstId + k that storage gives it; an item that carries an id of its own
   * is refused before storage (`KeepsCarriedInstructionId`, or the caller's
   * own check), so that id is never stored.
   */
  function NewInstructions(dtos: seq<InstructionDTO>, firstId: nat): (r: seq<Instruction>)
    requires StepItems(dtos)
    ensures |r| == |dtos|
    ensures forall k :: 0 <= k < |r| ==> r[k].id == Some(firstId + k) && r[k].step == dtos[k].step.value
  {
    seq(|dtos|, k requires 0 <= k < |dtos| => InstructionMapper.ToEntity(dtos[k]).(id := Some(firstId + k)))
  }

  /** New ingredient entities built from payload items, with ids as for `NewInstructions`. */
  function NewIngredients(dtos: seq<IngredientDTO>, firstId: nat): (r: seq<Ingredient>)
    ensures |r| == |dtos|
    ensures forall k :: 0 <= k < |r| ==> r[k].id == Some(firstId + k) && r[k].description == dtos[k].description
  {
    seq(|dtos|, k requires 0 <= k < |dtos| => IngredientMapper.ToEntity(dtos[k]).(id := Some(firstId + k)))
  }

  /**
   * Only a kept item's missing description reaches the database: of two
   * items with one step the set keeps the first, so a second item without a
   * description is dropped unseen, while a first one is inserted and refused.
   */
  lemma MissingDescriptionMattersOnlyWhenKept()
    ensures var a := InstructionDTO(None, Some("Boil water"), None, Some(1));
            var b := InstructionDTO(None, None, None, Some(1));
            && !KeepsMissingDescription(TreeSet.AddAll(InstructionEntity.CompareTo, [], NewInstructions([a, b], 1)), [a, b], 1)
            && KeepsMissingDescription(TreeSet.AddAll(InstructionEntity.CompareTo, [], NewInstructions([b, a], 1)), [b, a], 1)
  {
    var a := InstructionDTO(None, Some("Boil water"), None, Some(1));
    var b := InstructionDTO(None, None, None, Some(1));
    var ab := NewInstructions([a, b], 1);
    var ba := NewInstructions([b, a], 1);
    assert TreeSet.AddAll(InstructionEntity.CompareTo, [], ab) == [ab[0]] by {
      assert TreeSet.Add(InstructionEntity.CompareTo, [], ab[0]) == [ab[0]];
      assert TreeSet.Add(InstructionEntity.CompareTo, [ab[0]], ab[1]) == [ab[0]];
      assert ab[1..][0] == ab[1] && ab[1..][1..] == [];
      assert TreeSet.AddAll(InstructionEntity.CompareTo, [ab[0]], ab[1..][1..]) == [ab[0]];
      assert TreeSet.AddAll(InstructionEntity.CompareTo, [ab[0]], ab[1..]) == [ab[0]];
    }
    assert TreeSet.AddAll(InstructionEntity.CompareTo, [], ba) == [ba[0]] by {
      assert TreeSet.Add(InstructionEntity.CompareTo, [], ba[0]) == [ba[0]];
      assert TreeSet.Add(InstructionEntity.CompareTo, [ba[0]], ba[1]) == [ba[0]];
      assert ba[1..][0] == ba[1] && ba[1..][1..] == [];
      assert TreeSet.AddAll(InstructionEntity.CompareTo, [ba[0]], ba[1..][1..]) == [ba[0]];
      assert TreeSet.AddAll(InstructionEntity.CompareTo, [ba[0]], ba[1..]) == [ba[0]];
    }
    assert [ba[0]][0].id == Some(1 + 0);
  }

  /**
   * Only a kept item's own id reaches persist: of two ingredients with one
   * description the set keeps the first, so an id on the second is dropped
   * unseen, while an id on the first is kept.
   */
  lemma CarriedIdMattersOnlyWhenKept()
    ensures var a := IngredientDTO(None, "Salt");
            var b := IngredientDTO(Some(7), "Salt");
            && !KeepsCarriedIngredientId(TreeSet.AddAll(IngredientEntity.CompareTo, [], NewIngredients([a, b], 1)), [a, b], 1)
            && KeepsCarriedIngredientId(TreeSet.AddAll(IngredientEntity.CompareTo, [], NewIngredients([b, a], 1)), [b, a], 1)
  {
    var a := IngredientDTO(None, "Salt");
    var b := IngredientDTO(Some(7), "Salt");
    var ab := NewIngredients([a, b], 1);
    var ba := NewIngredients([b, a], 1);
    assert TreeSet.AddAll(IngredientEntity.CompareTo, [], ab) == [ab[0]] by {
      assert TreeSet.Add(IngredientEntity.CompareTo, [], ab[0]) == [ab[0]];
      assert TreeSet.Add(IngredientEntity.CompareTo, [ab[0]], ab[1]) == [ab[0]];
      assert ab[1..][0] == ab[1] && ab[1..][1..] == [];
      assert TreeSet.AddAll(IngredientEntity.CompareTo, [ab[0]], ab[1..][1..]) == [ab[0]];
      assert TreeSet.AddAll(IngredientEntity.CompareTo, [ab[0]], ab[1..]) == [ab[0]];
    }
    assert TreeSet.AddAll(IngredientEntity.CompareTo, [], ba) == [ba[0]] by {
      assert TreeSet.Add(IngredientEntity.CompareTo, [], ba[0]) == [ba[0]];
      assert TreeSet.Add(IngredientEntity.CompareTo, [ba[0]], ba[1]) == [ba[0]];
      assert ba[1..][0] == ba[1] && ba[1..][1..] == [];
      assert TreeSet.AddAll(IngredientEntity.CompareTo, [ba[0]], ba[1..][1..]) == [ba[0]];
      assert TreeSet.AddAll(IngredientEntity.CompareTo, [ba[0]], ba[1..]) == [ba[0]];
    }
    assert [ba[0]][0].id == Some(1 + 0);
  }

  /**
   * The recipe built from a create payload, with the ids storage assigns: the
   * recipe gets `id`, its instructions the ids after it and its ingredients
   * the ids after those. Each child list goes through TreeSet.addAll, so the
   * first item of each sort key is kept.
   */
  function Created(dto: CreateRecipeDTO, id: nat): (r: RecipeState)
    requires StepItems(dto.instructions)
    ensures InstructionsSorted(r) && IngredientsSorted(r)
    ensures r.id == Some(id) && r.name == dto.name
    ensures r.category == ToCategoryType(Some(dto.category)).value && TypeName(r.category) == DtoName(dto.category)
    ensures r.servings == dto.servings && r.preparationTime == dto.preparationTime && r.cookingTime == dto.cookingTime
    ensures r.instructions == TreeSet.AddAll(InstructionEntity.CompareTo, [], NewInstructions(dto.instructions, id + 1))
    ensures r.ingredients == TreeSet.AddAll(IngredientEntity.CompareTo, [], NewIngredients(dto.ingredients, id + 1 + |dto.instructions|))
  {
    InstructionEntity.CompareToIsTotalOrder();
    IngredientEntity.CompareToIsTotalOrder();
    var instructions := NewInstructions(dto.instructions, id + 1);
    var ingredients := NewIngredients(dto.ingredients, id + 1 + |dto.instructions|);
    TreeSet.AddAllSorted(InstructionEntity.CompareTo, [], instructions);
    TreeSet.AddAllSorted(IngredientEntity.CompareTo, [], ingredients);
    RecipeState(Some(id), dto.name, ToCategoryType(Some(dto.category)).value, dto.servings,
      dto.preparationTime, dto.cookingTime,
      TreeSet.AddAll(InstructionEntity.CompareTo, [], instructions),
      TreeSet.AddAll(IngredientEntity.CompareTo, [], ingredients))
  }

  /** Every item's description is among the ingredients, and every ingredient's description comes from an item. */
  ghost predicate HoldsDescriptions(r: seq<Ingredient>, dtos: seq<IngredientDTO>)
  {
    && (forall k :: 0 <= k < |dtos| ==> exists i :: 0 <= i < |r| && r[i].description == dtos[k].description)
    && (forall x :: x in r ==> exists k :: 0 <= k < |dtos| && x.description == dtos[k].description)
  }

  /** Every item's step is among the instructions, and every instruction's step comes from an item. */
  ghost predicate HoldsSteps(r: seq<Instruction>, dtos: seq<InstructionDTO>)
    requires StepItems(dtos)
  {
    && (forall k :: 0 <= k < |dtos| ==> exists i :: 0 <= i < |r| && r[i].step == dtos[k].step.value)
    && (forall x :: x in r ==> exists k :: 0 <= k < |dtos| && x.step == dtos[k].step.value)
  }

  /**
   * A created recipe holds the ingredients the payload sent: every item's
   * description is present, and every ingredient comes from an item.
   */
  lemma CreatedHoldsIngredients(dto: CreateRecipeDTO, id: nat)
    requires StepItems(dto.instructions)
    ensures HoldsDescriptions(Created(dto, id).ingredients, dto.ingredients)
  {
    FilledIngredients(Created(dto, id).ingredients, dto.ingredients, id + 1 + |dto.instructions|);
  }

  /** Filling an empty ingredient set from items yields exactly the items' descriptions. */
  lemma FilledIngredients(r: seq<Ingredient>, dtos: seq<IngredientDTO>, firstId: nat)
    requires r == TreeSet.AddAll(IngredientEntity.CompareTo, [], NewIngredients(dtos, firstId))
    ensures HoldsDescriptions(r, dtos)
  {
    var ing := NewIngredients(dtos, firstId);
    AddedIngredientsPresent([], dtos, firstId);
    forall x | x in r ensures exists k :: 0 <= k < |dtos| && x.description == dtos[k].description {
      var k :| 0 <= k < |ing| && ing[k] == x;
    }
  }

  /**
   * A created recipe holds the instructions the payload sent: every item's
   * step is present, and every instruction comes from an item.
   */
  lemma CreatedHoldsInstructions(dto: CreateRecipeDTO, id: nat)
    requires StepItems(dto.instructions)
    ensures HoldsSteps(Created(dto, id).instructions, dto.instructions)
  {
    FilledInstructions(Created(dto, id).instructions, dto.instructions, id + 1);
  }

  /** Filling an empty instruction set from items yields exactly the items' steps. */
  lemma FilledInstructions(r: seq<Instruction>, dtos: seq<InstructionDTO>, firstId: nat)
    requires StepItems(dtos)
    requires r == TreeSet.AddAll(InstructionEntity.CompareTo, [], NewInstructions(dtos, firstId))
    ensures HoldsSteps(r, dtos)
  {
    var ins := NewInstructions(dtos, firstId);
    AddedInstructionsPresent([], dtos, firstId);
    forall x | x in r ensures exists k :: 0 <= k < |dtos| && x.step == dtos[k].step.value {
      var k :| 0 <= k < |ins| && ins[k] == x;
    }
  }

  /** After addAll on a sorted set, every new item's description is present and the old elements stay. */
  lemma AddedIngredientsPresent(s: seq<Ingredient>, dtos: seq<IngredientDTO>, firstId: nat)
    requires TreeSet.Sorted(IngredientEntity.CompareTo, s)
    ensures var r := TreeSet.AddAll(IngredientEntity.CompareTo, s, NewIngredients(dtos, firstId));
            && TreeSet.Sorted(IngredientEntity.CompareTo, r)
            && (forall x :: x in s ==> x in r)
            && (forall k :: 0 <= k < |dtos| ==> exists i :: 0 <= i < |r| && r[i].description == dtos[k].description)
  {
    IngredientEntity.CompareToIsTotalOrder();
    var xs := NewIngredients(dtos, firstId);
    TreeSet.AddAllSorted(IngredientEntity.CompareTo, s, xs);
    TreeSet.AddAllOutcome(IngredientEntity.CompareTo, s, xs);
    var r := TreeSet.AddAll(IngredientEntity.CompareTo, s, xs);
    forall k | 0 <= k < |dtos| ensures exists i :: 0 <= i < |r| && r[i].description == dtos[k].description {
      assert TreeSet.HasKey(IngredientEntity.CompareTo, r, xs[k]);
      var i :| 0 <= i < |r| && IngredientEntity.CompareTo(r[i], xs[k]) == 0;
      assert r[i].description == dtos[k].description;
    }
  }

  /** After addAll on a sorted set, every new item's step is present and the old elements stay. */
  lemma AddedInstructionsPresent(s: seq<Instruction>, dtos: seq<InstructionDTO>, firstId: nat)
    requires TreeSet.Sorted(InstructionEntity.CompareTo, s)
    requires StepItems(dtos)
    ensures var r := TreeSet.AddAll(InstructionEntity.CompareTo, s, NewInstructions(dtos, firstId));
            && TreeSet.Sorted(InstructionEntity.CompareTo, r)
            && (forall x :: x in s ==> x in r)
            && (forall k :: 0 <= k < |dtos| ==> exists i :: 0 <= i < |r| && r[i].step == dtos[k].step.value)
  {
    InstructionEntity.CompareToIsTotalOrder();
    var xs := NewInstructions(dtos, firstId);
    TreeSet.AddAllSorted(InstructionEntity.CompareTo, s, xs);
    TreeSet.AddAllOutcome(InstructionEntity.CompareTo, s, xs);
    var r := TreeSet.AddAll(InstructionEntity.CompareTo, s, xs);
    forall k | 0 <= k < |dtos| ensures exists i :: 0 <= i < |r| && r[i].step == dtos[k].step.value {
      assert TreeSet.HasKey(InstructionEntity.CompareTo, r, xs[k]);
      var i :| 0 <= i < |r| && InstructionEntity.CompareTo(r[i], xs[k]) == 0;
    }
  }
}

=== FILE: recipe_repository.dfy ===
/**
 * RecipeRepository: the name queries, which compare UPPER(name) with
 * UPPER(:name), over the stored recipes keyed by id. A null name never
 * matches, since UPPER(NULL) = x is not true in SQL.
 */
module RecipeRepository {
  import opened Wrappers
  import opened Text
  import opened AbstractEntity
  import opened RecipeEntity

  /** The recipe table, keyed by id. */
  type Store = map<Uuid, RecipeState>

  /** existsByName: some stored recipe's name equals `name` ignoring case. */
  predicate ExistsByName(store: Store, name: Option<string>) {
    name.Some? && exists k :: k in store && EqualsIgnoreCase(store[k].name, name.value)
  }

  /** existsByNameWithDifferentId: the same test, skipping the recipe whose id is `id`. */
  predicate ExistsByNameWithDifferentId(store: Store, name: Option<string>, id: Uuid) {
    name.Some? && exists k :: k in store && k != id && EqualsIgnoreCase(store[k].name, name.value)
  }

  /** No two stored recipes have names equal ignoring case (what create and update keep). */
  predicate NamesUniqueIgnoringCase(store: Store) {
    forall a, b :: a in store && b in store && a != b ==> !EqualsIgnoreCase(store[a].name, store[b].name)
  }

  /** The outcome of findByName: no row, one row, or more than one (a single-result query then throws). */
  datatype Lookup = NoMatch | Found(recipe: RecipeState) | NonUnique

  /** The ids of the recipes whose name equals `name` ignoring case. */
  function Matching(store: Store, name: string): set<Uuid> {
    set k | k in store && EqualsIgnoreCase(store[k].name, name)
  }

  /** findByName. */
  ghost function FindByName(store: Store, name: string): (r: Lookup)
    ensures r.NoMatch? <==> !ExistsByName(store, Some(name))
    ensures r.Found? ==> exists k :: k in store && store[k] == r.recipe && EqualsIgnoreCase(r.recipe.name, name)
    ensures NamesUniqueIgnoringCase(store) ==> !r.NonUnique?
  {
    var ks := Matching(store, name);
    if ks == {} then
      assert forall k :: k in store && EqualsIgnoreCase(store[k].name, name) ==> k in ks;
      NoMatch
    else if |ks| == 1 then
      var k :| k in ks;
      Found(store[k])
    else
      var a :| a in ks;
      assert |ks - {a}| == |ks| - 1;
      var b :| b in ks - {a};
      assert !NamesUniqueIgnoringCase(store) by {
        assert EqualsIgnoreCase(store[a].name, store[b].name);
      }
      NonUnique
  }

  /** Case does not matter to the existence test. */
  lemma ExistsByNameIgnoresCase(store: Store, a: string, b: string)
    requires EqualsIgnoreCase(a, b)
    ensures ExistsByName(store, Some(a)) == ExistsByName(store, Some(b))
  {
  }

  /** A clash with another recipe is a clash. */
  lemma WithDifferentIdImpliesExists(store: Store, name: Option<string>, id: Uuid)
    requires ExistsByNameWithDifferentId(store, name, id)
    ensures ExistsByName(store, name)
  {
  }

  /** Without clash among the others, the only possible match is the recipe itself. */
  lemma ExistsWithoutOthersIsSelf(store: Store, name: string, id: Uuid)
    requires ExistsByName(store, Some(name)) && !ExistsByNameWithDifferentId(store, Some(name), id)
    ensures id in store && EqualsIgnoreCase(store[id].name, name)
  {
  }

  /** With unique names, renaming a recipe to (a case variant of) its own name never clashes. */
  lemma OwnNameNeverClashes(store: Store, id: Uuid, name: string)
    requires NamesUniqueIgnoringCase(store) && id in store
    requires EqualsIgnoreCase(name, store[id].name)
    ensures !ExistsByNameWithDifferentId(store, Some(name), id)
  {
  }

  /** A null name matches nothing. */
  lemma NullNameNeverMatches(store: Store, id: Uuid)
    ensures !ExistsByName(store, None) && !ExistsByNameWithDifferentId(store, None, id)
  {
  }
}

=== FILE: recipe_service.dfy ===
/**
 * RecipeServiceImpl: the recipe operations over the recipe table. The table
 * is a map from id to the stored recipe entity; ids come from a counter.
 * Each operation checks what the source checks, in the same order, and
 * either fails with the exception the source throws (leaving the table as
 * it was, as the transaction rolls back) or saves the changed recipe, whose
 * name prePersist / preUpdate has normalized.
 */
module RecipeServiceImpl {
  import opened Wrappers
  import opened Text
  import opened AbstractEntity
  import opened IngredientEntity
  import opened InstructionEntity
  import opened IngredientDto
  import opened InstructionDto
  import opened RecipeDtos
  import opened RecipeEntity
  import opened ServiceErrors
  import TreeSet
  import Streams
  import NameConverter
  import InstructionMapper
  import RecipeMapper
  import RecipeRepository
  import RecipeSpecificationBuilder

  /** The stored form of an ingredient's description (uq_ingredient_recipe_id_description). */
  function IngredientKey(i: Ingredient): string {
    NameConverter.Normalize(i.description)
  }

  /** The stored form of an instruction's description (uq_instruction_recipe_id_description). */
  function InstructionKey(i: Instruction): string {
    NameConverter.Normalize(i.description)
  }

  /** An instruction's step (uq_instruction_recipe_id_step). */
  function StepKey(i: Instruction): int {
    i.step
  }

  /** The children of one recipe meet the unique constraints of their tables once written. */
  predicate FitsStorage(s: RecipeState) {
    && Streams.DistinctKeys(s.ingredients, IngredientKey)
    && Streams.DistinctKeys(s.instructions, InstructionKey)
    && Streams.DistinctKeys(s.instructions, StepKey)
  }

  /** Every child has an id, below `bound`. */
  predicate ChildIdsBelow(s: RecipeState, bound: nat) {
    && (forall x :: x in s.instructions ==> x.id.Some? && x.id.value < bound)
    && (forall x :: x in s.ingredients ==> x.id.Some? && x.id.value < bound)
  }

  /** A recipe as a transaction loads it: both sets sorted, every child description as the converter wrote it. */
  predicate Loaded(s: RecipeState) {
    && InstructionsSorted(s) && IngredientsSorted(s)
    && (forall x :: x in s.instructions ==> NameConverter.IsNormalized(x.description))
    && (forall x :: x in s.ingredients ==> NameConverter.IsNormalized(x.description))
  }

  /**
   * What every stored recipe satisfies: keyed by its own id, ids issued, name
   * normalized, in loaded form, within the declared field constraints, and
   * children storable.
   */
  predicate Entry(k: Uuid, s: RecipeState, nextId: nat) {
    && s.id == Some(k) && k < nextId
    && ChildIdsBelow(s, nextId)
    && NameConverter.IsNormalized(s.name)
    && Loaded(s)
    && FieldConstraints(s)
    && FitsStorage(s)
  }

  /** The table invariant: every entry is well formed and names are unique ignoring case. */
  predicate StoreInvariant(c: map<Uuid, RecipeState>, nextId: nat) {
    && (forall k :: k in c ==> Entry(k, c[k], nextId))
    && RecipeRepository.NamesUniqueIgnoringCase(c)
  }

  /** The ingredient rows as written: each description goes through the converter. */
  function StoredIngredients(xs: seq<Ingredient>): seq<Ingredient> {
    seq(|xs|, k requires 0 <= k < |xs| => IngredientEntity.Stored(xs[k]))
  }

  /** The instruction rows as written: each description goes through the converter. */
  function StoredInstructions(xs: seq<Instruction>): seq<Instruction> {
    seq(|xs|, k requires 0 <= k < |xs| => InstructionEntity.Stored(xs[k]))
  }

  /**
   * The recipe as the next transaction loads it after a save: the children
   * are the rows as written, and each sorted set is filled afresh from them.
   */
  function Reloaded(s: RecipeState): RecipeState {
    s.(instructions := TreeSet.AddAll(InstructionEntity.CompareTo, [], StoredInstructions(s.instructions)),
       ingredients := TreeSet.AddAll(IngredientEntity.CompareTo, [], StoredIngredients(s.ingredients)))
  }

  /** Filling a sorted set from rows whose keys differ keeps every row. */
  lemma ReloadKeepsIngredients(ys: seq<Ingredient>)
    requires forall i, j :: 0 <= i < j < |ys| ==> ys[i].description != ys[j].description
    ensures forall x :: x in TreeSet.AddAll(IngredientEntity.CompareTo, [], ys) <==> x in ys
  {
    IngredientEntity.CompareToIsTotalOrder();
    TreeSet.AddAllDistinctKeepsAll(IngredientEntity.CompareTo, ys);
  }

  /** Filling a sorted set from rows whose steps differ keeps every row. */
  lemma ReloadKeepsInstructions(ys: seq<Instruction>)
    requires forall i, j :: 0 <= i < j < |ys| ==> ys[i].step != ys[j].step
    ensures forall x :: x in TreeSet.AddAll(InstructionEntity.CompareTo, [], ys) <==> x in ys
  {
    InstructionEntity.CompareToIsTotalOrder();
    TreeSet.AddAllDistinctKeepsAll(InstructionEntity.CompareTo, ys);
  }

  /**
   * Storable ingredients reload as exactly their rows as written, sorted, with
   * the rows' keys still distinct.
   */
  lemma ReloadedIngredients(xs: seq<Ingredient>)
    requires Streams.DistinctKeys(xs, IngredientKey)
    ensures var r := TreeSet.AddAll(IngredientEntity.CompareTo, [], StoredIngredients(xs));
            && TreeSet.Sorted(IngredientEntity.CompareTo, r)
            && (forall x :: x in r <==> x in StoredIngredients(xs))
            && (forall x :: x in r ==> NameConverter.IsNormalized(x.description))
            && Streams.DistinctKeys(r, IngredientKey)
  {
    var ys := StoredIngredients(xs);
    var r := TreeSet.AddAll(IngredientEntity.CompareTo, [], ys);
    IngredientEntity.CompareToIsTotalOrder();
    TreeSet.AddAllSorted(IngredientEntity.CompareTo, [], ys);
    assert forall i, j :: 0 <= i < j < |ys| ==> ys[i].description != ys[j].description by {
      forall i, j | 0 <= i < j < |ys| ensures ys[i].description != ys[j].description {
        assert IngredientKey(xs[i]) != IngredientKey(xs[j]);
      }
    }
    ReloadKeepsIngredients(ys);
    forall i, j | 0 <= i < j < |r| ensures IngredientKey(r[i]) != IngredientKey(r[j]) {
      assert IngredientEntity.CompareTo(r[i], r[j]) < 0;
      assert r[i] in ys && r[j] in ys;
      NameConverter.NormalizedIsFixpoint(r[i].description);
      NameConverter.NormalizedIsFixpoint(r[j].description);
    }
  }

  /** Two instruction rows at different positions have different description keys once written. */
  lemma StoredInstructionKeysDistinct(xs: seq<Instruction>, a: nat, b: nat)
    requires Streams.DistinctKeys(xs, InstructionKey) && a < |xs| && b < |xs| && a != b
    ensures InstructionKey(StoredInstructions(xs)[a]) != InstructionKey(StoredInstructions(xs)[b])
  {
    NameConverter.NormalizeIdempotent(xs[a].description);
    NameConverter.NormalizeIdempotent(xs[b].description);
    if a < b {
      assert InstructionKey(xs[a]) != InstructionKey(xs[b]);
    } else {
      assert InstructionKey(xs[b]) != InstructionKey(xs[a]);
    }
  }

  /** Instruction rows written from storable instructions differ pairwise in description key and in step. */
  lemma StoredInstructionsDistinct(xs: seq<Instruction>)
    requires Streams.DistinctKeys(xs, InstructionKey) && Streams.DistinctKeys(xs, StepKey)
    ensures var ys := StoredInstructions(xs);
            forall i, j :: 0 <= i < j < |ys| ==> InstructionKey(ys[i]) != InstructionKey(ys[j]) && ys[i].step != ys[j].step
  {
    var ys := StoredInstructions(xs);
    forall i, j | 0 <= i < j < |ys| ensures InstructionKey(ys[i]) != InstructionKey(ys[j]) && ys[i].step != ys[j].step {
      StoredInstructionKeysDistinct(xs, i, j);
      assert StepKey(xs[i]) != StepKey(xs[j]);
    }
  }

  /** A sorted selection of rows whose keys differ pairwise keeps the keys distinct. */
  lemma SortedRowsKeepDistinctKeys(ys: seq<Instruction>, r: seq<Instruction>)
    requires forall i, j :: 0 <= i < j < |ys| ==> InstructionKey(ys[i]) != InstructionKey(ys[j]) && ys[i].step != ys[j].step
    requires TreeSet.Sorted(InstructionEntity.CompareTo, r) && forall x :: x in r ==> x in ys
    ensures Streams.DistinctKeys(r, InstructionKey) && Streams.DistinctKeys(r, StepKey)
  {
    forall i, j | 0 <= i < j < |r| ensures InstructionKey(r[i]) != InstructionKey(r[j]) && StepKey(r[i]) != StepKey(r[j]) {
      assert InstructionEntity.CompareTo(r[i], r[j]) < 0;
      assert r[i] in r && r[j] in r;
      var a :| 0 <= a < |ys| && ys[a] == r[i];
      var b :| 0 <= b < |ys| && ys[b] == r[j];
      if b < a {
        assert InstructionKey(ys[b]) != InstructionKey(ys[a]);
      }
    }
  }

  /**
   * Storable instructions reload as exactly their rows as written, sorted, with
   * the rows' keys still distinct.
   */
  lemma ReloadedInstructions(xs: seq<Instruction>)
    requires Streams.DistinctKeys(xs, InstructionKey) && Streams.DistinctKeys(xs, StepKey)
    ensures var r := TreeSet.AddAll(InstructionEntity.CompareTo, [], StoredInstructions(xs));
            && TreeSet.Sorted(InstructionEntity.CompareTo, r)
            && (forall x :: x in r <==> x in StoredInstructions(xs))
            && (forall x :: x in r ==> NameConverter.IsNormalized(x.description))
            && Streams.DistinctKeys(r, InstructionKey) && Streams.DistinctKeys(r, StepKey)
  {
    var ys := StoredInstructions(xs);
    var r := TreeSet.AddAll(InstructionEntity.CompareTo, [], ys);
    InstructionEntity.CompareToIsTotalOrder();
    TreeSet.AddAllSorted(InstructionEntity.CompareTo, [], ys);
    StoredInstructionsDistinct(xs);
    ReloadKeepsInstructions(ys);
    SortedRowsKeepDistinctKeys(ys, r);
  }

  /**
   * Reloading a storable recipe changes only its children, which become
   * exactly the rows as written (none lost, none added), sorted, in loaded form.
   */
  lemma ReloadedChildren(s: RecipeState)
    requires FitsStorage(s)
    ensures Loaded(Reloaded(s)) && FitsStorage(Reloaded(s))
    ensures Reloaded(s).(instructions := s.instructions, ingredients := s.ingredients) == s
    ensures forall x :: x in Reloaded(s).ingredients <==> x in StoredIngredients(s.ingredients)
    ensures forall x :: x in Reloaded(s).instructions <==> x in StoredInstructions(s.instructions)
  {
    ReloadedIngredients(s.ingredients);
    ReloadedInstructions(s.instructions);
  }

  /** A recipe already in loaded form reloads as itself. */
  lemma ReloadedIsFixpoint(s: RecipeState)
    requires Loaded(s)
    ensures Reloaded(s) == s
  {
    IngredientEntity.CompareToIsTotalOrder();
    InstructionEntity.CompareToIsTotalOrder();
    assert StoredIngredients(s.ingredients) == s.ingredients by {
      forall k | 0 <= k < |s.ingredients| ensures StoredIngredients(s.ingredients)[k] == s.ingredients[k] {
        assert s.ingredients[k] in s.ingredients;
        NameConverter.NormalizedIsFixpoint(s.ingredients[k].description);
      }
    }
    assert StoredInstructions(s.instructions) == s.instructions by {
      forall k | 0 <= k < |s.instructions| ensures StoredInstructions(s.instructions)[k] == s.instructions[k] {
        assert s.instructions[k] in s.instructions;
        NameConverter.NormalizedIsFixpoint(s.instructions[k].description);
      }
    }
    assert [] + s.ingredients == s.ingredients && [] + s.instructions == s.instructions;
    TreeSet.AddAllAscending(IngredientEntity.CompareTo, [], s.ingredients);
    TreeSet.AddAllAscending(InstructionEntity.CompareTo, [], s.instructions);
  }

  /** A well-formed, storable recipe within the field constraints is a valid entry once reloaded. */
  lemma ReloadedEntry(k: Uuid, s: RecipeState, n: nat)
    requires s.id == Some(k) && k < n && ChildIdsBelow(s, n) && NameConverter.IsNormalized(s.name)
    requires FieldConstraints(s) && FitsStorage(s)
    ensures Entry(k, Reloaded(s), n)
  {
    var r := Reloaded(s);
    ReloadedChildren(s);
    forall x | x in r.ingredients ensures x.id.Some? && x.id.value < n {
      var j :| 0 <= j < |s.ingredients| && StoredIngredients(s.ingredients)[j] == x;
      assert s.ingredients[j] in s.ingredients;
    }
    forall x | x in r.instructions ensures x.id.Some? && x.id.value < n {
      var j :| 0 <= j < |s.instructions| && StoredInstructions(s.instructions)[j] == x;
      assert s.instructions[j] in s.instructions;
    }
    assert StoredIngredients(s.ingredients)[0] in r.ingredients;
    assert StoredInstructions(s.instructions)[0] in r.instructions;
  }

  /** The recipe as saved: prePersist / preUpdate normalize the name. */
  function Saved(s: RecipeState): (r: RecipeState)
    ensures NameConverter.IsNormalized(r.name) && EqualsIgnoreCase(r.name, s.name)
    ensures r.(name := s.name) == s
  {
    NameConverter.NormalizeIsNormalized(s.name);
    NameConverter.NormalizeKeepsUpperCase(s.name);
    s.(name := NameConverter.Normalize(s.name))
  }

  /** An update without a name keeps a stored (normalized) name as it is. */
  lemma UpdateWithoutNameKeepsName(s: RecipeState, dto: UpdateRecipeDTO)
    requires NameConverter.IsNormalized(s.name) && dto.name.None?
    ensures Saved(RecipeMapper.ApplyUpdate(s, dto)).name == s.name
  {
    NameConverter.NormalizedIsFixpoint(s.name);
  }

  /** Child ids below one bound are below every larger one. */
  lemma ChildIdsBelowGrows(s: RecipeState, n: nat, n': nat)
    requires ChildIdsBelow(s, n) && n <= n'
    ensures ChildIdsBelow(s, n')
  {
  }

  /** A new recipe's children get the ids after the recipe's own, up to the next free id. */
  lemma CreatedChildIds(dto: CreateRecipeDTO, id: nat)
    requires RecipeMapper.StepItems(dto.instructions)
    ensures ChildIdsBelow(RecipeMapper.Created(dto, id), id + 1 + |dto.instructions| + |dto.ingredients|)
    ensures forall x :: x in RecipeMapper.Created(dto, id).ingredients ==> id < x.id.value
    ensures forall x :: x in RecipeMapper.Created(dto, id).instructions ==> id < x.id.value
  {
    var s := RecipeMapper.Created(dto, id);
    var ins := RecipeMapper.NewInstructions(dto.instructions, id + 1);
    var ing := RecipeMapper.NewIngredients(dto.ingredients, id + 1 + |dto.instructions|);
    forall x | x in s.instructions ensures x.id.Some? && id < x.id.value < id + 1 + |dto.instructions| + |dto.ingredients| {
      assert x in ins;
      var k :| 0 <= k < |ins| && ins[k] == x;
    }
    forall x | x in s.ingredients ensures x.id.Some? && id < x.id.value < id + 1 + |dto.instructions| + |dto.ingredients| {
      assert x in ing;
      var k :| 0 <= k < |ing| && ing[k] == x;
    }
  }

  /** Replacing one recipe keeps the invariant when the new state is well formed and its name clashes with no other. */
  lemma ReplaceKeepsInvariant(c: map<Uuid, RecipeState>, n: nat, id: Uuid, s: RecipeState)
    requires StoreInvariant(c, n) && id in c && Entry(id, s, n)
    requires forall k :: k in c && k != id ==> !EqualsIgnoreCase(c[k].name, s.name)
    ensures StoreInvariant(c[id := s], n)
  {
  }

  /** Adding a recipe under a fresh id keeps the invariant when its name clashes with none. */
  lemma InsertKeepsInvariant(c: map<Uuid, RecipeState>, n: nat, n': nat, id: Uuid, s: RecipeState)
    requires StoreInvariant(c, n) && n <= id && Entry(id, s, n') && n <= n'
    requires forall k :: k in c ==> !EqualsIgnoreCase(c[k].name, s.name)
    ensures id !in c
    ensures StoreInvariant(c[id := s], n')
  {
    forall k | k in c ensures Entry(k, c[k], n') {
      ChildIdsBelowGrows(c[k], n, n');
    }
  }

  /**
   * A recipe created under the next id carries that id, children with ids
   * between it and the next free id, and the payload's name normalized,
   * which clashes with no row when the payload's name does not.
   */
  lemma CreatedIsWellFormed(c: map<Uuid, RecipeState>, n: nat, dto: CreateRecipeDTO)
    requires RecipeMapper.StepItems(dto.instructions)
    requires !RecipeRepository.ExistsByName(c, Some(dto.name))
    ensures var saved := Saved(RecipeMapper.Created(dto, n));
            && saved.id == Some(n)
            && ChildIdsBelow(saved, n + 1 + |dto.instructions| + |dto.ingredients|)
            && NameConverter.IsNormalized(saved.name)
            && (forall k :: k in c ==> !EqualsIgnoreCase(c[k].name, saved.name))
  {
    var saved := Saved(RecipeMapper.Created(dto, n));
    CreatedChildIds(dto, n);
    forall k | k in c ensures !EqualsIgnoreCase(c[k].name, saved.name) {
      assert !EqualsIgnoreCase(c[k].name, dto.name);
    }
  }

  /** A well-formed new recipe joins the table under the next id, as it reloads, and keeps the invariant. */
  lemma InsertReloadedKeepsInvariant(c: map<Uuid, RecipeState>, n: nat, next: nat, s: RecipeState)
    requires StoreInvariant(c, n) && n < next
    requires s.id == Some(n) && ChildIdsBelow(s, next) && NameConverter.IsNormalized(s.name)
    requires FieldConstraints(s) && FitsStorage(s)
    requires forall k :: k in c ==> !EqualsIgnoreCase(c[k].name, s.name)
    ensures n !in c
    ensures StoreInvariant(c[n := Reloaded(s)], next)
  {
    ReloadedEntry(n, s, next);
    InsertKeepsInvariant(c, n, next, n, Reloaded(s));
  }

  /**
   * An update whose name no other row holds, ignoring case, and whose result
   * meets the field constraints keeps the invariant: the id and children
   * stay, and the name is normalized again.
   */
  lemma UpdatedKeepsInvariant(c: map<Uuid, RecipeState>, n: nat, id: Uuid, dto: UpdateRecipeDTO)
    requires StoreInvariant(c, n) && id in c
    requires !RecipeRepository.ExistsByNameWithDifferentId(c, dto.name, id)
    ensures var s := Saved(RecipeMapper.ApplyUpdate(c[id], dto));
            FieldConstraints(s) ==> StoreInvariant(c[id := s], n)
  {
    var s := Saved(RecipeMapper.ApplyUpdate(c[id], dto));
    if FieldConstraints(s) {
      assert Entry(id, c[id], n);
      forall k | k in c && k != id ensures !EqualsIgnoreCase(c[k].name, s.name) {
        if dto.name.Some? {
          assert !EqualsIgnoreCase(c[k].name, dto.name.value);
        } else {
          UpdateWithoutNameKeepsName(c[id], dto);
        }
      }
      ReplaceKeepsInvariant(c, n, id, s);
    }
  }

  /** Dropping a recipe keeps the invariant. */
  lemma RemoveKeepsInvariant(c: map<Uuid, RecipeState>, n: nat, id: Uuid)
    requires StoreInvariant(c, n)
    ensures StoreInvariant(c - {id}, n)
  {
  }

  /** A stored recipe replaced by a well-formed state with the same id and name, as it reloads, keeps the invariant. */
  lemma ReplaceReloadedKeepsInvariant(c: map<Uuid, RecipeState>, n: nat, next: nat, id: Uuid, s: RecipeState)
    requires StoreInvariant(c, n) && n <= next && id in c
    requires s.id == c[id].id && s.name == c[id].name && ChildIdsBelow(s, next)
    requires FieldConstraints(s) && FitsStorage(s)
    ensures StoreInvariant(c[id := Reloaded(s)], next)
  {
    assert Entry(id, c[id], n);
    forall k | k in c ensures Entry(k, c[k], next) {
      ChildIdsBelowGrows(c[k], n, next);
    }
    ReloadedEntry(id, s, next);
    ReplaceKeepsInvariant(c, next, id, Reloaded(s));
  }

  /**
   * Adding new ingredients under fresh ids to a stored recipe keeps its id
   * and name, keeps every child id below the counter moved past the new
   * ones, and keeps it within the field constraints.
   */
  lemma AddedIngredientsWellFormed(c: map<Uuid, RecipeState>, n: nat, id: Uuid, dtos: seq<IngredientDTO>)
    requires StoreInvariant(c, n) && id in c
    ensures var s := c[id].(ingredients := TreeSet.AddAll(IngredientEntity.CompareTo, c[id].ingredients,
                                                          RecipeMapper.NewIngredients(dtos, n)));
            && ChildIdsBelow(s, n + |dtos|) && FieldConstraints(s)
  {
    var created := RecipeMapper.NewIngredients(dtos, n);
    var s := c[id].(ingredients := TreeSet.AddAll(IngredientEntity.CompareTo, c[id].ingredients, created));
    var next := n + |dtos|;
    assert Entry(id, c[id], n);
    ChildIdsBelowGrows(c[id], n, next);
    RecipeMapper.AddedIngredientsPresent(c[id].ingredients, dtos, n);
    forall x | x in s.ingredients ensures x.id.Some? && x.id.value < next {
      if x !in c[id].ingredients {
        var k :| 0 <= k < |created| && created[k] == x;
      }
    }
    assert c[id].ingredients[0] in s.ingredients;
  }

  /**
   * Adding new instructions under fresh ids to a stored recipe keeps its id
   * and name, keeps every child id below the counter moved past the new
   * ones, and keeps it within the field constraints.
   */
  lemma AddedInstructionsWellFormed(c: map<Uuid, RecipeState>, n: nat, id: Uuid, dtos: seq<InstructionDTO>)
    requires StoreInvariant(c, n) && id in c && RecipeMapper.StepItems(dtos)
    ensures var s := c[id].(instructions := TreeSet.AddAll(InstructionEntity.CompareTo, c[id].instructions,
                                                           RecipeMapper.NewInstructions(dtos, n)));
            && ChildIdsBelow(s, n + |dtos|) && FieldConstraints(s)
  {
    var created := RecipeMapper.NewInstructions(dtos, n);
    var s := c[id].(instructions := TreeSet.AddAll(InstructionEntity.CompareTo, c[id].instructions, created));
    var next := n + |dtos|;
    assert Entry(id, c[id], n);
    ChildIdsBelowGrows(c[id], n, next);
    RecipeMapper.AddedInstructionsPresent(c[id].instructions, dtos, n);
    forall x | x in s.instructions ensures x.id.Some? && x.id.value < next {
      if x !in c[id].instructions {
        var k :| 0 <= k < |created| && created[k] == x;
      }
    }
    assert c[id].instructions[0] in s.instructions;
  }

  /** Patching one recipe's ingredients keeps its id and name, its child ids, and its place within the field constraints. */
  lemma PatchedIngredientsWellFormed(c: map<Uuid, RecipeState>, n: nat, id: Uuid, m: map<Option<Uuid>, IngredientDTO>)
    requires StoreInvariant(c, n) && id in c
    ensures var s := c[id].(ingredients := PatchIngredients(c[id].ingredients, m));
            ChildIdsBelow(s, n) && FieldConstraints(s)
  {
    var s := c[id].(ingredients := PatchIngredients(c[id].ingredients, m));
    assert Entry(id, c[id], n);
    forall x | x in s.ingredients ensures x.id.Some? && x.id.value < n {
      var k :| 0 <= k < |s.ingredients| && s.ingredients[k] == x;
      assert c[id].ingredients[k] in c[id].ingredients;
    }
  }

  /** Patching one recipe's instructions keeps its id and name, its child ids, and its place within the field constraints. */
  lemma PatchedInstructionsWellFormed(c: map<Uuid, RecipeState>, n: nat, id: Uuid, m: map<Option<Uuid>, InstructionDTO>)
    requires StoreInvariant(c, n) && id in c
    ensures var s := c[id].(instructions := PatchInstructions(c[id].instructions, m));
            ChildIdsBelow(s, n) && FieldConstraints(s)
  {
    var s := c[id].(instructions := PatchInstructions(c[id].instructions, m));
    assert Entry(id, c[id], n);
    forall x | x in s.instructions ensures x.id.Some? && x.id.value < n {
      var k :| 0 <= k < |s.instructions| && s.instructions[k] == x;
      assert c[id].instructions[k] in c[id].instructions;
    }
  }

  /** In a table that keeps the invariant, findByName never meets two rows. */
  lemma FindByNameIsUnique(c: map<Uuid, RecipeState>, n: nat, name: string)
    requires StoreInvariant(c, n)
    ensures !RecipeRepository.FindByName(c, name).NonUnique?
  {
  }

  /** Removing children keeps them storable and in loaded form. */
  lemma RemoveIfKeepsLoaded(s: RecipeState, p: Instruction -> bool, q: Ingredient -> bool)
    requires FitsStorage(s) && Loaded(s)
    ensures var r := s.(instructions := TreeSet.RemoveIf(s.instructions, p)); FitsStorage(r) && Loaded(r)
    ensures var r := s.(ingredients := TreeSet.RemoveIf(s.ingredients, q)); FitsStorage(r) && Loaded(r)
  {
    TreeSet.RemoveIfKeepsDistinctKeys(s.instructions, p, InstructionKey);
    TreeSet.RemoveIfKeepsDistinctKeys(s.instructions, p, StepKey);
    TreeSet.RemoveIfKeepsDistinctKeys(s.ingredients, q, IngredientKey);
    InstructionEntity.CompareToIsTotalOrder();
    IngredientEntity.CompareToIsTotalOrder();
    TreeSet.RemoveIfSorted(InstructionEntity.CompareTo, s.instructions, p);
    TreeSet.RemoveIfSorted(IngredientEntity.CompareTo, s.ingredients, q);
  }

  /**
   * Removing children from one recipe keeps the table invariant when what
   * is left meets the field constraints.
   */
  lemma RemovedChildrenKeepInvariant(c: map<Uuid, RecipeState>, n: nat, id: Uuid, p: Instruction -> bool, q: Ingredient -> bool)
    requires StoreInvariant(c, n) && id in c
    ensures var s := c[id].(instructions := TreeSet.RemoveIf(c[id].instructions, p));
            FieldConstraints(s) ==> StoreInvariant(c[id := s], n)
    ensures var s := c[id].(ingredients := TreeSet.RemoveIf(c[id].ingredients, q));
            FieldConstraints(s) ==> StoreInvariant(c[id := s], n)
  {
    assert Entry(id, c[id], n);
    RemoveIfKeepsLoaded(c[id], p, q);
    var s1 := c[id].(instructions := TreeSet.RemoveIf(c[id].instructions, p));
    var s2 := c[id].(ingredients := TreeSet.RemoveIf(c[id].ingredients, q));
    if FieldConstraints(s1) {
      ReplaceKeepsInvariant(c, n, id, s1);
    }
    if FieldConstraints(s2) {
      ReplaceKeepsInvariant(c, n, id, s2);
    }
  }

  /** Listing every instruction of a recipe for deletion leaves it outside the field constraints. */
  lemma DeletingEveryInstructionRefused(s: RecipeState, ids: seq<Uuid>)
    requires forall x :: x in s.instructions ==> x.id.Some? && x.id.value in ids
    ensures !FieldConstraints(s.(instructions := TreeSet.RemoveIf(s.instructions, InstructionIdIn(ids))))
  {
    TreeSet.RemoveIfEverythingMatches(s.instructions, InstructionIdIn(ids));
  }

  /** Listing every ingredient of a recipe for deletion leaves it outside the field constraints. */
  lemma DeletingEveryIngredientRefused(s: RecipeState, ids: seq<Uuid>)
    requires forall x :: x in s.ingredients ==> x.id.Some? && x.id.value in ids
    ensures !FieldConstraints(s.(ingredients := TreeSet.RemoveIf(s.ingredients, IngredientIdIn(ids))))
  {
    TreeSet.RemoveIfEverythingMatches(s.ingredients, IngredientIdIn(ids));
  }

  /**
   * Two ingredients that differ only in case are both kept by the sorted set
   * but store one description twice: the recipe cannot be saved.
   */
  lemma CaseVariantIngredientsDoNotFit(s: RecipeState)
    requires |s.ingredients| == 2
    requires s.ingredients[0].description == "5 TOMATOES" && s.ingredients[1].description == "5 tomatoes"
    ensures !FitsStorage(s)
  {
    IngredientEntity.CaseVariantsNormalizeAlike();
    assert IngredientKey(s.ingredients[0]) == IngredientKey(s.ingredients[1]);
  }

  /** The predicate of deleteInstructions: the instruction's id is listed. */
  function InstructionIdIn(ids: seq<Uuid>): Instruction -> bool {
    (x: Instruction) => x.id.Some? && x.id.value in ids
  }

  /** The predicate of deleteIngredients: the ingredient's id is listed. */
  function IngredientIdIn(ids: seq<Uuid>): Ingredient -> bool {
    (x: Ingredient) => x.id.Some? && x.id.value in ids
  }

  /** The key of the map updateInstructions builds. */
  function InstructionDtoId(d: InstructionDTO): Option<Uuid> {
    d.id
  }

  /** One step of updateIngredients' forEach: the payload item with this ingredient's id, if any, sets the description. */
  function PatchIngredient(m: map<Option<Uuid>, IngredientDTO>, x: Ingredient): Ingredient {
    if x.id in m then x.(description := m[x.id].description) else x
  }

  /** updateIngredients' forEach over the whole set, positions kept. */
  function PatchIngredients(s: seq<Ingredient>, m: map<Option<Uuid>, IngredientDTO>): (r: seq<Ingredient>)
    ensures |r| == |s|
    ensures forall k :: 0 <= k < |s| ==> r[k].id == s[k].id && r[k].recipeId == s[k].recipeId
  {
    seq(|s|, k requires 0 <= k < |s| => PatchIngredient(m, s[k]))
  }

  /** One step of updateInstructions' forEach: update with the payload item of this id, or with null. */
  function PatchInstruction(m: map<Option<Uuid>, InstructionDTO>, x: Instruction): Instruction {
    InstructionMapper.Patch(if x.id in m then Some(m[x.id]) else None, x)
  }

  /** updateInstructions' forEach over the whole set, positions kept. */
  function PatchInstructions(s: seq<Instruction>, m: map<Option<Uuid>, InstructionDTO>): (r: seq<Instruction>)
    ensures |r| == |s|
    ensures forall k :: 0 <= k < |s| ==> r[k].id == s[k].id && r[k].recipeId == s[k].recipeId
  {
    seq(|s|, k requires 0 <= k < |s| => PatchInstruction(m, s[k]))
  }

  /** updateIngredients' forEach: each ingredient whose id is a payload key takes that item's description, in place. */
  method ApplyIngredientPatches(children: seq<Ingredient>, m: map<Option<Uuid>, IngredientDTO>) returns (patched: seq<Ingredient>)
    ensures patched == PatchIngredients(children, m)
  {
    patched := children;
    var i := 0;
    while i < |patched|
      invariant 0 <= i <= |patched| == |children|
      invariant forall k :: 0 <= k < i ==> patched[k] == PatchIngredient(m, children[k])
      invariant forall k :: i <= k < |patched| ==> patched[k] == children[k]
    {
      if patched[i].id in m {
        var dto := m[patched[i].id];
        patched := patched[i := patched[i].(description := dto.description)];
      }
      i := i + 1;
    }
  }

  /** updateInstructions' forEach: the mapper updates each instruction with the payload item of its id, or with null. */
  method ApplyInstructionPatches(children: seq<Instruction>, m: map<Option<Uuid>, InstructionDTO>) returns (patched: seq<Instruction>)
    ensures patched == PatchInstructions(children, m)
  {
    patched := children;
    var i := 0;
    while i < |patched|
      invariant 0 <= i <= |patched| == |children|
      invariant forall k :: 0 <= k < i ==> patched[k] == PatchInstruction(m, children[k])
      invariant forall k :: i <= k < |patched| ==> patched[k] == children[k]
    {
      var dto := if patched[i].id in m then Some(m[patched[i].id]) else None;
      var cell := new InstructionMapper.InstructionRef(patched[i]);
      InstructionMapper.Update(dto, cell);
      patched := patched[i := cell.value];
      i := i + 1;
    }
  }

  /** Patching ingredients twice with one payload is patching them once. */
  lemma PatchIngredientsIdempotent(s: seq<Ingredient>, m: map<Option<Uuid>, IngredientDTO>)
    ensures PatchIngredients(PatchIngredients(s, m), m) == PatchIngredients(s, m)
  {
  }

  /** Patching instructions twice with one payload is patching them once. */
  lemma PatchInstructionsIdempotent(s: seq<Instruction>, m: map<Option<Uuid>, InstructionDTO>)
    ensures PatchInstructions(PatchInstructions(s, m), m) == PatchInstructions(s, m)
  {
    forall k | 0 <= k < |s| ensures PatchInstructions(PatchInstructions(s, m), m)[k] == PatchInstructions(s, m)[k] {
      var x := s[k];
      InstructionMapper.PatchIdempotent(if x.id in m then Some(m[x.id]) else None, x);
    }
  }

  /** Payload items whose id matches no ingredient change nothing. */
  lemma PatchIngredientsIgnoresUnknownIds(s: seq<Ingredient>, m: map<Option<Uuid>, IngredientDTO>, id: Option<Uuid>)
    requires forall k :: 0 <= k < |s| ==> s[k].id != id
    ensures PatchIngredients(s, m - {id}) == PatchIngredients(s, m)
  {
  }

  /**
   * The in-place patch does not re-sort: renaming the first of "Oil" and
   * "Salt" to "Zest" leaves the ingredients out of order.
   */
  lemma PatchIngredientsMayUnsort()
    ensures var s := [Ingredient(Some(1), Some(0), "Oil"), Ingredient(Some(2), Some(0), "Salt")];
            var m := map[Some(1) := IngredientDTO(Some(1), "Zest")];
            && TreeSet.Sorted(IngredientEntity.CompareTo, s)
            && !TreeSet.Sorted(IngredientEntity.CompareTo, PatchIngredients(s, m))
  {
    var s := [Ingredient(Some(1), Some(0), "Oil"), Ingredient(Some(2), Some(0), "Salt")];
    var m := map[Some(1) := IngredientDTO(Some(1), "Zest")];
    var r := PatchIngredients(s, m);
    assert r[0].description == "Zest" && r[1].description == "Salt";
    assert Compare("Oil", "Salt") < 0;
    assert Compare("Zest", "Salt") > 0;
  }

  /**
   * updateIngredients as the payload sees it: an ingredient whose id an item
   * carries takes that item's description and keeps its id and recipe id;
   * an ingredient no item names stays as it was.
   */
  lemma UpdatedIngredientsTakePayload(s: seq<Ingredient>, dtos: seq<IngredientDTO>)
    requires Streams.DistinctKeys(dtos, IngredientDto.Key)
    ensures var r := PatchIngredients(s, Streams.ToMap(dtos, IngredientDto.Key).value);
            && |r| == |s|
            && (forall k, j :: 0 <= k < |s| && 0 <= j < |dtos| && dtos[j].id == s[k].id ==>
                  r[k] == s[k].(description := dtos[j].description))
            && (forall k :: 0 <= k < |s| && (forall j :: 0 <= j < |dtos| ==> dtos[j].id != s[k].id) ==> r[k] == s[k])
  {
    var m := Streams.ToMap(dtos, IngredientDto.Key).value;
    forall k | 0 <= k < |s| && (forall j :: 0 <= j < |dtos| ==> dtos[j].id != s[k].id)
      ensures s[k].id !in m
    {
    }
  }

  /**
   * updateInstructions as the payload sees it: an instruction whose id an
   * item carries is patched with that item; an instruction no item names
   * stays as it was.
   */
  lemma UpdatedInstructionsTakePayload(s: seq<Instruction>, dtos: seq<InstructionDTO>)
    requires Streams.DistinctKeys(dtos, InstructionDtoId)
    ensures var r := PatchInstructions(s, Streams.ToMap(dtos, InstructionDtoId).value);
            && |r| == |s|
            && (forall k, j :: 0 <= k < |s| && 0 <= j < |dtos| && dtos[j].id == s[k].id ==>
                  r[k] == InstructionMapper.Patch(Some(dtos[j]), s[k]))
            && (forall k :: 0 <= k < |s| && (forall j :: 0 <= j < |dtos| ==> dtos[j].id != s[k].id) ==> r[k] == s[k])
  {
    var m := Streams.ToMap(dtos, InstructionDtoId).value;
    forall k | 0 <= k < |s| && (forall j :: 0 <= j < |dtos| ==> dtos[j].id != s[k].id)
      ensures s[k].id !in m
    {
    }
  }

  /**
   * A case variant of a stored ingredient is a new key for the sorted set but
   * the same description once written: with "5 tomatoes" stored, adding
   * "5 Tomatoes" cannot be saved.
   */
  lemma CaseVariantOfStoredIngredientRefused(s: RecipeState, first: nat)
    requires |s.ingredients| == 1 && s.ingredients[0].description == "5 tomatoes"
    ensures !FitsStorage(s.(ingredients := TreeSet.AddAll(IngredientEntity.CompareTo, s.ingredients,
                                           RecipeMapper.NewIngredients([IngredientDTO(None, "5 Tomatoes")], first))))
  {
    var x := s.ingredients[0];
    var ys := RecipeMapper.NewIngredients([IngredientDTO(None, "5 Tomatoes")], first);
    var y := ys[0];
    var r := TreeSet.AddAll(IngredientEntity.CompareTo, s.ingredients, ys);
    IngredientEntity.CompareToIsTotalOrder();
    TreeSet.AddAllOutcome(IngredientEntity.CompareTo, s.ingredients, ys);
    assert s.ingredients + ys[..0] == [x];
    assert IngredientEntity.CompareTo(x, y) != 0;
    NameConverter.NormalizeTomatoes();
    NameConverter.NormalizeKeepsTomatoes();
    ClashingIngredients(s.(ingredients := r), x, y);
  }

  /** Two different ingredients with the same stored description break the unique constraint. */
  lemma ClashingIngredients(s: RecipeState, x: Ingredient, y: Ingredient)
    requires x in s.ingredients && y in s.ingredients && x != y
    requires IngredientKey(x) == IngredientKey(y)
    ensures !FitsStorage(s)
  {
    var i :| 0 <= i < |s.ingredients| && s.ingredients[i] == x;
    var j :| 0 <= j < |s.ingredients| && s.ingredients[j] == y;
  }

  /** recipeMapper.toEntity followed by prePersist: a new entity holding the recipe with its name normalized. */
  method NewEntity(created: RecipeState) returns (entity: Recipe)
    ensures fresh(entity)
    ensures entity.State() == Saved(created)
  {
    entity := new Recipe.Build(created.name, created.category, created.servings,
      created.preparationTime, created.cookingTime);
    entity.id := created.id;
    entity.instructions := created.instructions;
    entity.ingredients := created.ingredients;
    entity.PrePersist();
  }

  /** The rows a table of entities holds. */
  function Rows(m: map<Uuid, Recipe>): map<Uuid, RecipeState>
    reads m.Values
  {
    map k | k in m :: m[k].State()
  }

  /** No entity object serves two rows. */
  ghost predicate Distinct(m: map<Uuid, Recipe>) {
    forall a, b :: a in m && b in m && a != b ==> m[a] != m[b]
  }

  /** Adding a fresh entity under a new key adds its row and keeps the entities distinct. */
  lemma InsertedRow(m: map<Uuid, Recipe>, id: Uuid, e: Recipe)
    requires Distinct(m) && id !in m && e !in m.Values
    ensures Rows(m[id := e]) == Rows(m)[id := e.State()]
    ensures Distinct(m[id := e])
  {
    var after := m[id := e];
    forall a, b | a in after && b in after && a != b ensures after[a] != after[b] {
      if a != id && b != id {
        assert after[a] == m[a] && after[b] == m[b];
      }
    }
  }

  /** Dropping a key drops its row and keeps the entities distinct. */
  lemma RemovedRow(m: map<Uuid, Recipe>, id: Uuid)
    requires Distinct(m)
    ensures Rows(m - {id}) == Rows(m) - {id}
    ensures Distinct(m - {id})
  {
    var after := m - {id};
    forall a, b | a in after && b in after && a != b ensures after[a] != after[b] {
      assert after[a] == m[a] && after[b] == m[b];
    }
  }

  /** The recipe service over its table. */
  class RecipeService {
    var store: map<Uuid, Recipe>
    var nextId: nat

    /** The table's rows. */
    function Contents(): map<Uuid, RecipeState>
      reads this`store, store.Values
    {
      Rows(store)
    }

    /** One entity object per row. */
    ghost predicate Injective()
      reads this`store
    {
      Distinct(store)
    }

    /** One entity object per row, and the table invariant. */
    ghost predicate Valid()
      reads this, store.Values
    {
      Injective() && StoreInvariant(Contents(), nextId)
    }

    constructor ()
      ensures Valid() && Contents() == map[]
    {
      store := map[];
      nextId := 0;
    }

    /** repository.save of a new entity: the row joins the table under `id` and the id counter moves to `next`. */
    method Insert(id: Uuid, entity: Recipe, next: nat)
      requires Injective() && id !in store && entity !in store.Values
      requires StoreInvariant(Contents()[id := entity.State()], next)
      modifies this
      ensures Valid()
      ensures Contents() == old(Contents())[id := entity.State()] && nextId == next
    {
      ghost var before := Contents();
      InsertedRow(store, id, entity);
      store := store[id := entity];
      nextId := next;
      assert Contents() == before[id := entity.State()];
    }

    /**
     * create: a name already present ignoring case is a RecipeViolation.
     * Otherwise the recipe is built under the next id with its name
     * normalized; building the instruction set throws when an item has no
     * step, and the save's cascading persist throws on a kept child that
     * came with an id. At commit the validator refuses the recipe when it breaks a field
     * constraint, and the database refuses it when a kept instruction has no
     * description or two children store one key. A recipe that passes is
     * stored as it reloads, and the response holds the recipe as built.
     */
    method Create(dto: CreateRecipeDTO) returns (r: Result<RecipeState>)
      requires Valid()
      modifies this
      ensures Valid()
      ensures RecipeRepository.ExistsByName(old(Contents()), Some(dto.name)) ==>
                r == Err(RecipeViolation(dto.name)) && Contents() == old(Contents()) && nextId == old(nextId)
      ensures !RecipeRepository.ExistsByName(old(Contents()), Some(dto.name)) && !RecipeMapper.StepItems(dto.instructions) ==>
                r == Err(Unexpected(NullPointerMessage)) && Contents() == old(Contents()) && nextId == old(nextId)
      ensures !RecipeRepository.ExistsByName(old(Contents()), Some(dto.name)) && RecipeMapper.StepItems(dto.instructions) ==>
              var saved := Saved(RecipeMapper.Created(dto, old(nextId)));
              if RecipeMapper.KeepsCarriedId(dto, old(nextId)) then
                r == Err(Unexpected(DetachedEntityMessage)) && Contents() == old(Contents()) && nextId == old(nextId)
              else if !FieldConstraints(saved) then
                r == Err(Unexpected(ConstraintViolationMessage)) && Contents() == old(Contents()) && nextId == old(nextId)
              else if RecipeMapper.KeepsMissingDescription(saved.instructions, dto.instructions, old(nextId) + 1)
                      || !FitsStorage(saved) then
                r == Err(Unexpected(IntegrityViolationMessage)) && Contents() == old(Contents()) && nextId == old(nextId)
              else
                && r == Ok(saved)
                && Contents() == old(Contents())[old(nextId) := Reloaded(saved)]
                && nextId == old(nextId) + 1 + |dto.instructions| + |dto.ingredients|
    {
      if RecipeRepository.ExistsByName(Contents(), Some(dto.name)) {
        return Err(RecipeViolation(dto.name));
      }
      if exists k :: 0 <= k < |dto.instructions| && dto.instructions[k].step.None? {
        return Err(Unexpected(NullPointerMessage));
      }
      var id: Uuid := nextId;
      var created := RecipeMapper.Created(dto, id);
      var saved := Saved(created);
      if RecipeMapper.KeepsCarriedId(dto, id) {
        return Err(Unexpected(DetachedEntityMessage));
      }
      if !FieldConstraints(saved) {
        return Err(Unexpected(ConstraintViolationMessage));
      }
      if RecipeMapper.KeepsMissingDescription(saved.instructions, dto.instructions, id + 1) || !FitsStorage(saved) {
        return Err(Unexpected(IntegrityViolationMessage));
      }
      var next := id + 1 + |dto.instructions| + |dto.ingredients|;
      CreatedIsWellFormed(Contents(), id, dto);
      InsertReloadedKeepsInvariant(Contents(), id, next, saved);
      Persist(created, next);
      r := Ok(saved);
    }

    /**
     * repository.save of a built recipe, through to commit: prePersist
     * normalizes the name, the row joins the table under the next id as it
     * reloads, and the id counter moves to `next`.
     */
    method Persist(created: RecipeState, next: nat)
      requires Injective() && nextId !in store
      requires StoreInvariant(Contents()[nextId := Reloaded(Saved(created))], next)
      modifies this
      ensures Valid()
      ensures Contents() == old(Contents())[old(nextId) := Reloaded(Saved(created))] && nextId == next
    {
      ghost var before := Contents();
      var id: Uuid := nextId;
      var entity := NewEntity(created);
      var loaded := Reloaded(entity.State());
      entity.instructions, entity.ingredients := loaded.instructions, loaded.ingredients;
      assert entity.State() == loaded;
      assert Contents() == before by {
        forall k | k in store ensures Contents()[k] == before[k] {
        }
      }
      Insert(id, entity, next);
    }

    /**
     * update: a name held by another recipe (ignoring case) is a
     * RecipeViolation, checked before the id is looked up; a missing id is a
     * RecipeNotFound; otherwise the payload's non-null fields are copied in.
     * preUpdate normalizes the name only at the commit flush, so the table
     * keeps the normalized name while the response carries the name as
     * sent; at commit the validator refuses a result that breaks a field
     * constraint.
     */
    method Update(id: Uuid, dto: UpdateRecipeDTO) returns (r: Result<RecipeState>)
      requires Valid()
      modifies store.Values
      ensures Valid()
      ensures RecipeRepository.ExistsByNameWithDifferentId(old(Contents()), dto.name, id) ==>
                dto.name.Some? && r == Err(RecipeViolation(dto.name.value)) && Contents() == old(Contents())
      ensures !RecipeRepository.ExistsByNameWithDifferentId(old(Contents()), dto.name, id) && id !in old(Contents()) ==>
                r == Err(RecipeNotFound(id)) && Contents() == old(Contents())
      ensures !RecipeRepository.ExistsByNameWithDifferentId(old(Contents()), dto.name, id) && id in old(Contents()) ==>
                var u := RecipeMapper.ApplyUpdate(old(Contents())[id], dto);
                if FieldConstraints(Saved(u)) then
                  r == Ok(u) && Contents() == old(Contents())[id := Saved(u)]
                else
                  r == Err(Unexpected(ConstraintViolationMessage)) && Contents() == old(Contents())
    {
      if RecipeRepository.ExistsByNameWithDifferentId(Contents(), dto.name, id) {
        return Err(RecipeViolation(dto.name.value));
      }
      if id !in store {
        return Err(RecipeNotFound(id));
      }
      ghost var before := Contents();
      var outcome := Saved(RecipeMapper.ApplyUpdate(store[id].State(), dto));
      if !FieldConstraints(outcome) {
        return Err(Unexpected(ConstraintViolationMessage));
      }
      UpdatedKeepsInvariant(before, nextId, id, dto);
      var s := UpdateInPlace(id, dto);
      r := Ok(s);
    }

    /**
     * updateRecipe on the stored entity itself, then preUpdate at the commit
     * flush: `s` is the entity as the mapper leaves it, which the response
     * maps, and the table keeps it with its name normalized. Nothing else
     * changes.
     */
    method UpdateInPlace(id: Uuid, dto: UpdateRecipeDTO) returns (s: RecipeState)
      requires Injective() && id in store
      modifies store[id]
      ensures Injective()
      ensures s == RecipeMapper.ApplyUpdate(old(Contents())[id], dto)
      ensures Contents() == old(Contents())[id := Saved(s)]
    {
      ghost var before := Contents();
      var recipe := store[id];
      var updated := RecipeMapper.UpdateRecipe(recipe, dto);
      s := updated.State();
      updated.PrePersist();
      assert Contents() == before[id := Saved(s)] by {
        ghost var after := Contents();
        assert after.Keys == before.Keys;
        forall k | k in after ensures after[k] == before[id := Saved(s)][k] {
          if k != id {
            assert store[k] != recipe;
          }
        }
      }
    }

    /** findById: the stored recipe, or RecipeNotFound. */
    method FindById(id: Uuid) returns (r: Result<RecipeState>)
      ensures id in Contents() ==> r == Ok(Contents()[id])
      ensures id !in Contents() ==> r == Err(RecipeNotFound(id))
    {
      if id !in store {
        return Err(RecipeNotFound(id));
      }
      r := Ok(store[id].State());
    }

    /** findAll: the stored recipes the built specification accepts (one page holding all of them). */
    method FindAll(spec: seq<RecipeSpecificationBuilder.Clause>) returns (r: map<Uuid, RecipeState>)
      ensures forall k :: k in r <==> k in Contents() && RecipeSpecificationBuilder.Matches(spec, Contents()[k])
      ensures forall k :: k in r ==> r[k] == Contents()[k]
    {
      r := map k | k in store && RecipeSpecificationBuilder.Matches(spec, store[k].State()) :: store[k].State();
    }

    /** delete: a missing id is an InvalidRequest naming it; otherwise the recipe and its children go. */
    method Delete(id: Uuid) returns (r: Result<()>)
      requires Valid()
      modifies this
      ensures Valid() && nextId == old(nextId)
      ensures id !in old(Contents()) ==>
                r == Err(InvalidRequest("Cannot remove recipe with id: " + NatToText(id))) && Contents() == old(Contents())
      ensures id in old(Contents()) ==> r == Ok(()) && Contents() == old(Contents()) - {id}
    {
      if id !in store {
        return Err(InvalidRequest("Cannot remove recipe with id: " + NatToText(id)));
      }
      RemoveKeepsInvariant(Contents(), nextId, id);
      Drop(id);
      r := Ok(());
    }

    /** repository.delete: the row leaves the table, its children with it. */
    method Drop(id: Uuid)
      requires Injective() && StoreInvariant(Contents() - {id}, nextId)
      modifies this`store
      ensures Valid()
      ensures Contents() == old(Contents()) - {id}
    {
      ghost var before := Contents();
      RemovedRow(store, id);
      store := store - {id};
      assert Contents() == before - {id};
    }

    /**
     * deleteInstructions: a missing recipe is a RecipeNotFound; otherwise the
     * listed instructions are removed, and at commit the validator refuses a
     * recipe left without instructions.
     */
    method DeleteInstructions(id: Uuid, ids: seq<Uuid>) returns (r: Result<()>)
      requires Valid()
      modifies store.Values
      ensures Valid()
      ensures id !in old(Contents()) ==> r == Err(RecipeNotFound(id)) && Contents() == old(Contents())
      ensures id in old(Contents()) ==>
                var s := old(Contents())[id];
                var removed := s.(instructions := TreeSet.RemoveIf(s.instructions, InstructionIdIn(ids)));
                if FieldConstraints(removed) then
                  r == Ok(()) && Contents() == old(Contents())[id := removed]
                else
                  r == Err(Unexpected(ConstraintViolationMessage)) && Contents() == old(Contents())
    {
      if id !in store {
        return Err(RecipeNotFound(id));
      }
      ghost var before := Contents();
      var recipe := store[id];
      assert recipe.State() == before[id];
      var s := recipe.State().(instructions := TreeSet.RemoveIf(recipe.instructions, InstructionIdIn(ids)));
      if !FieldConstraints(s) {
        return Err(Unexpected(ConstraintViolationMessage));
      }
      RemovedChildrenKeepInvariant(before, nextId, id, InstructionIdIn(ids), IngredientIdIn(ids));
      Commit(id, s);
      r := Ok(());
    }

    /**
     * deleteIngredients: a missing recipe is a RecipeNotFound; otherwise the
     * listed ingredients are removed, and at commit the validator refuses a
     * recipe left without ingredients.
     */
    method DeleteIngredients(id: Uuid, ids: seq<Uuid>) returns (r: Result<()>)
      requires Valid()
      modifies store.Values
      ensures Valid()
      ensures id !in old(Contents()) ==> r == Err(RecipeNotFound(id)) && Contents() == old(Contents())
      ensures id in old(Contents()) ==>
                var s := old(Contents())[id];
                var removed := s.(ingredients := TreeSet.RemoveIf(s.ingredients, IngredientIdIn(ids)));
                if FieldConstraints(removed) then
                  r == Ok(()) && Contents() == old(Contents())[id := removed]
                else
                  r == Err(Unexpected(ConstraintViolationMessage)) && Contents() == old(Contents())
    {
      if id !in store {
        return Err(RecipeNotFound(id));
      }
      ghost var before := Contents();
      var recipe := store[id];
      assert recipe.State() == before[id];
      var s := recipe.State().(ingredients := TreeSet.RemoveIf(recipe.ingredients, IngredientIdIn(ids)));
      if !FieldConstraints(s) {
        return Err(Unexpected(ConstraintViolationMessage));
      }
      RemovedChildrenKeepInvariant(before, nextId, id, InstructionIdIn(ids), IngredientIdIn(ids));
      Commit(id, s);
      r := Ok(());
    }

    /**
     * updateIngredients: a missing recipe is a RecipeNotFound; two payload
     * items with one id (two without an id included) make the map collector
     * throw; otherwise each ingredient whose id is a key takes that item's
     * description, and a save the unique constraint refuses throws.
     */
    method UpdateIngredients(id: Uuid, dtos: seq<IngredientDTO>) returns (r: Result<RecipeState>)
      requires Valid()
      modifies store.Values
      ensures Valid()
      ensures id !in old(Contents()) ==> r == Err(RecipeNotFound(id)) && Contents() == old(Contents())
      ensures id in old(Contents()) && !Streams.DistinctKeys(dtos, IngredientDto.Key) ==>
                r == Err(Unexpected(DuplicateKeyMessage)) && Contents() == old(Contents())
      ensures id in old(Contents()) && Streams.DistinctKeys(dtos, IngredientDto.Key) ==>
                var s := old(Contents())[id];
                var patched := s.(ingredients := PatchIngredients(s.ingredients, Streams.ToMap(dtos, IngredientDto.Key).value));
                if FitsStorage(patched) then
                  r == Ok(patched) && Contents() == old(Contents())[id := Reloaded(patched)]
                else
                  r == Err(Unexpected(IntegrityViolationMessage)) && Contents() == old(Contents())
    {
      if id !in store {
        return Err(RecipeNotFound(id));
      }
      var collect := Streams.ToMap(dtos, IngredientDto.Key);
      if collect.None? {
        return Err(Unexpected(DuplicateKeyMessage));
      }
      r := PatchIngredientsOf(id, collect.value);
    }

    /** The forEach and save of updateIngredients once the payload map is built: the patched recipe, or the unique constraints' refusal. */
    method PatchIngredientsOf(id: Uuid, m: map<Option<Uuid>, IngredientDTO>) returns (r: Result<RecipeState>)
      requires Valid() && id in store
      modifies store[id]
      ensures Valid()
      ensures var s := old(Contents())[id];
              var patched := s.(ingredients := PatchIngredients(s.ingredients, m));
              if FitsStorage(patched) then
                r == Ok(patched) && Contents() == old(Contents())[id := Reloaded(patched)]
              else
                r == Err(Unexpected(IntegrityViolationMessage)) && Contents() == old(Contents())
    {
      ghost var before := Contents();
      var recipe := store[id];
      assert recipe.State() == before[id];
      var children := ApplyIngredientPatches(recipe.ingredients, m);
      var s := recipe.State().(ingredients := children);
      assert s == before[id].(ingredients := PatchIngredients(before[id].ingredients, m));
      PatchedIngredientsWellFormed(before, nextId, id, m);
      r := SaveChildren(id, s);
    }

    /**
     * updateInstructions: a missing recipe is a RecipeNotFound; repeated
     * payload ids make the map collector throw; otherwise every instruction
     * goes through the mapper's update with the item of its id (null when
     * there is none), and a save the unique constraints refuse throws.
     */
    method UpdateInstructions(id: Uuid, dtos: seq<InstructionDTO>) returns (r: Result<RecipeState>)
      requires Valid()
      modifies store.Values
      ensures Valid()
      ensures id !in old(Contents()) ==> r == Err(RecipeNotFound(id)) && Contents() == old(Contents())
      ensures id in old(Contents()) && !Streams.DistinctKeys(dtos, InstructionDtoId) ==>
                r == Err(Unexpected(DuplicateKeyMessage)) && Contents() == old(Contents())
      ensures id in old(Contents()) && Streams.DistinctKeys(dtos, InstructionDtoId) ==>
                var s := old(Contents())[id];
                var patched := s.(instructions := PatchInstructions(s.instructions, Streams.ToMap(dtos, InstructionDtoId).value));
                if FitsStorage(patched) then
                  r == Ok(patched) && Contents() == old(Contents())[id := Reloaded(patched)]
                else
                  r == Err(Unexpected(IntegrityViolationMessage)) && Contents() == old(Contents())
    {
      if id !in store {
        return Err(RecipeNotFound(id));
      }
      var collect := Streams.ToMap(dtos, InstructionDtoId);
      if collect.None? {
        return Err(Unexpected(DuplicateKeyMessage));
      }
      r := PatchInstructionsOf(id, collect.value);
    }

    /** The forEach and save of updateInstructions once the payload map is built: the patched recipe, or the unique constraints' refusal. */
    method PatchInstructionsOf(id: Uuid, m: map<Option<Uuid>, InstructionDTO>) returns (r: Result<RecipeState>)
      requires Valid() && id in store
      modifies store[id]
      ensures Valid()
      ensures var s := old(Contents())[id];
              var patched := s.(instructions := PatchInstructions(s.instructions, m));
              if FitsStorage(patched) then
                r == Ok(patched) && Contents() == old(Contents())[id := Reloaded(patched)]
              else
                r == Err(Unexpected(IntegrityViolationMessage)) && Contents() == old(Contents())
    {
      ghost var before := Contents();
      var recipe := store[id];
      assert recipe.State() == before[id];
      var children := ApplyInstructionPatches(recipe.instructions, m);
      var s := recipe.State().(instructions := children);
      assert s == before[id].(instructions := PatchInstructions(before[id].instructions, m));
      PatchedInstructionsWellFormed(before, nextId, id, m);
      r := SaveChildren(id, s);
    }

    /**
     * addIngredients: a missing recipe is a RecipeNotFound; an item carrying
     * an id is an InvalidCreationRequest; otherwise the new ingredients go
     * through the sorted set's addAll, and a save the unique constraint
     * refuses throws.
     */
    method AddIngredients(id: Uuid, dtos: seq<IngredientDTO>) returns (r: Result<RecipeState>)
      requires Valid()
      modifies this, store.Values
      ensures Valid()
      ensures id !in old(Contents()) ==>
                r == Err(RecipeNotFound(id)) && Contents() == old(Contents()) && nextId == old(nextId)
      ensures id in old(Contents()) && !RecipeMapper.NewIngredientItems(dtos) ==>
                && r == Err(InvalidCreationRequest("Cannot pass Ids when adding ingredients"))
                && Contents() == old(Contents()) && nextId == old(nextId)
      ensures id in old(Contents()) && RecipeMapper.NewIngredientItems(dtos) ==>
                var s := old(Contents())[id];
                var added := s.(ingredients := TreeSet.AddAll(IngredientEntity.CompareTo, s.ingredients,
                                                RecipeMapper.NewIngredients(dtos, old(nextId))));
                if FitsStorage(added) then
                  r == Ok(added) && Contents() == old(Contents())[id := Reloaded(added)] && nextId == old(nextId) + |dtos|
                else
                  r == Err(Unexpected(IntegrityViolationMessage)) && Contents() == old(Contents()) && nextId == old(nextId)
      ensures r.Ok? ==> IngredientsSorted(r.value)
    {
      if id !in store {
        return Err(RecipeNotFound(id));
      }
      if exists k :: 0 <= k < |dtos| && dtos[k].id.Some? {
        return Err(InvalidCreationRequest("Cannot pass Ids when adding ingredients"));
      }
      r := AppendIngredients(id, dtos);
    }

    /** The save addAll leads to once the checks pass: the new ingredients under fresh ids, or the unique constraint's refusal. */
    method AppendIngredients(id: Uuid, dtos: seq<IngredientDTO>) returns (r: Result<RecipeState>)
      requires Valid()
      requires id in store && RecipeMapper.NewIngredientItems(dtos)
      modifies this`nextId, store[id]
      ensures Valid()
      ensures var s := old(Contents())[id];
              var added := s.(ingredients := TreeSet.AddAll(IngredientEntity.CompareTo, s.ingredients,
                                              RecipeMapper.NewIngredients(dtos, old(nextId))));
              if FitsStorage(added) then
                r == Ok(added) && Contents() == old(Contents())[id := Reloaded(added)] && nextId == old(nextId) + |dtos|
              else
                r == Err(Unexpected(IntegrityViolationMessage)) && Contents() == old(Contents()) && nextId == old(nextId)
      ensures r.Ok? ==> IngredientsSorted(r.value)
    {
      ghost var before := Contents();
      var recipe := store[id];
      var first := nextId;
      var created := RecipeMapper.NewIngredients(dtos, first);
      assert recipe.State() == before[id];
      var s := recipe.State().(ingredients := TreeSet.AddAll(IngredientEntity.CompareTo, recipe.ingredients, created));
      assert s == before[id].(ingredients := TreeSet.AddAll(IngredientEntity.CompareTo, before[id].ingredients, created));
      if !FitsStorage(s) {
        return Err(Unexpected(IntegrityViolationMessage));
      }
      var next := first + |dtos|;
      AddedIngredientsWellFormed(before, first, id, dtos);
      ReplaceReloadedKeepsInvariant(before, first, next, id, s);
      Save(id, Reloaded(s), next);
      assert Entry(id, before[id], first);
      RecipeMapper.AddedIngredientsPresent(before[id].ingredients, dtos, first);
      r := Ok(s);
    }

    /**
     * addInstructions: a missing recipe is a RecipeNotFound; an item carrying
     * an id is an InvalidCreationRequest; otherwise the new instructions go
     * through the sorted set's addAll, which throws on an item without a
     * step, and a save the database refuses throws.
     */
    method AddInstructions(id: Uuid, dtos: seq<InstructionDTO>) returns (r: Result<RecipeState>)
      requires Valid()
      modifies this, store.Values
      ensures Valid()
      ensures id !in old(Contents()) ==>
                r == Err(RecipeNotFound(id)) && Contents() == old(Contents()) && nextId == old(nextId)
      ensures id in old(Contents()) && !RecipeMapper.NewInstructionItems(dtos) ==>
                && r == Err(InvalidCreationRequest("Cannot pass Ids when adding instructions"))
                && Contents() == old(Contents()) && nextId == old(nextId)
      ensures id in old(Contents()) && RecipeMapper.NewInstructionItems(dtos) && !RecipeMapper.StepItems(dtos) ==>
                r == Err(Unexpected(NullPointerMessage)) && Contents() == old(Contents()) && nextId == old(nextId)
      ensures id in old(Contents()) && RecipeMapper.NewInstructionItems(dtos) && RecipeMapper.StepItems(dtos) ==>
                var s := old(Contents())[id];
                var added := s.(instructions := TreeSet.AddAll(InstructionEntity.CompareTo, s.instructions,
                                                RecipeMapper.NewInstructions(dtos, old(nextId))));
                if FitsStorage(added) && !RecipeMapper.KeepsMissingDescription(added.instructions, dtos, old(nextId)) then
                  r == Ok(added) && Contents() == old(Contents())[id := Reloaded(added)] && nextId == old(nextId) + |dtos|
                else
                  r == Err(Unexpected(IntegrityViolationMessage)) && Contents() == old(Contents()) && nextId == old(nextId)
      ensures r.Ok? ==> InstructionsSorted(r.value)
    {
      if id !in store {
        return Err(RecipeNotFound(id));
      }
      if exists k :: 0 <= k < |dtos| && dtos[k].id.Some? {
        return Err(InvalidCreationRequest("Cannot pass Ids when adding instructions"));
      }
      r := AppendInstructions(id, dtos);
    }

    /**
     * The addAll and save once the id checks pass: an item without a step
     * makes addAll throw; otherwise the new instructions join under fresh
     * ids, unless the database refuses a kept one without a description or
     * a clash on a unique constraint.
     */
    method AppendInstructions(id: Uuid, dtos: seq<InstructionDTO>) returns (r: Result<RecipeState>)
      requires Valid()
      requires id in store && RecipeMapper.NewInstructionItems(dtos)
      modifies this`nextId, store[id]
      ensures Valid()
      ensures !RecipeMapper.StepItems(dtos) ==>
                r == Err(Unexpected(NullPointerMessage)) && Contents() == old(Contents()) && nextId == old(nextId)
      ensures RecipeMapper.StepItems(dtos) ==>
              var s := old(Contents())[id];
              var added := s.(instructions := TreeSet.AddAll(InstructionEntity.CompareTo, s.instructions,
                                              RecipeMapper.NewInstructions(dtos, old(nextId))));
              if FitsStorage(added) && !RecipeMapper.KeepsMissingDescription(added.instructions, dtos, old(nextId)) then
                r == Ok(added) && Contents() == old(Contents())[id := Reloaded(added)] && nextId == old(nextId) + |dtos|
              else
                r == Err(Unexpected(IntegrityViolationMessage)) && Contents() == old(Contents()) && nextId == old(nextId)
      ensures r.Ok? ==> InstructionsSorted(r.value)
    {
      if exists k :: 0 <= k < |dtos| && dtos[k].step.None? {
        return Err(Unexpected(NullPointerMessage));
      }
      ghost var before := Contents();
      var recipe := store[id];
      var first := nextId;
      var created := RecipeMapper.NewInstructions(dtos, first);
      assert recipe.State() == before[id];
      var s := recipe.State().(instructions := TreeSet.AddAll(InstructionEntity.CompareTo, recipe.instructions, created));
      assert s == before[id].(instructions := TreeSet.AddAll(InstructionEntity.CompareTo, before[id].instructions, created));
      if !FitsStorage(s) || RecipeMapper.KeepsMissingDescription(s.instructions, dtos, first) {
        return Err(Unexpected(IntegrityViolationMessage));
      }
      var next := first + |dtos|;
      AddedInstructionsWellFormed(before, first, id, dtos);
      ReplaceReloadedKeepsInvariant(before, first, next, id, s);
      Save(id, Reloaded(s), next);
      assert Entry(id, before[id], first);
      RecipeMapper.AddedInstructionsPresent(before[id].instructions, dtos, first);
      r := Ok(s);
    }

    /** The save of a recipe whose children changed in place, through to commit: the unique constraints refuse it, or it is stored as it reloads. */
    method SaveChildren(id: Uuid, s: RecipeState) returns (r: Result<RecipeState>)
      requires Valid() && id in store
      requires s.id == Contents()[id].id && s.name == Contents()[id].name
      requires ChildIdsBelow(s, nextId) && FieldConstraints(s)
      modifies store[id]
      ensures Valid()
      ensures if FitsStorage(s) then r == Ok(s) && Contents() == old(Contents())[id := Reloaded(s)]
              else r == Err(Unexpected(IntegrityViolationMessage)) && Contents() == old(Contents())
    {
      if !FitsStorage(s) {
        return Err(Unexpected(IntegrityViolationMessage));
      }
      ReplaceReloadedKeepsInvariant(Contents(), nextId, nextId, id, s);
      Commit(id, Reloaded(s));
      r := Ok(s);
    }

    /** The save of a recipe that gained children: the entity takes the new state and the id counter moves past the new ids. */
    method Save(id: Uuid, s: RecipeState, next: nat)
      requires Injective() && id in store
      requires StoreInvariant(Contents()[id := s], next)
      modifies this`nextId, store[id]
      ensures Valid()
      ensures Contents() == old(Contents())[id := s] && nextId == next
    {
      ghost var before := Contents();
      nextId := next;
      assert Contents() == before by {
        forall k | k in store ensures Contents()[k] == before[k] {
        }
      }
      Commit(id, s);
    }

    /** The save of a changed recipe, through to commit: the table keeps its invariant with the new row. */
    method Commit(id: Uuid, s: RecipeState)
      requires Injective() && id in store
      requires StoreInvariant(Contents()[id := s], nextId)
      modifies store[id]
      ensures Valid()
      ensures Contents() == old(Contents())[id := s]
    {
      Assign(id, s);
    }

    /** The changed recipe's entity takes the new state, field by field; no other row changes. */
    method Assign(id: Uuid, s: RecipeState)
      requires Injective() && id in store
      modifies store[id]
      ensures Injective()
      ensures Contents() == old(Contents())[id := s]
    {
      ghost var before := Contents();
      var recipe := store[id];
      recipe.id, recipe.name, recipe.category := s.id, s.name, s.category;
      recipe.servings, recipe.preparationTime, recipe.cookingTime := s.servings, s.preparationTime, s.cookingTime;
      recipe.instructions, recipe.ingredients := s.instructions, s.ingredients;
      assert recipe.State() == s;
      assert Contents() == before[id := s] by {
        ghost var after := Contents();
        assert after.Keys == before.Keys;
        forall k | k in after ensures after[k] == before[id := s][k] {
          if k != id {
            assert store[k] != recipe;
          }
        }
      }
    }
  }
}

=== FILE: spec_builder.dfy ===
/**
 * RecipeSpecificationBuilder: the search filter, built one clause at a time
 * and read as a predicate over a recipe. Present clauses are combined with
 * AND (the starting filter matches everything); absent, non-positive or
 * empty inputs add nothing. Every substring clause joins the child table
 * anew, so each substring is tested against a row of its own choosing.
 */
module RecipeSpecificationBuilder {
  import opened Wrappers
  import opened Text
  import opened AbstractEntity
  import opened Category
  import opened IngredientEntity
  import opened InstructionEntity
  import opened RecipeEntity
  import RecipeMapper
  import NameConverter

  datatype Clause =
    | IdEquals(id: Uuid)
    | ServingsEquals(servings: int)
    | IngredientsExclude(values: seq<string>)
    | IngredientsInclude(values: seq<string>)
    | InstructionsInclude(values: seq<string>)
    | CategoryEquals(category: CategoryDTO)

  /** One joined row against one substring: LOWER(description) LIKE '%' || lowerCase(value) || '%', negated for notLike. */
  predicate RowTest(description: string, value: string, notLike: bool) {
    Contains(LowerCase(description), LowerCase(value)) != notLike
  }

  /** ingredientPredicate: an inner join on the ingredients, so some ingredient row passes the row test. */
  predicate IngredientPredicate(r: RecipeState, value: string, notLike: bool) {
    exists k :: 0 <= k < |r.ingredients| && RowTest(r.ingredients[k].description, value, notLike)
  }

  /** instructionsPredicate: an inner join on the instructions, so some instruction row contains the substring. */
  predicate InstructionsPredicate(r: RecipeState, value: string) {
    exists k :: 0 <= k < |r.instructions| && RowTest(r.instructions[k].description, value, false)
  }

  /** What each clause demands of a recipe. */
  predicate Holds(c: Clause, r: RecipeState) {
    match c
    case IdEquals(id) => r.id == Some(id)
    case ServingsEquals(n) => r.servings == n
    case IngredientsExclude(vs) => forall i :: 0 <= i < |vs| ==> IngredientPredicate(r, vs[i], true)
    case IngredientsInclude(vs) => forall i :: 0 <= i < |vs| ==> IngredientPredicate(r, vs[i], false)
    case InstructionsInclude(vs) => forall i :: 0 <= i < |vs| ==> InstructionsPredicate(r, vs[i])
    case CategoryEquals(cat) => ValueOf(DtoName(cat)) == Some(r.category)
  }

  /** The built filter: every clause holds. */
  predicate Matches(clauses: seq<Clause>, r: RecipeState) {
    forall i :: 0 <= i < |clauses| ==> Holds(clauses[i], r)
  }

  /** cb.and over a list of predicates. */
  predicate AllHold(ps: seq<bool>) {
    forall k :: 0 <= k < |ps| ==> ps[k]
  }

  /** ingredientsExcludes: one negated ingredient test per substring, combined with AND. */
  method IngredientsExcludes(values: seq<string>, r: RecipeState) returns (holds: bool)
    ensures holds <==> Holds(IngredientsExclude(values), r)
  {
    var predicates: seq<bool> := [];
    for i := 0 to |values|
      invariant |predicates| == i
      invariant forall k :: 0 <= k < i ==> predicates[k] == IngredientPredicate(r, values[k], true)
    {
      predicates := predicates + [IngredientPredicate(r, values[i], true)];
    }
    holds := AllHold(predicates);
  }

  /** ingredientsIncludes: one ingredient test per substring, combined with AND. */
  method IngredientsIncludes(values: seq<string>, r: RecipeState) returns (holds: bool)
    ensures holds <==> Holds(IngredientsInclude(values), r)
  {
    var predicates: seq<bool> := [];
    for i := 0 to |values|
      invariant |predicates| == i
      invariant forall k :: 0 <= k < i ==> predicates[k] == IngredientPredicate(r, values[k], false)
    {
      predicates := predicates + [IngredientPredicate(r, values[i], false)];
    }
    holds := AllHold(predicates);
  }

  /** instructionsIncludes: one instruction test per substring, combined with AND. */
  method InstructionsIncludes(values: seq<string>, r: RecipeState) returns (holds: bool)
    ensures holds <==> Holds(InstructionsInclude(values), r)
  {
    var predicates: seq<bool> := [];
    for i := 0 to |values|
      invariant |predicates| == i
      invariant forall k :: 0 <= k < i ==> predicates[k] == InstructionsPredicate(r, values[k])
    {
      predicates := predicates + [InstructionsPredicate(r, values[i])];
    }
    holds := AllHold(predicates);
  }

  /** The builder: its `root` filter as the list of clauses ANDed so far. */
  class Builder {
    var clauses: seq<Clause>

    constructor ()
      ensures clauses == []
    {
      clauses := [];
    }

    /** The built specification, applied to a recipe. */
    predicate Accepts(r: RecipeState)
      reads this
    {
      Matches(clauses, r)
    }

    /** withRecipeId: a null id adds nothing. */
    method WithRecipeId(id: Option<Uuid>) returns (b: Builder)
      modifies this
      ensures b == this
      ensures clauses == old(clauses) + (if id.Some? then [IdEquals(id.value)] else [])
    {
      if id.Some? {
        clauses := clauses + [IdEquals(id.value)];
      }
      b := this;
    }

    /** withServings: a null or non-positive count adds nothing. */
    method WithServings(servings: Option<int>) returns (b: Builder)
      modifies this
      ensures b == this
      ensures clauses == old(clauses) + (if servings.Some? && servings.value > 0 then [ServingsEquals(servings.value)] else [])
    {
      if servings.Some? && servings.value > 0 {
        clauses := clauses + [ServingsEquals(servings.value)];
      }
      b := this;
    }

    /** withExcludedIngredients: a null or empty list adds nothing. */
    method WithExcludedIngredients(values: Option<seq<string>>) returns (b: Builder)
      modifies this
      ensures b == this
      ensures clauses == old(clauses) + (if values.Some? && values.value != [] then [IngredientsExclude(values.value)] else [])
    {
      if values.Some? && values.value != [] {
        clauses := clauses + [IngredientsExclude(values.value)];
      }
      b := this;
    }

    /** withIncludedIngredients: a null or empty list adds nothing. */
    method WithIncludedIngredients(values: Option<seq<string>>) returns (b: Builder)
      modifies this
      ensures b == this
      ensures clauses == old(clauses) + (if values.Some? && values.value != [] then [IngredientsInclude(values.value)] else [])
    {
      if values.Some? && values.value != [] {
        clauses := clauses + [IngredientsInclude(values.value)];
      }
      b := this;
    }

    /** withInstructions: a null or empty list adds nothing. */
    method WithInstructions(values: Option<seq<string>>) returns (b: Builder)
      modifies this
      ensures b == this
      ensures clauses == old(clauses) + (if values.Some? && values.value != [] then [InstructionsInclude(values.value)] else [])
    {
      if values.Some? && values.value != [] {
        clauses := clauses + [InstructionsInclude(values.value)];
      }
      b := this;
    }

    /** withCategory: a null category adds nothing. */
    method WithCategory(category: Option<CategoryDTO>) returns (b: Builder)
      modifies this
      ensures b == this
      ensures clauses == old(clauses) + (if category.Some? then [CategoryEquals(category.value)] else [])
    {
      if category.Some? {
        clauses := clauses + [CategoryEquals(category.value)];
      }
      b := this;
    }
  }

  /** With no clause the filter matches every recipe. */
  lemma EmptyFilterMatchesAll(r: RecipeState)
    ensures Matches([], r)
  {
  }

  /** Adding clauses ANDs them onto what is there. */
  lemma MatchesConcat(a: seq<Clause>, b: seq<Clause>, r: RecipeState)
    ensures Matches(a + b, r) <==> Matches(a, r) && Matches(b, r)
  {
    if Matches(a, r) && Matches(b, r) {
      forall i | 0 <= i < |a + b| ensures Holds((a + b)[i], r) {
        if i >= |a| {
          assert (a + b)[i] == b[i - |a|];
        }
      }
    }
    if Matches(a + b, r) {
      forall i | 0 <= i < |a| ensures Holds(a[i], r) {
        assert (a + b)[i] == a[i];
      }
      forall j | 0 <= j < |b| ensures Holds(b[j], r) {
        assert (a + b)[|a| + j] == b[j];
      }
    }
  }

  /** The id clause admits exactly the recipe with that id. */
  lemma IdClauseSelectsRecipe(id: Uuid, r: RecipeState)
    ensures Matches([IdEquals(id)], r) <==> r.id == Some(id)
  {
    if Matches([IdEquals(id)], r) {
      assert Holds([IdEquals(id)][0], r);
    }
  }

  /** The category clause admits exactly the recipes of the domain category with the same name. */
  lemma CategoryClauseMatchesMappedCategory(c: CategoryDTO, r: RecipeState)
    ensures Holds(CategoryEquals(c), r) <==> Some(r.category) == RecipeMapper.ToCategoryType(Some(c))
  {
    RecipeMapper.ToCategoryTypeIsValueOfName(c);
  }

  /** Lower-casing undoes the write conversion's capital: the row tests see the same text before and after storage. */
  lemma LowerCaseIgnoresConversion(d: string)
    ensures LowerCase(NameConverter.Normalize(d)) == LowerCase(d)
  {
    var n := NameConverter.Normalize(d);
    forall i | 0 <= i < |d| ensures LowerCase(n)[i] == LowerCase(d)[i] {
      if i == 0 {
        assert n[0] == ToUpper(ToLower(d[0]));
      }
    }
  }

  /** The row test gives the same answer on the stored (converted) description as on the raw one. */
  lemma RowTestIgnoresConversion(d: string, value: string, notLike: bool)
    ensures RowTest(NameConverter.Normalize(d), value, notLike) == RowTest(d, value, notLike)
  {
    LowerCaseIgnoresConversion(d);
  }

  /** Upper-casing a substring does not change what it finds: "VINEGAR" finds what "vinegar" finds. */
  lemma LowerCaseIgnoresUpperCase(v: string)
    ensures LowerCase(UpperCase(v)) == LowerCase(v)
  {
    forall i | 0 <= i < |v| ensures LowerCase(UpperCase(v))[i] == LowerCase(v)[i] {
      assert UpperCase(v)[i] == ToUpper(v[i]);
    }
  }

  /** The substring clauses ignore the case of the substring. */
  lemma ClausesIgnoreCase(r: RecipeState, v: string, notLike: bool)
    ensures IngredientPredicate(r, UpperCase(v), notLike) == IngredientPredicate(r, v, notLike)
    ensures InstructionsPredicate(r, UpperCase(v)) == InstructionsPredicate(r, v)
  {
    LowerCaseIgnoresUpperCase(v);
  }

  /**
   * With a single ingredient the per-row exclusion is the intended one: the
   * recipe passes exactly when its ingredient contains none of the substrings.
   */
  lemma ExcludeSingleIngredient(vs: seq<string>, r: RecipeState)
    requires |r.ingredients| == 1
    ensures Holds(IngredientsExclude(vs), r) <==>
            forall i :: 0 <= i < |vs| ==> !Contains(LowerCase(r.ingredients[0].description), LowerCase(vs[i]))
  {
    if Holds(IngredientsExclude(vs), r) {
      forall i | 0 <= i < |vs| ensures !Contains(LowerCase(r.ingredients[0].description), LowerCase(vs[i])) {
        assert IngredientPredicate(r, vs[i], true);
      }
    }
    if forall i :: 0 <= i < |vs| ==> !Contains(LowerCase(r.ingredients[0].description), LowerCase(vs[i])) {
      forall i | 0 <= i < |vs| ensures IngredientPredicate(r, vs[i], true) {
        assert RowTest(r.ingredients[0].description, vs[i], true);
      }
    }
  }

  /**
   * With two ingredients the per-row exclusion lets a recipe through when
   * any other ingredient lacks the substring: excluding "salt" keeps a
   * recipe of "Salt" and "Oil".
   */
  lemma ExcludeMultipleIngredientsLeaks(r: RecipeState)
    requires r.ingredients == [Ingredient(Some(1), r.id, "Salt"), Ingredient(Some(2), r.id, "Oil")]
    ensures Holds(IngredientsExclude(["salt"]), r)
    ensures IngredientPredicate(r, "salt", false)
  {
    assert LowerCase("Salt") == "salt" && LowerCase("salt") == "salt";
    assert Contains(LowerCase("Salt"), LowerCase("salt"));
    assert |LowerCase("Oil")| == 3;
    if Contains(LowerCase("Oil"), LowerCase("salt")) {
      ContainsNoLonger(LowerCase("Oil"), LowerCase("salt"));
    }
    assert RowTest(r.ingredients[1].description, "salt", true);
    assert RowTest(r.ingredients[0].description, "salt", false);
  }

  /** A recipe without ingredients fails every ingredient clause with a substring, exclusion included: the inner join drops it. */
  lemma NoIngredientsNoMatch(vs: seq<string>, r: RecipeState)
    requires r.ingredients == [] && vs != []
    ensures !Holds(IngredientsExclude(vs), r) && !Holds(IngredientsInclude(vs), r)
  {
    assert !IngredientPredicate(r, vs[0], true);
  }
}

=== FILE: streams.dfy ===
/**
 * Collectors.toMap(keyMapper, identity): a map from each element's key to the
 * element, or IllegalStateException as soon as a key repeats. A null key is
 * an ordinary key (keys here are Option values, so None is one).
 */
module Streams {
  import opened Wrappers

  /** No two elements share a key. */
  predicate DistinctKeys<K(==), V>(items: seq<V>, key: V -> K) {
    forall i, j :: 0 <= i < j < |items| ==> key(items[i]) != key(items[j])
  }

  /** Collectors.toMap; None stands for the IllegalStateException on a duplicate key. */
  function ToMap<K(==), V>(items: seq<V>, key: V -> K): (r: Option<map<K, V>>)
    ensures r.Some? <==> DistinctKeys(items, key)
    ensures r.Some? ==> forall i :: 0 <= i < |items| ==> key(items[i]) in r.value && r.value[key(items[i])] == items[i]
    ensures r.Some? ==> forall k :: k in r.value ==> exists i :: 0 <= i < |items| && key(items[i]) == k
  {
    if items == [] then Some(map[])
    else
      var init := items[..|items| - 1];
      var last := items[|items| - 1];
      var rest := ToMap(init, key);
      if rest.None? then
        assert !DistinctKeys(init, key);
        None
      else if key(last) in rest.value then
        var i :| 0 <= i < |init| && key(init[i]) == key(last);
        assert key(items[i]) == key(items[|items| - 1]);
        None
      else
        var m := rest.value[key(last) := last];
        assert forall i :: 0 <= i < |init| ==> items[i] == init[i];
        Some(m)
  }
}

=== FILE: text.dfy ===
/**
 * The string operations the recipe service relies on, restricted to ASCII:
 * StringUtils.lowerCase / capitalize, SQL LOWER / UPPER, String.compareTo,
 * String.hashCode and SQL `LIKE '%v%'` containment.
 */
module Text {

  predicate IsUpperAscii(c: char) { 'A' <= c <= 'Z' }

  predicate IsLowerAscii(c: char) { 'a' <= c <= 'z' }

  function ToLower(c: char): (r: char)
    ensures !IsUpperAscii(r)
    ensures IsUpperAscii(c) ==> IsLowerAscii(r)
    ensures !IsUpperAscii(c) ==> r == c
  {
    if IsUpperAscii(c) then (c as int + 32) as char else c
  }

  function ToUpper(c: char): (r: char)
    ensures !IsLowerAscii(r)
    ensures IsLowerAscii(c) ==> IsUpperAscii(r)
    ensures !IsLowerAscii(c) ==> r == c
  {
    if IsLowerAscii(c) then (c as int - 32) as char else c
  }

  /** StringUtils.lowerCase on a non-null string, and SQL LOWER. */
  function LowerCase(s: string): (r: string)
    ensures |r| == |s|
    ensures forall i :: 0 <= i < |s| ==> r[i] == ToLower(s[i])
  {
    if s == [] then [] else [ToLower(s[0])] + LowerCase(s[1..])
  }

  /** SQL UPPER. */
  function UpperCase(s: string): (r: string)
    ensures |r| == |s|
    ensures forall i :: 0 <= i < |s| ==> r[i] == ToUpper(s[i])
  {
    if s == [] then [] else [ToUpper(s[0])] + UpperCase(s[1..])
  }

  /** StringUtils.capitalize on a non-null string: the first character is title-cased. */
  function Capitalize(s: string): (r: string)
    ensures |r| == |s|
    ensures |s| > 0 ==> r[0] == ToUpper(s[0]) && r[1..] == s[1..]
  {
    if s == [] then s else [ToUpper(s[0])] + s[1..]
  }

  /** Case-insensitive equality as the queries test it: UPPER(a) = UPPER(b). */
  predicate EqualsIgnoreCase(a: string, b: string) {
    UpperCase(a) == UpperCase(b)
  }

  /** `sub` occurs in `s` as a contiguous block (SQL `s LIKE '%' || sub || '%'`). */
  predicate Contains(s: string, sub: string)
  {
    sub <= s || (s != [] && Contains(s[1..], sub))
  }

  /** A string contains only blocks no longer than itself. */
  lemma {:induction false} ContainsNoLonger(s: string, sub: string)
    requires Contains(s, sub)
    ensures |sub| <= |s|
  {
    if !(sub <= s) {
      ContainsNoLonger(s[1..], sub);
    }
  }

  /** A string contains each of its suffixes. */
  lemma {:induction false} ContainsSuffix(p: string, sub: string)
    ensures Contains(p + sub, sub)
  {
    if p != [] {
      assert (p + sub)[1..] == p[1..] + sub;
      ContainsSuffix(p[1..], sub);
    }
  }

  /**
   * String.compareTo: the difference of the first differing characters, or
   * else the difference of the lengths. Characters here are Unicode scalar
   * values; Java's are UTF-16 code units, which agree with them only within
   * the Basic Multilingual Plane.
   */
  function Compare(a: string, b: string): int
  {
    if a == [] || b == [] then |a| - |b|
    else if a[0] != b[0] then a[0] as int - b[0] as int
    else Compare(a[1..], b[1..])
  }

  lemma {:induction false} CompareAntisymmetric(a: string, b: string)
    ensures Compare(a, b) == -Compare(b, a)
  {
    if a != [] && b != [] && a[0] == b[0] {
      CompareAntisymmetric(a[1..], b[1..]);
    }
  }

  lemma {:induction false} CompareZeroIffEqual(a: string, b: string)
    ensures Compare(a, b) == 0 <==> a == b
  {
    if a == [] || b == [] {
    } else if a[0] != b[0] {
    } else {
      CompareZeroIffEqual(a[1..], b[1..]);
      assert a == [a[0]] + a[1..] && b == [b[0]] + b[1..];
    }
  }

  lemma {:induction false} CompareTransitive(a: string, b: string, c: string)
    requires Compare(a, b) < 0 && Compare(b, c) < 0
    ensures Compare(a, c) < 0
  {
    if a == [] || b == [] || c == [] {
    } else if a[0] != b[0] || b[0] != c[0] {
    } else {
      CompareTransitive(a[1..], b[1..], c[1..]);
    }
  }

  /** Integer.compareTo. */
  function CompareInt(x: int, y: int): (r: int)
    ensures r < 0 <==> x < y
    ensures r == 0 <==> x == y
    ensures r > 0 <==> x > y
  {
    if x < y then -1 else if x == y then 0 else 1
  }

  /** Two's-complement truncation of an integer to Java's 32-bit `int`. */
  function Wrap32(x: int): (r: int)
    ensures -0x8000_0000 <= r < 0x8000_0000
    ensures (r - x) % 0x1_0000_0000 == 0
  {
    var u := x % 0x1_0000_0000;
    if u < 0x8000_0000 then u else u - 0x1_0000_0000
  }

  /** String.hashCode: h = 31 * h + c over the characters (as for Compare, scalar values), in 32-bit arithmetic. */
  function StringHash(s: string): (r: int)
    ensures -0x8000_0000 <= r < 0x8000_0000
  {
    if s == [] then 0 else Wrap32(31 * StringHash(s[..|s| - 1]) + s[|s| - 1] as int)
  }

  function DigitChar(d: nat): char
    requires d < 10
  {
    ('0' as int + d) as char
  }

  /** Decimal rendering of a natural number (used for ids inside messages). */
  function NatToText(n: nat): (r: string)
    ensures |r| > 0
    ensures forall i :: 0 <= i < |r| ==> '0' <= r[i] <= '9'
  {
    if n < 10 then [DigitChar(n)] else NatToText(n / 10) + [DigitChar(n % 10)]
  }
}

=== FILE: tree_set.dfy ===
/**
 * java.util.TreeSet as the recipe's SortedSet children use it: a sequence kept
 * strictly ascending under a comparator, where `add` drops an element whose
 * key compares equal (result 0) to one already present, whatever else differs.
 */
module TreeSet {
  import Streams

  /** One instance of transitivity of "less than" under `cmp`. */
  ghost predicate Chain<T>(cmp: (T, T) -> int, a: T, b: T, c: T) {
    cmp(a, b) < 0 && cmp(b, c) < 0 ==> cmp(a, c) < 0
  }

  /**
   * The comparator contract TreeSet relies on (Comparable.compareTo). The
   * transitivity clause is only instantiated through `Chain`, so proofs name
   * the three elements they chain.
   */
  ghost predicate TotalOrder<T(!new)>(cmp: (T, T) -> int) {
    && (forall a :: cmp(a, a) == 0)
    && (forall a, b :: cmp(a, b) < 0 <==> cmp(b, a) > 0)
    && (forall a, b, c {:trigger Chain(cmp, a, b, c)} :: Chain(cmp, a, b, c))
  }

  /** Iteration order of the set: strictly ascending, so no two elements share a key. */
  predicate Sorted<T>(cmp: (T, T) -> int, s: seq<T>) {
    forall i, j :: 0 <= i < j < |s| ==> cmp(s[i], s[j]) < 0
  }

  /** Some element of `s` has the same key as `x`. */
  predicate HasKey<T>(cmp: (T, T) -> int, s: seq<T>, x: T) {
    exists i :: 0 <= i < |s| && cmp(s[i], x) == 0
  }

  /** TreeSet.add: walk down the ascending elements; stop at an equal key (drop) or a greater one (insert). */
  function Add<T>(cmp: (T, T) -> int, s: seq<T>, x: T): (r: seq<T>)
    ensures forall y :: y in s ==> y in r
    ensures forall y :: y in r ==> y in s || y == x
    ensures |s| <= |r| <= |s| + 1
  {
    if s == [] then [x]
    else if cmp(x, s[0]) == 0 then s
    else if cmp(x, s[0]) < 0 then [x] + s
    else [s[0]] + Add(cmp, s[1..], x)
  }

  /** Collection.addAll: add each element in turn. */
  function AddAll<T>(cmp: (T, T) -> int, s: seq<T>, xs: seq<T>): (r: seq<T>)
    ensures forall y :: y in s ==> y in r
    ensures forall y :: y in r ==> y in s || y in xs
    ensures |s| <= |r| <= |s| + |xs|
    decreases xs
  {
    if xs == [] then s else AddAll(cmp, Add(cmp, s, xs[0]), xs[1..])
  }

  /** Collection.removeIf: drop the elements the predicate holds of, keep the rest in order. */
  function RemoveIf<T>(s: seq<T>, p: T -> bool): (r: seq<T>)
    ensures forall y :: y in r ==> y in s && !p(y)
    ensures forall y :: y in s && !p(y) ==> y in r
    ensures |r| <= |s|
  {
    if s == [] then []
    else if p(s[0]) then RemoveIf(s[1..], p)
    else [s[0]] + RemoveIf(s[1..], p)
  }

  lemma ZeroIsSymmetric<T(!new)>(cmp: (T, T) -> int, a: T, b: T)
    requires TotalOrder(cmp)
    ensures cmp(a, b) == 0 <==> cmp(b, a) == 0
  {
  }

  /** Adding to a sorted set keeps it sorted. */
  lemma {:induction false} AddSorted<T(!new)>(cmp: (T, T) -> int, s: seq<T>, x: T)
    requires TotalOrder(cmp) && Sorted(cmp, s)
    ensures Sorted(cmp, Add(cmp, s, x))
  {
    if s == [] || cmp(x, s[0]) == 0 {
    } else if cmp(x, s[0]) < 0 {
      var r := [x] + s;
      forall i, j | 0 <= i < j < |r| ensures cmp(r[i], r[j]) < 0 {
        if i == 0 && j > 1 {
          assert cmp(s[0], s[j - 1]) < 0;
          assert Chain(cmp, x, s[0], s[j - 1]);
        }
      }
    } else {
      AddSorted(cmp, s[1..], x);
      var t := Add(cmp, s[1..], x);
      var r := [s[0]] + t;
      forall i, j | 0 <= i < j < |r| ensures cmp(r[i], r[j]) < 0 {
        if i == 0 {
          assert r[j] in t;
          if r[j] != x {
            var k :| 0 <= k < |s[1..]| && s[1..][k] == r[j];
            assert cmp(s[0], s[k + 1]) < 0;
          }
        }
      }
    }
  }

  /** Adding an element whose key is already present changes nothing. */
  lemma {:induction false} AddKeepsPresentKey<T(!new)>(cmp: (T, T) -> int, s: seq<T>, x: T)
    requires TotalOrder(cmp) && Sorted(cmp, s) && HasKey(cmp, s, x)
    ensures Add(cmp, s, x) == s
  {
    var i :| 0 <= i < |s| && cmp(s[i], x) == 0;
    ZeroIsSymmetric(cmp, s[i], x);
    if cmp(x, s[0]) != 0 {
      assert i > 0;
      assert cmp(s[0], s[i]) < 0;
      assert Chain(cmp, x, s[0], s[i]);
      var rest := s[1..];
      assert rest[i - 1] == s[i];
      assert Sorted(cmp, rest) by {
        forall a, b | 0 <= a < b < |rest| ensures cmp(rest[a], rest[b]) < 0 {
          assert rest[a] == s[a + 1] && rest[b] == s[b + 1];
        }
      }
      AddKeepsPresentKey(cmp, rest, x);
    }
  }

  /** Adding an element with a new key inserts exactly that element. */
  lemma {:induction false} AddInsertsNewKey<T(!new)>(cmp: (T, T) -> int, s: seq<T>, x: T)
    requires TotalOrder(cmp) && !HasKey(cmp, s, x)
    ensures multiset(Add(cmp, s, x)) == multiset(s) + multiset{x}
  {
    if s != [] {
      assert cmp(s[0], x) != 0;
      ZeroIsSymmetric(cmp, s[0], x);
      if cmp(x, s[0]) > 0 {
        forall k | 0 <= k < |s[1..]| ensures cmp(s[1..][k], x) != 0 {
          assert s[1..][k] == s[k + 1];
        }
        AddInsertsNewKey(cmp, s[1..], x);
        assert s == [s[0]] + s[1..];
        calc {
          multiset(Add(cmp, s, x));
          multiset([s[0]] + Add(cmp, s[1..], x));
          multiset([s[0]]) + multiset(Add(cmp, s[1..], x));
          multiset([s[0]]) + multiset(s[1..]) + multiset{x};
          multiset(s) + multiset{x};
        }
      }
    }
  }

  /** After adding, some element carries the added element's key. */
  lemma {:induction false} AddHasKey<T(!new)>(cmp: (T, T) -> int, s: seq<T>, x: T)
    requires TotalOrder(cmp)
    ensures HasKey(cmp, Add(cmp, s, x), x)
  {
    var r := Add(cmp, s, x);
    if s == [] || cmp(x, s[0]) < 0 {
      assert r[0] == x;
    } else if cmp(x, s[0]) == 0 {
      assert cmp(r[0], x) == 0;
    } else {
      AddHasKey(cmp, s[1..], x);
      var k :| 0 <= k < |Add(cmp, s[1..], x)| && cmp(Add(cmp, s[1..], x)[k], x) == 0;
      assert cmp(r[k + 1], x) == 0;
    }
  }

  /** A key present before an add is still present after it. */
  lemma AddKeepsKeys<T(!new)>(cmp: (T, T) -> int, s: seq<T>, x: T, y: T)
    requires HasKey(cmp, s, y)
    ensures HasKey(cmp, Add(cmp, s, x), y)
  {
    var i :| 0 <= i < |s| && cmp(s[i], y) == 0;
    var r := Add(cmp, s, x);
    assert s[i] in r;
    var j :| 0 <= j < |r| && r[j] == s[i];
  }

  /** addAll keeps a sorted set sorted. */
  lemma {:induction false} AddAllSorted<T(!new)>(cmp: (T, T) -> int, s: seq<T>, xs: seq<T>)
    requires TotalOrder(cmp) && Sorted(cmp, s)
    ensures Sorted(cmp, AddAll(cmp, s, xs))
    decreases xs
  {
    if xs != [] {
      AddSorted(cmp, s, xs[0]);
      AddAllSorted(cmp, Add(cmp, s, xs[0]), xs[1..]);
    }
  }

  /** addAll keeps every key already present. */
  lemma {:induction false} AddAllKeepsKeys<T(!new)>(cmp: (T, T) -> int, s: seq<T>, xs: seq<T>, y: T)
    requires HasKey(cmp, s, y)
    ensures HasKey(cmp, AddAll(cmp, s, xs), y)
    decreases xs
  {
    if xs != [] {
      AddKeepsKeys(cmp, s, xs[0], y);
      AddAllKeepsKeys(cmp, Add(cmp, s, xs[0]), xs[1..], y);
    }
  }

  /**
   * After addAll, every added element's key is present, and an added element
   * whose key was present neither before nor among the earlier added elements
   * is itself in the set (the first of several equal keys wins).
   */
  lemma {:induction false} AddAllOutcome<T(!new)>(cmp: (T, T) -> int, s: seq<T>, xs: seq<T>)
    requires TotalOrder(cmp) && Sorted(cmp, s)
    ensures forall k :: 0 <= k < |xs| ==> HasKey(cmp, AddAll(cmp, s, xs), xs[k])
    ensures forall k :: 0 <= k < |xs| && !HasKey(cmp, s + xs[..k], xs[k]) ==> xs[k] in AddAll(cmp, s, xs)
    decreases xs
  {
    if xs != [] {
      var s' := Add(cmp, s, xs[0]);
      AddSorted(cmp, s, xs[0]);
      AddAllOutcome(cmp, s', xs[1..]);
      var r := AddAll(cmp, s, xs);
      assert r == AddAll(cmp, s', xs[1..]);
      forall k | 0 <= k < |xs| ensures HasKey(cmp, r, xs[k]) {
        if k == 0 {
          AddHasKey(cmp, s, xs[0]);
          AddAllKeepsKeys(cmp, s', xs[1..], xs[0]);
        } else {
          assert xs[1..][k - 1] == xs[k];
        }
      }
      forall k | 0 <= k < |xs| && !HasKey(cmp, s + xs[..k], xs[k]) ensures xs[k] in r {
        if k == 0 {
          assert s + xs[..0] == s;
          AddInsertsNewKey(cmp, s, xs[0]);
          assert xs[0] in multiset(s');
        } else {
          assert xs[1..][k - 1] == xs[k];
          var t := s' + xs[1..][..k - 1];
          forall i | 0 <= i < |t| ensures cmp(t[i], xs[k]) != 0 {
            if i < |s'| {
              if t[i] in s {
                var j :| 0 <= j < |s| && s[j] == t[i];
                assert (s + xs[..k])[j] == t[i];
              } else {
                assert t[i] == xs[0];
                assert (s + xs[..k])[|s|] == t[i];
              }
            } else {
              assert t[i] == xs[i - |s'| + 1];
              assert (s + xs[..k])[|s| + i - |s'| + 1] == t[i];
            }
          }
        }
      }
    }
  }

  /** Filling an empty set from elements whose keys differ pairwise keeps every element and adds nothing. */
  lemma AddAllDistinctKeepsAll<T(!new)>(cmp: (T, T) -> int, xs: seq<T>)
    requires TotalOrder(cmp)
    requires forall i, j :: 0 <= i < j < |xs| ==> cmp(xs[i], xs[j]) != 0
    ensures forall x :: x in AddAll(cmp, [], xs) <==> x in xs
  {
    AddAllOutcome(cmp, [], xs);
    forall k | 0 <= k < |xs| ensures xs[k] in AddAll(cmp, [], xs) {
      assert [] + xs[..k] == xs[..k];
    }
  }

  /** Adding an element greater than every present one appends it. */
  lemma {:induction false} AddGreatest<T(!new)>(cmp: (T, T) -> int, s: seq<T>, x: T)
    requires TotalOrder(cmp)
    requires forall i :: 0 <= i < |s| ==> cmp(s[i], x) < 0
    ensures Add(cmp, s, x) == s + [x]
  {
    if s != [] {
      assert cmp(x, s[0]) > 0;
      forall i | 0 <= i < |s[1..]| ensures cmp(s[1..][i], x) < 0 {
        assert s[1..][i] == s[i + 1];
      }
      AddGreatest(cmp, s[1..], x);
      assert [s[0]] + (s[1..] + [x]) == s + [x];
    }
  }

  /** Adding the elements of an ascending sequence, in order, to a set below them all appends them. */
  lemma {:induction false} AddAllAscending<T(!new)>(cmp: (T, T) -> int, s: seq<T>, xs: seq<T>)
    requires TotalOrder(cmp) && Sorted(cmp, s + xs)
    ensures AddAll(cmp, s, xs) == s + xs
    decreases xs
  {
    if xs != [] {
      forall i | 0 <= i < |s| ensures cmp(s[i], xs[0]) < 0 {
        assert (s + xs)[i] == s[i] && (s + xs)[|s|] == xs[0];
      }
      AddGreatest(cmp, s, xs[0]);
      assert (s + [xs[0]]) + xs[1..] == s + xs;
      AddAllAscending(cmp, s + [xs[0]], xs[1..]);
    }
  }

  /** Removing keeps a sorted set sorted. */
  lemma {:induction false} RemoveIfSorted<T(!new)>(cmp: (T, T) -> int, s: seq<T>, p: T -> bool)
    requires Sorted(cmp, s)
    ensures Sorted(cmp, RemoveIf(s, p))
  {
    if s != [] {
      RemoveIfSorted(cmp, s[1..], p);
      var t := RemoveIf(s[1..], p);
      if !p(s[0]) {
        var r := [s[0]] + t;
        forall i, j | 0 <= i < j < |r| ensures cmp(r[i], r[j]) < 0 {
          if i == 0 {
            assert r[j] in s[1..];
            var k :| 0 <= k < |s[1..]| && s[1..][k] == r[j];
            assert cmp(s[0], s[k + 1]) < 0;
          }
        }
      }
    }
  }

  /** removeIf keeps the relative order: it distributes over concatenation. */
  lemma {:induction false} RemoveIfKeepsOrder<T>(s1: seq<T>, s2: seq<T>, p: T -> bool)
    ensures RemoveIf(s1 + s2, p) == RemoveIf(s1, p) + RemoveIf(s2, p)
  {
    if s1 != [] {
      assert (s1 + s2)[1..] == s1[1..] + s2;
      RemoveIfKeepsOrder(s1[1..], s2, p);
    } else {
      assert s1 + s2 == s2;
    }
  }

  /** When the predicate holds of everything, removeIf leaves nothing. */
  lemma {:induction false} RemoveIfEverythingMatches<T>(s: seq<T>, p: T -> bool)
    requires forall x :: x in s ==> p(x)
    ensures RemoveIf(s, p) == []
  {
    if s != [] {
      assert s[0] in s;
      assert forall x :: x in s[1..] ==> x in s;
      RemoveIfEverythingMatches(s[1..], p);
    }
  }

  /** When the predicate holds of nothing, removeIf changes nothing. */
  lemma {:induction false} RemoveIfNothingMatches<T>(s: seq<T>, p: T -> bool)
    requires forall y :: y in s ==> !p(y)
    ensures RemoveIf(s, p) == s
  {
    if s != [] {
      assert s[0] in s;
      RemoveIfNothingMatches(s[1..], p);
    }
  }

  /** Removing elements never makes two of the remaining ones share a key. */
  lemma {:induction false} RemoveIfKeepsDistinctKeys<T, K>(s: seq<T>, p: T -> bool, key: T -> K)
    requires Streams.DistinctKeys(s, key)
    ensures Streams.DistinctKeys(RemoveIf(s, p), key)
  {
    if s != [] {
      assert Streams.DistinctKeys(s[1..], key) by {
        forall i, j | 0 <= i < j < |s[1..]| ensures key(s[1..][i]) != key(s[1..][j]) {
          assert s[1..][i] == s[i + 1] && s[1..][j] == s[j + 1];
        }
      }
      RemoveIfKeepsDistinctKeys(s[1..], p, key);
      var t := RemoveIf(s[1..], p);
      if !p(s[0]) {
        var r := [s[0]] + t;
        forall i, j | 0 <= i < j < |r| ensures key(r[i]) != key(r[j]) {
          if i == 0 {
            assert r[j] in s[1..];
            var k :| 0 <= k < |s[1..]| && s[1..][k] == r[j];
            assert key(s[0]) != key(s[k + 1]);
          } else {
            assert r[i] == t[i - 1] && r[j] == t[j - 1];
          }
        }
      }
    }
  }
}

=== FILE: wrappers.dfy ===
/** Option: a value that may be absent (Java's null). */
module Wrappers {
  datatype Option<+T> = None | Some(value: T) {
    /** The value, or `default` when absent. */
    function GetOr(default: T): T {
      match this
      case Some(v) => v
      case None => default
    }
  }
}
